=== FILE: README.md ===
# Decision-tree induction and prediction, modelled in Dafny

This project models the decision-tree learners of the `mi_arbol_decision` and
`arbol_decision` packages. It proves properties of the model.

## What the model covers

The main learner is `ArbolDecision` of `mi_arbol_decision/algoritmo3.py`.
- **Building.** It recurses over a set of rows and a list of available
  attributes. It stops with a leaf holding the most common class in three cases:
  - all rows have one class;
  - no attribute is left;
  - the best gain falls below `umbral_ganancia`.
- **Choosing.** Otherwise it asks an impurity strategy (`funcion_impureza/`)
  for the best attribute. There are two strategies: information gain and gain
  ratio. Both scan from the sentinel `Atributo()`, which has gain -1, and keep
  a candidate only on a strictly greater score.
- **Categorical split.** One child per value present, stored under
  `str(value)`. The attribute leaves the list for the children.
- **Continuous split.** Two children, `<= t` and `> t`, where `t` is a
  midpoint between two neighbouring distinct values. The list stays the same.
- **Prediction.** `predecir` validates the instance's keys, then walks the
  tree. At a categorical node, a value with no child of its own gets the
  node's most common class.

The three other learners are modelled too, and related to the main one:
- `mi_arbol_decision/algoritmo2.py` computes information gain inline. It is
  proved to build exactly the tree of `algoritmo3.py` with information gain.
- `mi_arbol_decision/algoritmo.py` reads every column as categorical. It fails
  with a missing key when no attribute gains more than -1. On tables without
  numeric-dtype columns, whenever it succeeds, it is proved to build the tree
  of `algoritmo3.py`. On other tables the two differ: `algoritmo3.py` splits
  numeric columns at thresholds.
- `arbol_decision/algoritmo.py` is a binary C4.5. It works on numeric arrays,
  takes thresholds from the column's own values, and ranks splits by gain
  ratio.
- `arbol_decision/algoritmo2.py` is a multi-way C4.5. It splits only on a
  positive information gain, and falls back to a node's most common class for
  unseen values.

The modules, each in its own file:
- `Base`: the `Option` and `Result` wrappers.
- `Seqs`: distinct elements, sums, filters, the scan that keeps a strictly
  better score, and the mode.
- `Table`: rows, columns and row partitions.
- `Shannon`: the four spellings of entropy.
- `Attributes`, `Nodes`: `Atributo` and `Nodo`.
- `InfoGain`, `GainRatio`: the two strategies.
- `DecisionTree`, `TreeFacts`: the `algoritmo3.py` builder and its properties.
- `Prediction`, `PredictionFacts`: training and `predecir`, and their
  properties.
- `InlineTree`: `algoritmo2.py`.
- `CategoricalTree`: `algoritmo.py`.
- `BinaryC45`: `arbol_decision/algoritmo.py`.
- `MultiwayC45`: `arbol_decision/algoritmo2.py`.

Numbers are exact `real`s. The base-2 logarithm is a parameter `log2` of the
functions that need it, with no properties assumed. The few lemmas that need
`log2(1) = 0`, or `log2 <= 0` on `(0, 1]`, state that as a `requires`.

## Model

| member | source | states |
|---|---|---|
| `Attributes.SentinelDefaults` | mi_arbol_decision/funcion_impureza/atributo.py:2-8 | The default descriptor `Atributo()` has name `''` and gain -1, and it is categorical because it has no threshold. |
| `Nodes.KeyOf` | mi_arbol_decision/algoritmo3.py:81 | The key `str(v)` that a categorical child is stored under is a value key, never one of the threshold keys. |
| `Nodes.ValueOf` | mi_arbol_decision/algoritmo3.py:75-82 | Each value key maps back to a cell whose key it is, so `str` keys are a faithful record of the grouping value. |
| `Nodes.RawKeyFindsOwnKey` | mi_arbol_decision/algoritmo3.py:81-82 | Looking up the raw instance value in a dictionary keyed by `str(value)` finds the value's own child exactly when the value is text; a number never does. |
| `Shannon.Entropy` | mi_arbol_decision/entropia.py:5-6 | An empty series has entropy 0. |
| `Shannon.VariantsAgree` | mi_arbol_decision/algoritmo.py:123-133 | Two other spellings equal `calcular_entropia` on every series: the inline entropy of `algoritmo.py`, which has no empty check, and `calcular_entropia2`, which always negates. |
| `Shannon.Bins` | arbol_decision/entropia.py:7 | The bins of `np.bincount` are exactly 0 .. max(y), without repeats, and there are none for an empty `y`. |
| `Shannon.BincountAgrees` | arbol_decision/entropia.py:4-9 | Counting labels with `bincount` and skipping empty bins gives the same entropy as counting the labels present. |
| `Shannon.DependsOnlyOnCounts` | mi_arbol_decision/entropia.py:9-17 | Two series in which every label occurs equally often have the same entropy, whatever the row order. |
| `Shannon.OneLabelHasZeroEntropy` | mi_arbol_decision/entropia.py:15-19 | A series holding one label only has entropy 0, given log2(1) = 0. |
| `Shannon.ZeroEntropyIffOneLabel` | mi_arbol_decision/entropia.py:4-20 | A non-empty series has entropy 0 if and only if every label equals the first, given log2(1) = 0 and log2 negative on (0, 1). |
| `Shannon.TwoLabelsPositive` | mi_arbol_decision/entropia.py:9-19 | A series holding two different labels has positive entropy, given log2(1) = 0 and log2 negative on (0, 1). |
| `Shannon.NonNegative` | mi_arbol_decision/entropia.py:15-19 | Entropy is never negative when log2 is non-positive on (0, 1]. |
| `Shannon.UniformIsLogOfK` | mi_arbol_decision/entropia.py:9-19 | k equally frequent labels have entropy log2(k), given log2(1/k) = -log2(k). |
| `InfoGain.ConstantAttributeGainsNothing` | mi_arbol_decision/funcion_impureza/ganancia_informacion.py:77-89 | Splitting on an attribute that takes one value leaves the labels' entropy unchanged, so its categorical gain is 0. |
| `InfoGain.SplitWeightsSumToOne` | mi_arbol_decision/funcion_impureza/ganancia_informacion.py:59-64 | The shares `len(<=)/len(df)` and `len(>)/len(df)` of a non-empty set add up to one. |
| `InfoGain.CandidatesBetweenNeighbours` | mi_arbol_decision/funcion_impureza/ganancia_informacion.py:52-55 | The sorted unique values increase strictly and are exactly the column's values. k distinct values give k - 1 candidates, the i-th strictly between the i-th and (i+1)-th value. |
| `InfoGain.CandidateSplitsProperly` | mi_arbol_decision/funcion_impureza/ganancia_informacion.py:57-60 | Every candidate threshold leaves rows on both sides, so each side is strictly smaller than the set. |
| `InfoGain.CandidateGains` | mi_arbol_decision/funcion_impureza/ganancia_informacion.py:57-70 | There is one gain per candidate, in candidate order, and the i-th is the gain of the split at the i-th candidate. |
| `InfoGain.PickThreshold` | mi_arbol_decision/funcion_impureza/ganancia_informacion.py:49-50 | No threshold, with gain -1, exactly when no gain exceeds -1. Otherwise the result is the first candidate of maximal gain, with that gain. |
| `InfoGain.BestThreshold` | mi_arbol_decision/funcion_impureza/ganancia_informacion.py:47-75 | The result is the first candidate, in ascending order, of maximal gain, or `(-1, None)` when no gain exceeds -1. A chosen threshold splits properly. Fewer than two distinct values give `(-1, None)`. |
| `InfoGain.Score` | mi_arbol_decision/funcion_impureza/ganancia_informacion.py:26-44 | A numeric column is scored by its best threshold. Any other column gets the categorical gain (set entropy minus the weighted entropy of its value groups) and no threshold. The name is the attribute's own. |
| `InfoGain.BestAttribute` | mi_arbol_decision/funcion_impureza/ganancia_informacion.py:16-24 | The winner's gain is at least -1 and at least every attribute's gain. It is the sentinel exactly when no gain exceeds -1, so an empty list gives the sentinel. Otherwise it is the score of the first attribute of maximal gain. |
| `InfoGain.BestIsFirstMax` | mi_arbol_decision/funcion_impureza/ganancia_informacion.py:19-22 | A winner that is not the sentinel is the attribute at the first position of maximal gain, with that gain. |
| `GainRatio.Ratio` | mi_arbol_decision/funcion_impureza/tasa_ganancia_informacion.py:21-25 | An attribute whose own column has entropy 0 gets ratio 0, with no division. |
| `GainRatio.RatioScalesBack` | mi_arbol_decision/funcion_impureza/tasa_ganancia_informacion.py:21-23 | Otherwise the ratio times the entropy of the attribute's own column, numeric or not, is the gain. |
| `GainRatio.ConstantColumnHasZeroRatio` | mi_arbol_decision/funcion_impureza/tasa_ganancia_informacion.py:21-25 | A column holding one value has ratio 0 whatever its gain, given log2(1) = 0. |
| `GainRatio.BestAttribute` | mi_arbol_decision/funcion_impureza/tasa_ganancia_informacion.py:14-34 | The sentinel when no ratio exceeds -1, which includes an empty list. Otherwise the information-gain score (the gain, not the ratio) of the first attribute of maximal ratio. |
| `DecisionTree.StrategyFor` | mi_arbol_decision/algoritmo3.py:25-31 | Gain ratio exactly for its own name, and information gain for its name and for every unknown name. |
| `DecisionTree.Choose` | mi_arbol_decision/algoritmo3.py:55 | Whatever the strategy, the choice is the sentinel or an available attribute carrying exactly its information-gain score. A threshold comes only with a numeric attribute, and it splits properly. |
| `DecisionTree.Leaf` | mi_arbol_decision/algoritmo3.py:48 | A leaf holds the class as both `valor` and `clase_mas_comun`, with no attribute, no threshold and no children. |
| `DecisionTree.SplitAttributeAvailable` | mi_arbol_decision/algoritmo3.py:57-71 | With a gain threshold above -1, an attribute that passes the gain test is in the list, so `remove` cannot fail. |
| `DecisionTree.CategoricalSplitIsTextual` | mi_arbol_decision/algoritmo3.py:68 | A categorical split is never on a numeric column. |
| `DecisionTree.Build` | mi_arbol_decision/algoritmo3.py:38-102 | The builder itself carries no contract. Its stopping rules are proved in `TreeFacts.LeafIffStops`, its splits in `TreeFacts.CategoricalSplitShape` and `TreeFacts.ContinuousSplitShape`, and its recorded classes in `TreeFacts.BuildRecordsMode`. |
| `DecisionTree.ValueKeys` | mi_arbol_decision/algoritmo3.py:75-82 | The child keys of a categorical split are exactly the keys of the values present in the column. |
| `TreeFacts.BuildRecordsMode` | mi_arbol_decision/algoritmo3.py:39-40 | Every node's `clase_mas_comun` is a class of maximal frequency among its rows. It is `None` exactly for an empty row set. |
| `TreeFacts.SingleClassGivesLeaf` | mi_arbol_decision/algoritmo3.py:45-48 | Rows of one class give the leaf whose `valor` and `clase_mas_comun` are that class. |
| `TreeFacts.LeafIffStops` | mi_arbol_decision/algoritmo3.py:45-61 | On a non-empty row set the builder returns a leaf exactly when one of the three stopping rules fires. That leaf predicts a most common class. |
| `TreeFacts.ByValueShape` | mi_arbol_decision/algoritmo3.py:64-84 | A categorical split has one child per distinct value present, under its `str` key. Each child is built from exactly the rows with that value, and from the list minus one occurrence of the attribute. |
| `TreeFacts.CategoricalSplitShape` | mi_arbol_decision/algoritmo3.py:68-84 | When the builder splits on a categorical winner, that winner is an available non-numeric attribute and the node is its split by value. |
| `TreeFacts.AtThresholdShape` | mi_arbol_decision/algoritmo3.py:85-102 | A continuous split stores the attribute and `umbral = t`. It has exactly the children `<= t` and `> t`, built with the unchanged list from two non-empty sides that are disjoint and together hold every row. |
| `TreeFacts.ContinuousSplitShape` | mi_arbol_decision/algoritmo3.py:85-102 | When the builder splits on a continuous winner, the threshold is one of the attribute's midpoint candidates and the node is the split at it. |
| `TreeFacts.BuildUsesCategoricalOnce` | mi_arbol_decision/algoritmo3.py:69-71 | Along every path, a categorical attribute is decided on at most as often as it occurs in the list. A continuous one may return with other thresholds. |
| `Prediction.NewLearner` | mi_arbol_decision/algoritmo3.py:10-16 | A new learner has no tree, no table and no target. It keeps the gain threshold and strategy name it is given, which default to 0.001 and `''`. |
| `Prediction.AttributeList` | mi_arbol_decision/algoritmo3.py:33-36 | The list is empty before training or for a blank target. It fails exactly when the target is not a column. Otherwise it holds the columns other than the target, without repeats when the table has none. |
| `Prediction.Train` | mi_arbol_decision/algoritmo3.py:18-23 | Training fails exactly when the target is not a column. Otherwise it keeps the table, target, threshold and strategy name, and the root is the tree built over the attribute list with the named strategy. |
| `Prediction.AsMap` | mi_arbol_decision/algoritmo3.py:111 | The instance dictionary has exactly the instance's keys, each with its own value. |
| `Prediction.FirstUnknown` | mi_arbol_decision/algoritmo3.py:118-120 | It finds the first key, in order, that is not an attribute, or nothing when every key is one. |
| `Prediction.Walk` | mi_arbol_decision/algoritmo3.py:126-147 | A walk fails only with a missing key, or with text compared against a threshold. |
| `Prediction.Predict` | mi_arbol_decision/algoritmo3.py:111-150 | The checks fail in this order: the attribute list, untrained, key count, then the first key that is not an attribute. An instance whose count matches but that has an unknown key gets `InvalidAttribute` of the first such key. An instance that passes every check is walked, and only such an instance is walked. |
| `Prediction.ValidatedKeysAreTheAttributes` | mi_arbol_decision/algoritmo3.py:113-120 | An instance that passes the checks has exactly the training attributes as its keys. |
| `PredictionFacts.BuildRoutable` | mi_arbol_decision/algoritmo3.py:38-102 | Every tree built from a non-empty row set can be walked to its end. Each decision is on a known attribute, and each continuous decision is on a numeric attribute with both threshold children. |
| `PredictionFacts.WalkTotal` | mi_arbol_decision/algoritmo3.py:124-150 | On such a tree, an instance with every attribute, and numbers for the numeric ones, always gets a class. |
| `PredictionFacts.PredictAfterTraining` | mi_arbol_decision/algoritmo3.py:18-23 | After training on a non-empty table, every instance naming exactly the attributes, with numbers for the numeric ones, gets a class. |
| `PredictionFacts.WalkStepByValue` | mi_arbol_decision/algoritmo3.py:131-134 | At a categorical node, an instance value that is a child key continues in that child. |
| `PredictionFacts.WalkStepAtThreshold` | mi_arbol_decision/algoritmo3.py:139-147 | At a continuous node, a number continues under `<= t` when it is at most `t`, and under `> t` otherwise. |
| `PredictionFacts.LeafRows` | mi_arbol_decision/algoritmo3.py:64-102 | The training rows that reach a training row's leaf are taken, decision by decision, as the group with the row's value or the side of the threshold it falls on. They contain the row, and hold no row more often than the training rows do. |
| `PredictionFacts.TrainingRowFollowsItsGroup` | mi_arbol_decision/algoritmo3.py:124-150 | A training row, with text in its text attributes, is answered with the most common class of exactly its `LeafRows` group. |
| `PredictionFacts.UnseenValueFallsBack` | mi_arbol_decision/algoritmo3.py:130-138 | At a categorical decision, an instance value that was not seen there, or that is a number, gets the node's most common class. |
| `PredictionFacts.SeenValueDescends` | mi_arbol_decision/algoritmo3.py:130-134 | At a categorical decision, a text value that was seen continues in the child built from the rows holding that value. |
| `PredictionFacts.RoutingAtThreshold` | mi_arbol_decision/algoritmo3.py:139-147 | At a continuous decision, a number at most `t` continues in the tree built from the rows at most `t`, and a larger one in the tree built from the rows above `t`. Text fails the comparison. |
| `InlineTree.Weigh` | mi_arbol_decision/algoritmo2.py:113-126 | Weighing keeps the attribute's name. A threshold comes only with a numeric attribute, with a gain above -1, and it splits the rows properly. |
| `InlineTree.WeighIsScore` | mi_arbol_decision/algoritmo2.py:107-129 | Weighing an attribute inline gives the information-gain strategy's score for it. |
| `InlineTree.Scan` | mi_arbol_decision/algoritmo2.py:107-129 | The scan's result is the initial `('', -1, None)` or an available attribute of gain above -1. A threshold comes only with a numeric attribute, and it splits properly. |
| `InlineTree.ScanAgrees` | mi_arbol_decision/algoritmo2.py:107-129 | The inline scan picks the same name, gain and threshold as the information-gain strategy, or the initial triple where the strategy returns the sentinel. |
| `InlineTree.Build2` | mi_arbol_decision/algoritmo2.py:24-97 | Every node records the mode of its rows as its most common class. That the whole tree is the information-gain tree of `algoritmo3.py` is `InlineTree.SameTreeAsInformationGain`. |
| `InlineTree.SameTreeAsInformationGain` | mi_arbol_decision/algoritmo2.py:24-97 | `algoritmo2.py` builds exactly the tree that `algoritmo3.py` builds with information gain. |
| `InlineTree.Train2` | mi_arbol_decision/algoritmo2.py:17-22 | Training fails exactly when the target is not a column. Otherwise the root is the information-gain tree over the other columns. |
| `CategoricalTree.AttributeEntropies` | mi_arbol_decision/algoritmo.py:83-93 | Each attribute's entropy is the weighted entropy of its value groups. |
| `CategoricalTree.Elect` | mi_arbol_decision/algoritmo.py:95-105 | The result is `''` when no gain exceeds -1. Otherwise it is the first attribute of maximal gain. |
| `CategoricalTree.ElectIsBestAttribute` | mi_arbol_decision/algoritmo.py:36-48 | Its choice is the information-gain strategy's choice over all-categorical columns. |
| `CategoricalTree.Build1` | mi_arbol_decision/algoritmo.py:18-75 | The builder itself carries no contract. The tree it builds is related to `algoritmo3.py` by `CategoricalTree.SameTreeWhenBuilt`. |
| `CategoricalTree.SameTreeWhenBuilt` | mi_arbol_decision/algoritmo.py:18-75 | On a table without numeric-dtype columns, whenever `algoritmo.py` builds a tree, it is the tree `algoritmo3.py` builds with information gain. |
| `CategoricalTree.Train1` | mi_arbol_decision/algoritmo.py:11-16 | Training fails when the target is not a column. A tree it builds is the information-gain tree over the other columns. |
| `BinaryC45.Divide` | arbol_decision/algoritmo.py:119-123 | The left positions are exactly those whose value is at most `t`, and the right positions those above it. Together they hold every position once. |
| `BinaryC45.Gain` | arbol_decision/algoritmo.py:88-90 | The gain is 0 when a side is empty. |
| `BinaryC45.SplitInfo` | arbol_decision/algoritmo.py:104-111 | The split information is 0 when a side is empty. |
| `BinaryC45.RatioAt` | arbol_decision/algoritmo.py:62-76 | A candidate is skipped exactly when its gain or its split information is 0. A kept candidate leaves samples on both sides. |
| `BinaryC45.Splits` | arbol_decision/algoritmo.py:56-60 | The candidates are exactly the pairs of a feature index and one of that feature's own values, each once. They come feature by feature, and in ascending value order within a feature. |
| `BinaryC45.FirstBest` | arbol_decision/algoritmo.py:49-50 | Nothing when no kept ratio exceeds -1. Otherwise the first position of maximal ratio. |
| `BinaryC45.FindSplit` | arbol_decision/algoritmo.py:44-83 | The result is the candidate in scan order of strictly greatest ratio, or nothing when no candidate qualifies. A chosen split names an existing feature and leaves samples on both sides. |
| `Seqs.Mode` | arbol_decision/algoritmo.py:125-129 | The most common label is `None` exactly for no labels, otherwise a label of maximal count. The same function gives `mode()[0] if not empty else None` in mi_arbol_decision. |
| `BinaryC45.StoppingRules` | arbol_decision/algoritmo.py:17-42 | A leaf with the most common label when the depth limit is reached, the labels are pure, the samples are too few, or no split qualifies. Otherwise it is a decision on the chosen split. |
| `BinaryC45.Build` | arbol_decision/algoritmo.py:17-42 | A leaf holds the most common label of the samples. A decision is on an existing feature, and its feature and threshold are the split `_encontrar_mejor_division` finds. |
| `BinaryC45.SplitShape` | arbol_decision/algoritmo.py:17-42 | A decision is made below the depth limit. Its left subtree is built one level deeper from the samples whose feature value is at most the threshold, and its right subtree from those above it. Both sides are non-empty. |
| `BinaryC45.PureLabelsGiveLeaf` | arbol_decision/algoritmo.py:23-27 | Pure labels give the leaf holding that label. |
| `BinaryC45.Traverse` | arbol_decision/algoritmo.py:135-142 | A leaf gives its value. A decision goes left exactly when the feature is at most the threshold. |
| `BinaryC45.Predict` | arbol_decision/algoritmo.py:131-133 | No samples give no predictions, trained or not. Otherwise there is one prediction per sample, each the traversal of the tree. There is nothing without a tree, or when some sample cannot be traversed. |
| `BinaryC45.BuildGrounded` | arbol_decision/algoritmo.py:17-42 | On at least one sample, every decision tests an existing feature and every leaf holds one of the training labels. |
| `BinaryC45.Fit` | arbol_decision/algoritmo.py:13-15 | Fitting stores the tree built from all samples at depth 0. Fitted on at least one sample, the tree tests only existing features and its leaves hold only training labels. |
| `BinaryC45.PredictAfterFit` | arbol_decision/algoritmo.py:13-15 | After fitting on at least one sample, every sample of the training width is classified with a training label. |
| `MultiwayC45.Joined` | arbol_decision/algoritmo2.py:12-17 | The working table is each sample with its label added under the label series' name. |
| `MultiwayC45.Fit` | arbol_decision/algoritmo2.py:12-17 | The root is the depth-0 tree built from the samples joined with their labels, over every sample column and then the label column. Its most common class is the mode of `y`. |
| `MultiwayC45.BestFeature` | arbol_decision/algoritmo2.py:49-75 | A chosen feature is a column other than the label. |
| `MultiwayC45.BestFeatureNoneIffNoGain` | arbol_decision/algoritmo2.py:75 | No feature is chosen exactly when no column's gain is positive. |
| `MultiwayC45.BestFeatureIsFirstPositiveMaximum` | arbol_decision/algoritmo2.py:49-75 | The chosen feature is the first column of strictly greatest gain, and that gain is positive. |
| `MultiwayC45.Build` | arbol_decision/algoritmo2.py:26-47 | Every node stores the mode of its rows as `most_common_class`. |
| `MultiwayC45.StoppingRules` | arbol_decision/algoritmo2.py:26-47 | A leaf with the mode when the depth limit is reached, the labels are pure, the rows are too few, or no feature is chosen. Otherwise it is a decision on the chosen feature. |
| `MultiwayC45.BranchShape` | arbol_decision/algoritmo2.py:40-47 | A decision has one child per value present. Each child is built one level deeper, from the rows with that value, without that column. |
| `MultiwayC45.GroupMembers` | arbol_decision/algoritmo2.py:41-43 | A child's rows are exactly the rows carrying that value, with the column removed. |
| `MultiwayC45.PureLabelsGiveLeaf` | arbol_decision/algoritmo2.py:26-30 | Pure labels give the leaf holding that label. |
| `MultiwayC45.Traverse` | arbol_decision/algoritmo2.py:81-97 | A leaf gives its value. A decision whose column the sample has, and whose value has a child, continues in that child. A decision whose column the sample lacks, or whose value has no child, gives the node's most common class. |
| `MultiwayC45.Predict` | arbol_decision/algoritmo2.py:77-79 | An empty frame gives an empty result, trained or not. Otherwise there is one prediction per sample, each the traversal of the tree, and nothing without a tree. |
| `MultiwayC45.TrainingRowGetsALabel` | arbol_decision/algoritmo2.py:81-97 | A sample that agrees with a training row on every column except the label gets a class, and that class is one of the training labels. |
| `MultiwayC45.UnseenValueFallsBack` | arbol_decision/algoritmo2.py:87-95 | A sample whose value never occurred at a decision, or that lacks the column, gets that node's most common class. |

## Left out

- Console output is not modelled: every `print`, the tree printer of
  `algoritmo3.py`, and the driver scripts. A few debug prints concatenate
  non-string values and would raise a `TypeError`. The model assumes those
  prints succeed and returns what the code computes after them.
- `mi_arbol_decision/funcion_impureza/entropia.py` is not part of this model.
  Both strategies import it, and the model takes it to be
  `mi_arbol_decision/entropia.py`.
- `mi_arbol_decision/funcion_impureza/funcion.py` has no behaviour. Its two
  names are the constants and the `Strategy` enum of `DecisionTree`.
- Floating point is not modelled: numbers are exact reals, the logarithm is
  the parameter `log2`, and NaN does not arise.
- Which column is numeric (`is_numeric_dtype`) is an input to the model, the
  set `ctx.numeric`.
- `Atributo.__str__` is used only for printing, so it is not modelled.
- The constructors of `Atributo`, `Nodo` and `NodoMulti` are Dafny datatype
  constructors. Their defaults are datatype defaults: `Attribute()` and
  `Node()` are the sentinel and the empty node.
- Child keys are the `Key` datatype, not rendered strings. It records whether
  a key is `str(value)`, `'<= t'` or `'> t'`. The model takes two different
  keys to be two different strings. A text value `'<= 5'` would collide in the
  source but not here.
- The builder of `algoritmo3.py` requires `umbral_ganancia > -1`. At -1 or
  below, the sentinel would pass the gain test and `remove('')` would raise.
  `DecisionTree.Build` and the members about it carry this as a `requires`.
- A failed `entrenar` of `algoritmo3.py` is modelled as an error. The learner
  state that the source sets before raising is not modelled.
- `Prediction.Blank`: `str.strip` removes Unicode white space as well. The
  model removes only the ASCII white space characters.
- `Prediction.Predict` takes the instance as key/value pairs with distinct
  keys, which is what a dictionary is.
- `MultiwayC45.Fit` requires that the label's name is not already a column of
  `X`. `pd.concat` would otherwise produce a duplicate column. It also pairs
  the i-th sample with the i-th label (`Joined`), where `pd.concat` at
  arbol_decision/algoritmo2.py:15 aligns `X` and `y` on their index labels, so
  frames with differing indexes are not modelled. The model names the label
  column by a given string, so a `y` without a name is not modelled either.
  The source then stores `None` as the target name, and `df.drop(None, axis=1)`
  at line 21 fails.
- `BinaryC45.Traverse` answers nothing where the source would fail: at a
  valueless leaf, or for a sample shorter than the feature index. numpy's
  negative indexing does not arise, because features are indices below the
  width.
- `Seqs.Mode` does not resolve ties as the source does. pandas `mode()[0]`
  takes the smallest of the tied labels, and `Counter.most_common` takes the
  first one seen. The model takes the first one seen, and its contract
  promises only a label of maximal count.
- `TreeFacts.BuildRecordsMode` promises only a class of maximal count, for
  the same reason.
- The order of `groupby` keys is not modelled, because children form a map.
- `CategoricalTree.Build1` keys its children like `algoritmo3.py`, not by the
  raw value. Both key the same groups one to one, and `algoritmo.py` has no
  prediction that would read them.
- `CategoricalTree.Train1` does not state when the missing-key failure
  happens inside the build. It states only the failure for a target that is
  not a column, and which tree comes back on success.
- `BinaryC45.Gain` states only the empty-side case in its contract. The
  formula for two non-empty sides is its body.
- `BinaryC45.SplitInfo` states only the empty-side case in its contract. The
  formula for two non-empty sides is its body.
- `MultiwayC45.Build` states only the node's most common class in its contract. The
  stopping rules and the branch are stated in `MultiwayC45.StoppingRules` and
  `MultiwayC45.BranchShape`.
- `DecisionTree.Build` has no contract of its own. Its properties are proved in
  the `TreeFacts` lemmas. A contract on the builder makes the proofs that unfold
  it too expensive.
- `CategoricalTree.Build1` has no contract of its own, for the same reason. Its
  properties are proved in `CategoricalTree.SameTreeWhenBuilt`.
- `CategoricalTree.SameTreeWhenBuilt` holds only for tables without
  numeric-dtype columns. On other tables `algoritmo3.py` splits the numeric
  columns at thresholds, and `algoritmo.py` splits them by value.

=== FILE: attributes.dfy ===
/** The scored attribute both impurity strategies of mi_arbol_decision
    return (`Atributo`). */
module Attributes {
  import opened Base

  /** An attribute with the gain it achieves and, for a continuous attribute,
      the threshold that achieves it. The defaults give the sentinel the
      strategies start their scans from: no name, gain -1, no threshold. */
  datatype Attribute = Attribute(name: string := "", gain: real := -1.0, threshold: Option<real> := None)
  {
    /** Splits by value rather than by threshold (`es_categorico`). */
    predicate IsCategorical() {
      threshold.None?
    }
  }

  /** The sentinel `Atributo()`. */
  const Sentinel: Attribute := Attribute()

  /** The sentinel has no name and gain -1, and it is categorical. */
  lemma SentinelDefaults()
    ensures Sentinel.name == "" && Sentinel.gain == -1.0 && Sentinel.IsCategorical()
  {
  }
}

=== FILE: base.dfy ===
/** Option and Result, the two wrappers every module of the model uses:
    `Option` stands for Python's `None`-or-value, `Result` for a return value
    or a raised exception. */
module Base {

  datatype Option<+T> = None | Some(value: T)

  datatype Result<+T, +E> = Ok(value: T) | Err(error: E)
}

=== FILE: binary_c45.dfy ===
/** The binary C4.5 learner of arbol_decision/algoritmo.py: samples are rows
    of numbers, labels are non-negative integers, every split compares one
    feature with a threshold drawn from that feature's own values, and the
    split is chosen by gain ratio. */
module BinaryC45 {
  import opened Base
  import opened Seqs
  import opened Shannon

  /** The stopping parameters (`min_samples_split`, `max_depth`). */
  datatype Config = Config(minSamplesSplit: int := 2, maxDepth: int := 100)

  /** arbol_decision/nodo.py's `Nodo` in the two shapes the learner builds:
      a leaf holding the most common label (absent for no samples), and a
      decision on `feature <= threshold`. */
  datatype BNode =
    | Leaf(value: Option<nat>)
    | Split(feature: nat, threshold: real, left: BNode, right: BNode)
  {
    /** `es_nodo_hoja`: a value is present. */
    predicate IsLeaf() {
      Leaf? && value.Some?
    }
  }

  /** Every sample has `width` features. */
  predicate Rectangular(X: seq<seq<real>>, width: nat) {
    forall i :: 0 <= i < |X| ==> |X[i]| == width
  }

  /** Feature `f` of every sample (`X[:, f]`). */
  function ColumnOf(X: seq<seq<real>>, width: nat, f: nat): (c: seq<real>)
    requires Rectangular(X, width) && f < width
    ensures |c| == |X|
    ensures forall i :: 0 <= i < |X| ==> c[i] == X[i][f]
  {
    seq(|X|, i requires 0 <= i < |X| => X[i][f])
  }

  function Positions(n: nat): (r: seq<nat>)
    ensures |r| == n
    ensures forall i :: 0 <= i < n ==> r[i] == i
  {
    seq(n, i requires 0 <= i < n => i)
  }

  /** `_dividir`: the positions, in order, whose value is at most `t`, and
      those whose value exceeds it. They are disjoint and together cover
      every position once. */
  function Divide(col: seq<real>, t: real): (lr: (seq<nat>, seq<nat>))
    ensures forall i: nat :: i in lr.0 <==> i < |col| && col[i] <= t
    ensures forall i: nat :: i in lr.1 <==> i < |col| && col[i] > t
    ensures forall j :: 0 <= j < |lr.0| ==> lr.0[j] < |col|
    ensures forall j :: 0 <= j < |lr.1| ==> lr.1[j] < |col|
    ensures |lr.0| + |lr.1| == |col|
  {
    var ps := Positions(|col|);
    var p := (i: nat) => i < |col| && col[i] <= t;
    var q := (i: nat) => i < |col| && col[i] > t;
    FilterPartition(ps, p, q);
    assert forall i: nat :: i < |col| ==> i in ps by {
      forall i: nat | i < |col| ensures i in ps {
        assert ps[i] == i;
      }
    }
    var l: seq<nat> := Filter<nat>(ps, p);
    var r: seq<nat> := Filter<nat>(ps, q);
    assert forall j :: 0 <= j < |l| ==> l[j] < |col| by {
      forall j | 0 <= j < |l| ensures l[j] < |col| {
        assert l[j] in l;
      }
    }
    assert forall j :: 0 <= j < |r| ==> r[j] < |col| by {
      forall j | 0 <= j < |r| ensures r[j] < |col| {
        assert r[j] in r;
      }
    }
    (l, r)
  }

  /** The entries of `s` at the positions `idx` (`y[idxs]`, `X[idxs, :]`). */
  function Select<T>(s: seq<T>, idx: seq<nat>): (r: seq<T>)
    requires forall j :: 0 <= j < |idx| ==> idx[j] < |s|
    ensures |r| == |idx|
    ensures forall j :: 0 <= j < |idx| ==> r[j] == s[idx[j]]
  {
    seq(|idx|, j requires 0 <= j < |idx| => s[idx[j]])
  }

  /** `_ganancia_informacion`: 0 when a side is empty, otherwise the parent
      entropy minus the size-weighted entropies of the two sides. */
  function Gain(log2: real -> real, y: seq<nat>, col: seq<real>, t: real, parent: real): (g: real)
    requires |col| == |y|
    ensures (|Divide(col, t).0| == 0 || |Divide(col, t).1| == 0) ==> g == 0.0
  {
    var (l, r) := Divide(col, t);
    if |l| == 0 || |r| == 0 then 0.0
    else
      var n := |y| as real;
      parent - ((|l| as real / n) * EntropyBincount(log2, Select(y, l))
        + (|r| as real / n) * EntropyBincount(log2, Select(y, r)))
  }

  /** `_split_info`: 0 when a side is empty, otherwise the entropy of the two
      side shares. */
  function SplitInfo(log2: real -> real, col: seq<real>, t: real): (s: real)
    ensures (|Divide(col, t).0| == 0 || |Divide(col, t).1| == 0) ==> s == 0.0
  {
    var (l, r) := Divide(col, t);
    if |l| == 0 || |r| == 0 then 0.0
    else
      var pl := |l| as real / |col| as real;
      var pr := |r| as real / |col| as real;
      -(pl * log2(pl) + pr * log2(pr))
  }

  /** Gain over split information, or nothing when either is 0. */
  function Ratio(g: real, si: real): (q: Option<real>)
    ensures q.None? <==> g == 0.0 || si == 0.0
    ensures q.Some? ==> q.value * si == g
  {
    if g == 0.0 then None
    else if si == 0.0 then None
    else Some(g / si)
  }

  /** The gain ratio of the split at `t`, or nothing when the candidate is
      skipped (zero gain, or zero split information: no division by 0). A
      candidate kept leaves samples on both sides. */
  function RatioAt(log2: real -> real, y: seq<nat>, col: seq<real>, t: real, parent: real): (q: Option<real>)
    requires |col| == |y|
    ensures q.None? <==> Gain(log2, y, col, t, parent) == 0.0 || SplitInfo(log2, col, t) == 0.0
    ensures q.Some? ==> |Divide(col, t).0| > 0 && |Divide(col, t).1| > 0
  {
    Ratio(Gain(log2, y, col, t, parent), SplitInfo(log2, col, t))
  }

  /** Scan order: by feature, and by ascending value within a feature.
      Being strict, it also rules out repeated candidates. */
  predicate ScanOrdered(c: seq<(nat, real)>) {
    forall i, j :: 0 <= i < j < |c| ==> c[i].0 < c[j].0 || (c[i].0 == c[j].0 && c[i].1 < c[j].1)
  }

  /** The candidate splits in scan order: feature by feature from `f`, and
      for each the column's distinct values in ascending order
      (`np.unique`). Every value of every feature from `f` on is a
      candidate, and nothing else is. */
  function SplitsFrom(X: seq<seq<real>>, width: nat, f: nat): (c: seq<(nat, real)>)
    requires Rectangular(X, width)
    ensures forall i :: 0 <= i < |c| ==> f <= c[i].0 < width && c[i].1 in ColumnOf(X, width, c[i].0)
    ensures forall g: nat, v :: f <= g < width && v in ColumnOf(X, width, g) ==> (g, v) in c
    ensures ScanOrdered(c)
    decreases width - f
  {
    if f >= width then []
    else
      var col := ColumnOf(X, width, f);
      var u := SortDistinct(Distinct(col));
      var head := seq(|u|, i requires 0 <= i < |u| => (f, u[i]));
      var rest := SplitsFrom(X, width, f + 1);
      FeatureThenRest(X, width, f, u, head, rest);
      head + rest
  }

  /** The candidates of feature `f`, in ascending order, followed by those of
      the later features are in scan order, and hold every value of every
      feature from `f` on. */
  lemma FeatureThenRest(X: seq<seq<real>>, width: nat, f: nat, u: seq<real>, head: seq<(nat, real)>, rest: seq<(nat, real)>)
    requires Rectangular(X, width) && f < width
    requires StrictlyIncreasing(u) && forall v :: v in u <==> v in ColumnOf(X, width, f)
    requires |head| == |u| && forall i :: 0 <= i < |u| ==> head[i] == (f, u[i])
    requires forall i :: 0 <= i < |rest| ==> f + 1 <= rest[i].0
    requires forall g: nat, v :: f + 1 <= g < width && v in ColumnOf(X, width, g) ==> (g, v) in rest
    requires ScanOrdered(rest)
    ensures forall g: nat, v :: f <= g < width && v in ColumnOf(X, width, g) ==> (g, v) in head + rest
    ensures ScanOrdered(head + rest)
  {
    forall v | v in ColumnOf(X, width, f) ensures (f, v) in head {
      var i :| 0 <= i < |u| && u[i] == v;
      assert head[i] == (f, v);
    }
    var c := head + rest;
    forall i, j | 0 <= i < j < |c| ensures c[i].0 < c[j].0 || (c[i].0 == c[j].0 && c[i].1 < c[j].1) {
      if j < |head| {
        assert c[i] == (f, u[i]) && c[j] == (f, u[j]);
      } else if i < |head| {
        assert c[i].0 == f && c[j] == rest[j - |head|];
      } else {
        assert c[i] == rest[i - |head|] && c[j] == rest[j - |head|];
      }
    }
  }

  /** The candidate splits of every feature: each distinct value of each
      feature exactly once, in scan order. */
  function Splits(X: seq<seq<real>>, width: nat): (c: seq<(nat, real)>)
    requires Rectangular(X, width)
    ensures forall i :: 0 <= i < |c| ==> c[i].0 < width && c[i].1 in ColumnOf(X, width, c[i].0)
    ensures forall g: nat, v :: g < width && v in ColumnOf(X, width, g) ==> (g, v) in c
    ensures ScanOrdered(c)
  {
    SplitsFrom(X, width, 0)
  }

  /** The ratio of every candidate, in scan order. */
  function Ratios(log2: real -> real, X: seq<seq<real>>, y: seq<nat>, width: nat, c: seq<(nat, real)>): (qs: seq<Option<real>>)
    requires |X| == |y| && Rectangular(X, width)
    requires forall i :: 0 <= i < |c| ==> c[i].0 < width
    ensures |qs| == |c|
    ensures forall i :: 0 <= i < |c| ==>
      qs[i] == RatioAt(log2, y, ColumnOf(X, width, c[i].0), c[i].1, EntropyBincount(log2, y))
  {
    var parent := EntropyBincount(log2, y);
    seq(|c|, i requires 0 <= i < |c| => RatioAt(log2, y, ColumnOf(X, width, c[i].0), c[i].1, parent))
  }

  /** The scan over ratios: the first position, in order, of strictly
      greatest ratio above -1 among the candidates not skipped, or nothing
      when no candidate qualifies. A skipped candidate can never win: the
      scan starts from -1 and only replaces on a strictly greater ratio. */
  function FirstBest(qs: seq<Option<real>>): (r: Option<nat>)
    ensures r.None? <==> forall i :: 0 <= i < |qs| ==> qs[i].None? || qs[i].value <= -1.0
    ensures r.Some? ==>
      var k := r.value;
      && k < |qs| && qs[k].Some? && qs[k].value > -1.0
      && (forall i :: 0 <= i < |qs| && qs[i].Some? ==> qs[i].value <= qs[k].value)
      && (forall i :: 0 <= i < k && qs[i].Some? ==> qs[i].value < qs[k].value)
  {
    var s := seq(|qs|, i requires 0 <= i < |qs| => if qs[i].Some? then qs[i].value else -1.0);
    assert forall i :: 0 <= i < |qs| ==> s[i] == if qs[i].Some? then qs[i].value else -1.0;
    Best(s, -1.0).index
  }

  /** `_encontrar_mejor_division`: the candidate `FirstBest` picks. The split
      found leaves samples on both sides. */
  function FindSplit(log2: real -> real, X: seq<seq<real>>, y: seq<nat>, width: nat): (r: Option<(nat, real)>)
    requires |X| == |y| && Rectangular(X, width)
    ensures var c := Splits(X, width);
      var k := FirstBest(Ratios(log2, X, y, width, c));
      && (r.None? <==> k.None?)
      && (r.Some? ==> r.value == c[k.value])
    ensures r.Some? ==> r.value.0 < width
    ensures r.Some? ==>
      var (l, rr) := Divide(ColumnOf(X, width, r.value.0), r.value.1);
      |l| > 0 && |rr| > 0
  {
    var c := Splits(X, width);
    var qs := Ratios(log2, X, y, width, c);
    match FirstBest(qs)
    case None => None
    case Some(k) => Some(c[k])
  }

  /** `_construir_arbol`: a leaf with the most common label
      (`_clase_mas_comun`, which is `Mode`) when the depth
      limit is reached, the labels are pure or the samples too few, or when
      no split qualifies; otherwise a split whose two sides are built one
      level deeper. */
  function Build(cfg: Config, log2: real -> real, X: seq<seq<real>>, y: seq<nat>, width: nat, depth: int): (b: BNode)
    requires |X| == |y| && Rectangular(X, width)
    ensures b.Leaf? ==> b.value == Mode(y)
    ensures b.Split? ==> b.feature < width && FindSplit(log2, X, y, width) == Some((b.feature, b.threshold))
    decreases |y|
  {
    if depth >= cfg.maxDepth || |Distinct(y)| == 1 || |y| < cfg.minSamplesSplit then Leaf(Mode(y))
    else
      match FindSplit(log2, X, y, width)
      case None => Leaf(Mode(y))
      case Some((f, t)) =>
        var (l, r) := Divide(ColumnOf(X, width, f), t);
        SidesFit(X, width, l);
        SidesFit(X, width, r);
        Split(f, t,
          Build(cfg, log2, Select(X, l), Select(y, l), width, depth + 1),
          Build(cfg, log2, Select(X, r), Select(y, r), width, depth + 1))
  }

  /** Taking some samples keeps them rectangular. */
  lemma SidesFit(X: seq<seq<real>>, width: nat, idx: seq<nat>)
    requires Rectangular(X, width)
    requires forall j :: 0 <= j < |idx| ==> idx[j] < |X|
    ensures Rectangular(Select(X, idx), width)
  {
  }

  /** `_atravesar_arbol`: a leaf's value; at a decision, left when the
      feature is at most the threshold and right otherwise. Nothing comes
      back where the source fails: a valueless leaf, or a feature the sample
      does not have. */
  function Traverse(x: seq<real>, n: BNode): (r: Option<nat>)
    ensures n.IsLeaf() ==> r == n.value
    ensures n.Split? && n.feature < |x| ==>
      r == Traverse(x, if x[n.feature] <= n.threshold then n.left else n.right)
  {
    match n
    case Leaf(v) => v
    case Split(f, t, left, right) =>
      if f >= |x| then None
      else if x[f] <= t then Traverse(x, left) else Traverse(x, right)
  }

  /** `predict`: every sample's prediction, or nothing when the tree is
      missing or some sample cannot be classified. No samples give no
      predictions, trained or not: the comprehension never visits the
      tree. */
  function Predict(root: Option<BNode>, X: seq<seq<real>>): (r: Option<seq<nat>>)
    ensures |X| == 0 ==> r == Some([])
    ensures |X| > 0 ==> (r.Some? <==> root.Some? && forall i :: 0 <= i < |X| ==> Traverse(X[i], root.value).Some?)
    ensures r.Some? ==> |r.value| == |X|
    ensures r.Some? && root.Some? ==> forall i :: 0 <= i < |X| ==> r.value[i] == Traverse(X[i], root.value).value
  {
    if |X| == 0 then Some([])
    else if root.None? then None
    else if forall i :: 0 <= i < |X| ==> Traverse(X[i], root.value).Some? then
      Some(seq(|X|, i requires 0 <= i < |X| => Traverse(X[i], root.value).value))
    else None
  }

  /** `fit`: the tree is built from depth 0. Fitted on at least one sample,
      it tests only existing features and answers only training labels. */
  function Fit(cfg: Config, log2: real -> real, X: seq<seq<real>>, y: seq<nat>, width: nat): (root: Option<BNode>)
    requires |X| == |y| && Rectangular(X, width)
    ensures root == Some(Build(cfg, log2, X, y, width, 0))
    ensures |y| > 0 ==> Grounded(root.value, width, y)
  {
    var b := Build(cfg, log2, X, y, width, 0);
    if |y| > 0 then
      BuildGrounded(cfg, log2, X, y, width, 0);
      Some(b)
    else Some(b)
  }

  // ---------------------------------------------------------------------
  // Properties of the built tree

  /** Every decision tests a feature below `width`, and every leaf holds a
      label drawn from `y`. */
  predicate Grounded(n: BNode, width: nat, y: seq<nat>) {
    match n
    case Leaf(v) => v.Some? && v.value in y
    case Split(f, _, left, right) => f < width && Grounded(left, width, y) && Grounded(right, width, y)
  }

  lemma {:induction false} GroundedWider(n: BNode, width: nat, y: seq<nat>, z: seq<nat>)
    requires Grounded(n, width, y)
    requires forall x :: x in y ==> x in z
    ensures Grounded(n, width, z)
  {
    match n
    case Leaf(_) =>
    case Split(_, _, left, right) =>
      GroundedWider(left, width, y, z);
      GroundedWider(right, width, y, z);
  }

  /** Trained on at least one sample, the tree tests only existing features
      and answers only with training labels. */
  lemma {:induction false} BuildGrounded(cfg: Config, log2: real -> real, X: seq<seq<real>>, y: seq<nat>, width: nat, depth: int)
    requires |X| == |y| && Rectangular(X, width)
    requires |y| > 0
    ensures Grounded(Build(cfg, log2, X, y, width, depth), width, y)
    decreases |y|, 1
  {
    if depth >= cfg.maxDepth || |Distinct(y)| == 1 || |y| < cfg.minSamplesSplit {
    } else {
      match FindSplit(log2, X, y, width)
      case None =>
      case Some((f, t)) =>
        SplitGroundedStep(cfg, log2, X, y, width, depth, f, t);
    }
  }

  /** The step of `BuildGrounded` at a split on feature `f` at `t`. */
  lemma {:induction false} SplitGroundedStep(cfg: Config, log2: real -> real, X: seq<seq<real>>, y: seq<nat>, width: nat, depth: int, f: nat, t: real)
    requires |X| == |y| && Rectangular(X, width)
    requires !(depth >= cfg.maxDepth || |Distinct(y)| == 1 || |y| < cfg.minSamplesSplit)
    requires FindSplit(log2, X, y, width) == Some((f, t))
    ensures Grounded(Build(cfg, log2, X, y, width, depth), width, y)
    decreases |y|, 0
  {
    var (l, r) := Divide(ColumnOf(X, width, f), t);
    assert |l| > 0 && |r| > 0;
    SidesFit(X, width, l);
    SidesFit(X, width, r);
    var left := Build(cfg, log2, Select(X, l), Select(y, l), width, depth + 1);
    var right := Build(cfg, log2, Select(X, r), Select(y, r), width, depth + 1);
    assert Build(cfg, log2, X, y, width, depth) == Split(f, t, left, right);
    BuildGrounded(cfg, log2, Select(X, l), Select(y, l), width, depth + 1);
    BuildGrounded(cfg, log2, Select(X, r), Select(y, r), width, depth + 1);
    SelectWithin(y, l);
    SelectWithin(y, r);
    SplitGrounded(f, t, width, y, left, right, Select(y, l), Select(y, r));
  }

  /** Entries at some positions are entries of the whole. */
  lemma SelectWithin<T>(s: seq<T>, idx: seq<nat>)
    requires forall j :: 0 <= j < |idx| ==> idx[j] < |s|
    ensures forall x :: x in Select(s, idx) ==> x in s
  {
    forall x | x in Select(s, idx) ensures x in s {
      var j :| 0 <= j < |idx| && Select(s, idx)[j] == x;
      assert s[idx[j]] in s;
    }
  }

  /** A decision on an existing feature over two grounded sides, whose
      labels are labels of `y`, is grounded in `y`. */
  lemma SplitGrounded(f: nat, t: real, width: nat, y: seq<nat>, left: BNode, right: BNode, yl: seq<nat>, yr: seq<nat>)
    requires f < width
    requires Grounded(left, width, yl) && Grounded(right, width, yr)
    requires forall x :: x in yl ==> x in y
    requires forall x :: x in yr ==> x in y
    ensures Grounded(Split(f, t, left, right), width, y)
  {
    GroundedWider(left, width, yl, y);
    GroundedWider(right, width, yr, y);
  }

  /** A grounded tree classifies every sample of the full width with one of
      its labels. */
  lemma {:induction false} TraverseGrounded(x: seq<real>, n: BNode, width: nat, y: seq<nat>)
    requires Grounded(n, width, y)
    requires |x| == width
    ensures Traverse(x, n).Some? && Traverse(x, n).value in y
  {
    match n
    case Leaf(_) =>
    case Split(f, t, left, right) =>
      if x[f] <= t {
        TraverseGrounded(x, left, width, y);
      } else {
        TraverseGrounded(x, right, width, y);
      }
  }

  /** After fitting on at least one sample, every sample of the training
      width gets a prediction, and it is one of the training labels. */
  lemma PredictAfterFit(cfg: Config, log2: real -> real, X: seq<seq<real>>, y: seq<nat>, width: nat, Z: seq<seq<real>>)
    requires |X| == |y| && Rectangular(X, width)
    requires |y| > 0
    requires Rectangular(Z, width)
    ensures var r := Predict(Fit(cfg, log2, X, y, width), Z);
      r.Some? && forall i :: 0 <= i < |Z| ==> r.value[i] in y
  {
    var root := Build(cfg, log2, X, y, width, 0);
    BuildGrounded(cfg, log2, X, y, width, 0);
    forall i | 0 <= i < |Z| ensures Traverse(Z[i], root).Some? && Traverse(Z[i], root).value in y {
      TraverseGrounded(Z[i], root, width, y);
    }
  }

  /** Pure labels give a single leaf with that label. */
  lemma PureLabelsGiveLeaf(cfg: Config, log2: real -> real, X: seq<seq<real>>, y: seq<nat>, width: nat, depth: int, c: nat)
    requires |X| == |y| && Rectangular(X, width)
    requires |y| > 0 && forall i :: 0 <= i < |y| ==> y[i] == c
    ensures Build(cfg, log2, X, y, width, depth) == Leaf(Some(c))
  {
    ConstantHasOneDistinct(y, c);
  }

  /** The builder gives a leaf with the most common label when the depth
      limit is reached, the labels are pure, the samples are too few or no
      split qualifies; otherwise it decides on the split `FindSplit`
      chose. */
  lemma StoppingRules(cfg: Config, log2: real -> real, X: seq<seq<real>>, y: seq<nat>, width: nat, depth: int)
    requires |X| == |y| && Rectangular(X, width)
    ensures (depth >= cfg.maxDepth || |Distinct(y)| == 1 || |y| < cfg.minSamplesSplit || FindSplit(log2, X, y, width).None?)
      ==> Build(cfg, log2, X, y, width, depth) == Leaf(Mode(y))
    ensures !(depth >= cfg.maxDepth || |Distinct(y)| == 1 || |y| < cfg.minSamplesSplit || FindSplit(log2, X, y, width).None?)
      ==> (Build(cfg, log2, X, y, width, depth).Split?
           && FindSplit(log2, X, y, width) == Some((Build(cfg, log2, X, y, width, depth).feature, Build(cfg, log2, X, y, width, depth).threshold)))
  {
    if !(depth >= cfg.maxDepth || |Distinct(y)| == 1 || |y| < cfg.minSamplesSplit) {
      match FindSplit(log2, X, y, width)
      case None =>
      case Some((f, t)) =>
        var b := Build(cfg, log2, X, y, width, depth);
        assert b.Split? && b.feature == f && b.threshold == t;
    }
  }

  /** A decision's two subtrees are built one level deeper from the samples
      at most the threshold and from those above it, on the decision's own
      feature. */
  lemma SplitShape(cfg: Config, log2: real -> real, X: seq<seq<real>>, y: seq<nat>, width: nat, depth: int)
    requires |X| == |y| && Rectangular(X, width)
    requires Build(cfg, log2, X, y, width, depth).Split?
    ensures Build(cfg, log2, X, y, width, depth).feature < width
    ensures depth < cfg.maxDepth
    ensures var b := Build(cfg, log2, X, y, width, depth);
      var lr := Divide(ColumnOf(X, width, b.feature), b.threshold);
      && |lr.0| > 0 && |lr.1| > 0
      && Rectangular(Select(X, lr.0), width) && Rectangular(Select(X, lr.1), width)
      && b.left == Build(cfg, log2, Select(X, lr.0), Select(y, lr.0), width, depth + 1)
      && b.right == Build(cfg, log2, Select(X, lr.1), Select(y, lr.1), width, depth + 1)
  {
    var b := Build(cfg, log2, X, y, width, depth);
    var lr := Divide(ColumnOf(X, width, b.feature), b.threshold);
    SidesFit(X, width, lr.0);
    SidesFit(X, width, lr.1);
  }
}

=== FILE: categorical_tree.dfy ===
/** The first learner, mi_arbol_decision/algoritmo.py: every column is read
    as categorical, children are keyed by the raw cell value, and the
    attribute choice looks its winner up in a dictionary of attribute
    entropies, so a winner that is not an attribute (the initial `''` when no
    gain beats -1) fails with a missing key. The builder is shown to build the
    tree of the later learner whenever it succeeds. */
module CategoricalTree {
  import opened Base
  import opened Seqs
  import opened Table
  import opened Shannon
  import opened Nodes
  import opened DecisionTree
  import InfoGain

  /** The entropy of every attribute, in list order (`entropia_atributos`,
      each entry `_calcular_entropia_atributo`: the weighted entropy of the
      label groups by value). */
  function AttributeEntropies(ctx: Ctx, rows: seq<Row>, attrs: seq<string>): (e: seq<real>)
    requires RowsFit(ctx, rows, attrs)
    ensures |e| == |attrs|
    ensures forall i :: 0 <= i < |attrs| ==> e[i] == InfoGain.ChildEntropy(ctx, rows, attrs[i])
  {
    seq(|attrs|, i requires 0 <= i < |attrs| => assert attrs[i] in attrs; InfoGain.ChildEntropy(ctx, rows, attrs[i]))
  }

  /** The gain h - e of every attribute. */
  function GainsOf(h: real, e: seq<real>): (g: seq<real>)
    ensures |g| == |e|
    ensures forall i :: 0 <= i < |e| ==> g[i] == h - e[i]
  {
    seq(|e|, i requires 0 <= i < |e| => h - e[i])
  }

  /** Gains equal to h - e entry by entry are the gains of `GainsOf`. */
  lemma GainsOfMatch(h: real, e: seq<real>, g: seq<real>)
    requires |g| == |e|
    requires forall i :: 0 <= i < |e| ==> g[i] == h - e[i]
    ensures GainsOf(h, e) == g
  {
    assert forall i :: 0 <= i < |e| ==> GainsOf(h, e)[i] == g[i];
  }

  /** `_elegir_mejor_atributo`: scanning from gain -1 and name `''`, the
      first attribute whose gain h - e strictly beats the best so far.
      `''` comes back exactly when no gain exceeds -1; otherwise the winner
      is the first attribute of maximal gain. */
  function Elect(h: real, attrs: seq<string>, e: seq<real>): (name: string)
    requires |e| == |attrs|
    ensures (forall i :: 0 <= i < |attrs| ==> h - e[i] <= -1.0) ==> name == ""
    ensures (exists i :: 0 <= i < |attrs| && h - e[i] > -1.0) ==>
      exists k :: (0 <= k < |attrs| && name == attrs[k] && h - e[k] > -1.0
        && (forall i :: 0 <= i < |attrs| ==> h - e[i] <= h - e[k])
        && (forall i :: 0 <= i < k ==> h - e[i] < h - e[k]))
  {
    var gains := GainsOf(h, e);
    var p := Best(gains, -1.0);
    if p.index.None? then "" else
      var k := p.index.value;
      assert gains[k] == h - e[k];
      attrs[k]
  }

  /** `_construir_arbol` of algoritmo.py. `None` stands for the missing-key
      failure of a winner that is not an attribute. */
  function Build1(ctx: Ctx, minGain: real, rows: seq<Row>, attrs: seq<string>): Option<Node>
    requires ctx.numeric == {}
    requires RowsFit(ctx, rows, attrs)
    decreases |attrs|, |rows|, 1
  {
    var labels := Labels(ctx, rows);
    var mc := Mode(labels);
    if |Distinct(labels)| == 1 || |attrs| == 0 then Some(Leaf(mc))
    else
      var h := InfoGain.SetEntropy(ctx, rows);
      var a := Elect(h, attrs, AttributeEntropies(ctx, rows, attrs));
      if a !in attrs then None
      else if h - InfoGain.ChildEntropy(ctx, rows, a) < minGain then Some(Leaf(mc))
      else Expand1(ctx, minGain, rows, attrs, a)
  }

  /** The multi-way split on `a`: one child per value present, each built
      from the rows with that value and the list without `a`; it fails when a
      child does. */
  function Expand1(ctx: Ctx, minGain: real, rows: seq<Row>, attrs: seq<string>, a: string): Option<Node>
    requires ctx.numeric == {}
    requires RowsFit(ctx, rows, attrs)
    requires a in attrs
    decreases |attrs|, |rows|, 0
  {
    var rest := RemoveFirst(attrs, a);
    GroupsFit(ctx, rows, attrs, a);
    var kids := map k | k in ValueKeys(Column(rows, a)) :: Build1(ctx, minGain, Where(rows, a, ValueOf(k)), rest);
    if forall k :: k in kids ==> kids[k].Some? then
      Some(Node(
        attribute := Some(a),
        children := map k | k in kids :: kids[k].value,
        mostCommon := Mode(Labels(ctx, rows))))
    else None
  }

  /** The choice of algoritmo.py is the information-gain strategy's choice
      when every column is categorical: the same name when some gain beats
      -1, and then the same gain; otherwise `''`, whose gain, should `''` be
      an attribute, does not beat -1. */
  lemma ElectIsBestAttribute(ctx: Ctx, rows: seq<Row>, attrs: seq<string>)
    requires ctx.numeric == {}
    requires RowsFit(ctx, rows, attrs)
    ensures var h := InfoGain.SetEntropy(ctx, rows);
      var a := Elect(h, attrs, AttributeEntropies(ctx, rows, attrs));
      var d := InfoGain.BestAttribute(ctx, rows, attrs);
      && (d != Attributes.Sentinel ==> a == d.name && h - InfoGain.ChildEntropy(ctx, rows, a) == d.gain)
      && (d == Attributes.Sentinel ==> a == "" && (a in attrs ==> h - InfoGain.ChildEntropy(ctx, rows, a) <= -1.0))
  {
    var h := InfoGain.SetEntropy(ctx, rows);
    var e := AttributeEntropies(ctx, rows, attrs);
    var g := InfoGain.Gains(ctx, rows, attrs);
    assert forall i :: 0 <= i < |attrs| ==> g[i] == h - e[i] by {
      forall i | 0 <= i < |attrs| ensures g[i] == h - e[i] {
        assert attrs[i] in attrs;
      }
    }
    GainsOfMatch(h, e, g);
    var p := Best(g, -1.0);
    if p.index.Some? {
      var k := p.index.value;
      assert attrs[k] in attrs;
      assert h - InfoGain.ChildEntropy(ctx, rows, attrs[k]) == g[k];
    }
  }

  /** Whenever algoritmo.py builds a tree, it is the tree the later learner
      builds with information gain over the same, all-categorical, columns. */
  lemma {:induction false} SameTreeWhenBuilt(ctx: Ctx, minGain: real, rows: seq<Row>, attrs: seq<string>)
    requires minGain > -1.0
    requires ctx.numeric == {}
    requires RowsFit(ctx, rows, attrs)
    ensures Build1(ctx, minGain, rows, attrs).Some? ==>
      Build1(ctx, minGain, rows, attrs).value == Build(ctx, InformationGain, minGain, rows, attrs)
    decreases |attrs|, |rows|, 1
  {
    var labels := Labels(ctx, rows);
    if |Distinct(labels)| != 1 && |attrs| != 0 {
      var d := Choose(ctx, InformationGain, rows, attrs);
      if d == Attributes.Sentinel || d.gain < minGain {
        BothLeaves(ctx, minGain, rows, attrs);
      } else {
        BothSplit(ctx, minGain, rows, attrs);
        SameExpansion(ctx, minGain, rows, attrs, d.name);
      }
    }
  }

  /** Where the later learner stops on a low gain, algoritmo.py stops too or
      fails. */
  lemma BothLeaves(ctx: Ctx, minGain: real, rows: seq<Row>, attrs: seq<string>)
    requires minGain > -1.0
    requires ctx.numeric == {}
    requires RowsFit(ctx, rows, attrs)
    requires |Distinct(Labels(ctx, rows))| != 1 && |attrs| != 0
    requires var d := Choose(ctx, InformationGain, rows, attrs);
      d == Attributes.Sentinel || d.gain < minGain
    ensures Build1(ctx, minGain, rows, attrs).Some? ==>
      Build1(ctx, minGain, rows, attrs).value == Build(ctx, InformationGain, minGain, rows, attrs)
  {
    var h := InfoGain.SetEntropy(ctx, rows);
    var a := Elect(h, attrs, AttributeEntropies(ctx, rows, attrs));
    var leaf := Leaf(Mode(Labels(ctx, rows)));
    assert Build(ctx, InformationGain, minGain, rows, attrs) == leaf by {
      assert Stops(ctx, InformationGain, minGain, rows, attrs);
    }
    assert a in attrs ==> h - InfoGain.ChildEntropy(ctx, rows, a) < minGain by {
      ElectIsBestAttribute(ctx, rows, attrs);
    }
    assert Build1(ctx, minGain, rows, attrs) == (if a !in attrs then None else Some(leaf));
  }

  /** Where the later learner splits, algoritmo.py expands the same
      attribute. */
  lemma BothSplit(ctx: Ctx, minGain: real, rows: seq<Row>, attrs: seq<string>)
    requires minGain > -1.0
    requires ctx.numeric == {}
    requires RowsFit(ctx, rows, attrs)
    requires |Distinct(Labels(ctx, rows))| != 1 && |attrs| != 0
    requires var d := Choose(ctx, InformationGain, rows, attrs);
      d != Attributes.Sentinel && d.gain >= minGain
    ensures var d := Choose(ctx, InformationGain, rows, attrs);
      && d.name in attrs
      && Build(ctx, InformationGain, minGain, rows, attrs) == SplitByValue(ctx, InformationGain, minGain, rows, attrs, d.name)
      && Build1(ctx, minGain, rows, attrs) == Expand1(ctx, minGain, rows, attrs, d.name)
  {
    ElectIsBestAttribute(ctx, rows, attrs);
    var d := Choose(ctx, InformationGain, rows, attrs);
    assert !Stops(ctx, InformationGain, minGain, rows, attrs);
    assert d.IsCategorical();
  }

  lemma {:induction false} SameExpansion(ctx: Ctx, minGain: real, rows: seq<Row>, attrs: seq<string>, a: string)
    requires minGain > -1.0
    requires ctx.numeric == {}
    requires RowsFit(ctx, rows, attrs)
    requires a in attrs
    ensures Expand1(ctx, minGain, rows, attrs, a).Some? ==>
      Expand1(ctx, minGain, rows, attrs, a).value == SplitByValue(ctx, InformationGain, minGain, rows, attrs, a)
    decreases |attrs|, |rows|, 0
  {
    var rest := RemoveFirst(attrs, a);
    GroupsFit(ctx, rows, attrs, a);
    forall k | k in ValueKeys(Column(rows, a))
      ensures Build1(ctx, minGain, Where(rows, a, ValueOf(k)), rest).Some? ==>
        Build1(ctx, minGain, Where(rows, a, ValueOf(k)), rest).value
          == Build(ctx, InformationGain, minGain, Where(rows, a, ValueOf(k)), rest)
    {
      SameTreeWhenBuilt(ctx, minGain, Where(rows, a, ValueOf(k)), rest);
    }
    SameChildren1(ctx, minGain, rows, attrs, a);
  }

  /** A successful expansion agrees with the categorical split once its
      children do. */
  lemma SameChildren1(ctx: Ctx, minGain: real, rows: seq<Row>, attrs: seq<string>, a: string)
    requires minGain > -1.0
    requires ctx.numeric == {}
    requires RowsFit(ctx, rows, attrs)
    requires a in attrs
    requires forall k :: k in ValueKeys(Column(rows, a)) ==>
      RowsFit(ctx, Where(rows, a, ValueOf(k)), RemoveFirst(attrs, a)) &&
      (Build1(ctx, minGain, Where(rows, a, ValueOf(k)), RemoveFirst(attrs, a)).Some? ==>
        Build1(ctx, minGain, Where(rows, a, ValueOf(k)), RemoveFirst(attrs, a)).value
          == Build(ctx, InformationGain, minGain, Where(rows, a, ValueOf(k)), RemoveFirst(attrs, a)))
    ensures Expand1(ctx, minGain, rows, attrs, a).Some? ==>
      Expand1(ctx, minGain, rows, attrs, a).value == SplitByValue(ctx, InformationGain, minGain, rows, attrs, a)
  {
    var rest := RemoveFirst(attrs, a);
    var keys := ValueKeys(Column(rows, a));
    var kids := map k | k in keys :: Build1(ctx, minGain, Where(rows, a, ValueOf(k)), rest);
    if forall k :: k in kids ==> kids[k].Some? {
      var m3 := map k | k in keys :: Build(ctx, InformationGain, minGain, Where(rows, a, ValueOf(k)), rest);
      assert kids.Keys == m3.Keys by {
        forall k ensures k in kids.Keys <==> k in m3.Keys { }
      }
      assert forall k :: k in kids ==> kids[k] == Some(m3[k]);
      AllPresent(kids, m3);
      assert Expand1(ctx, minGain, rows, attrs, a)
        == Some(Node(attribute := Some(a), children := m3, mostCommon := Mode(Labels(ctx, rows))));
    }
  }

  /** Stripping `Some` from a map of present values that agree with `m`
      gives `m`. */
  lemma AllPresent<K, V>(kids: map<K, Option<V>>, m: map<K, V>)
    requires kids.Keys == m.Keys
    requires forall k :: k in kids ==> kids[k] == Some(m[k])
    ensures (map k | k in kids :: kids[k].value) == m
  {
  }

  /** `entrenar` of algoritmo.py: the tree over every column but the target,
      every column read as categorical; dropping a target that is not a
      column fails. */
  function Train1(target: string, log2: real -> real, minGain: real, columns: seq<string>, rows: seq<Row>): (r: Option<Node>)
    requires forall r :: r in rows ==> forall c :: c in columns ==> c in r
    ensures target !in columns ==> r.None?
    ensures minGain > -1.0 && r.Some? ==>
      r.value == Build(Ctx(target, {}, log2), InformationGain, minGain, rows, Without(columns, target))
  {
    if target !in columns then None
    else
      var ctx := Ctx(target, {}, log2);
      var attrs := Without(columns, target);
      if minGain > -1.0 then SameTreeWhenBuilt(ctx, minGain, rows, attrs); Build1(ctx, minGain, rows, attrs)
      else Build1(ctx, minGain, rows, attrs)
  }
}

=== FILE: decision_tree.dfy ===
/** The tree builder of mi_arbol_decision/algoritmo3.py (`ArbolDecision`,
    `_construir_arbol`): recurse over a row set and the list of attributes
    still available, stop on a single class, on an empty list or on a gain
    below the threshold, and otherwise split on the attribute the chosen
    impurity strategy ranks best. */
module DecisionTree {
  import opened Base
  import opened Seqs
  import opened Table
  import opened Attributes
  import opened Nodes
  import InfoGain
  import GainRatio

  /** The two impurity strategies (`FUNCIONES_IMPUREZA`). */
  datatype Strategy = InformationGain | InformationGainRatio

  const InformationGainName: string := "ganancia_de_informacion"
  const GainRatioName: string := "tasa_de_ganancia_de_informacion"

  /** `_obtener_funcion_impureza`: the strategy named, information gain for
      any name it does not know. */
  function StrategyFor(name: string): (s: Strategy)
    ensures s == InformationGainRatio <==> name == GainRatioName
    ensures name == InformationGainName ==> s == InformationGain
  {
    if name == InformationGainName then InformationGain
    else if name == GainRatioName then InformationGainRatio
    else InformationGain
  }

  /** `encontrar_mejor_atributo` of the strategy. Whatever the strategy, the
      answer is the sentinel or an available attribute carrying exactly the
      score information gain gives it. */
  function Choose(ctx: Ctx, s: Strategy, rows: seq<Row>, attrs: seq<string>): (d: Attribute)
    requires RowsFit(ctx, rows, attrs)
    ensures d == Sentinel || d.name in attrs
    ensures d != Sentinel ==> d.name in attrs && d == InfoGain.Score(ctx, rows, d.name)
    ensures d.threshold.Some? ==>
      d.name in attrs && d.name in ctx.numeric && ProperSplit(rows, d.name, d.threshold.value)
  {
    match s
    case InformationGain => InfoGain.BestAttribute(ctx, rows, attrs)
    case InformationGainRatio => GainRatio.BestAttribute(ctx, rows, attrs)
  }

  /** The leaf `Nodo(valor=c, clase_mas_comun=c)`. */
  function Leaf(c: Option<Value>): (n: Node)
    ensures n.value == c && n.mostCommon == c
    ensures n.attribute.None? && n.threshold.None? && n.children == map[]
  {
    Node(value := c, mostCommon := c)
  }

  /** The three stopping rules, in the order the builder tries them: a
      single class (`_tiene_una_sola_clase`), no attribute left
      (`_hay_atributos_disponibles`), or a best gain below the threshold. */
  predicate Stops(ctx: Ctx, s: Strategy, minGain: real, rows: seq<Row>, attrs: seq<string>)
    requires RowsFit(ctx, rows, attrs)
  {
    || |Distinct(Labels(ctx, rows))| == 1
    || |attrs| == 0
    || Choose(ctx, s, rows, attrs).gain < minGain
  }

  /** With a threshold above -1 the sentinel never gets past the gain test,
      so a split is always on an available attribute. */
  lemma SplitAttributeAvailable(ctx: Ctx, s: Strategy, minGain: real, rows: seq<Row>, attrs: seq<string>)
    requires minGain > -1.0
    requires RowsFit(ctx, rows, attrs)
    requires Choose(ctx, s, rows, attrs).gain >= minGain
    ensures Choose(ctx, s, rows, attrs).name in attrs
  {
  }

  /** A categorical split is never on a numeric column: a numeric column
      with no threshold has gain -1, below any admissible threshold. */
  lemma CategoricalSplitIsTextual(ctx: Ctx, s: Strategy, minGain: real, rows: seq<Row>, attrs: seq<string>)
    requires minGain > -1.0
    requires RowsFit(ctx, rows, attrs)
    requires Choose(ctx, s, rows, attrs).gain >= minGain
    requires Choose(ctx, s, rows, attrs).IsCategorical()
    ensures Choose(ctx, s, rows, attrs).name !in ctx.numeric
  {
  }

  /** The keys of the values in a column. */
  function ValueKeys(c: seq<Value>): (ks: set<Key>)
    ensures forall k :: k in ks ==> (k.Text? || k.NumText?) && ValueOf(k) in c
    ensures forall v :: v in c ==> KeyOf(v) in ks
  {
    set v | v in c :: KeyOf(v)
  }

  /** `_construir_arbol`: a leaf labelled with the most common class when a
      stopping rule fires, otherwise a split on the best attribute. */
  function Build(ctx: Ctx, s: Strategy, minGain: real, rows: seq<Row>, attrs: seq<string>): Node
    requires minGain > -1.0
    requires RowsFit(ctx, rows, attrs)
    decreases |attrs|, |rows|, 1
  {
    if Stops(ctx, s, minGain, rows, attrs) then Leaf(Mode(Labels(ctx, rows)))
    else
      var best := Choose(ctx, s, rows, attrs);
      if best.IsCategorical() then SplitByValue(ctx, s, minGain, rows, attrs, best.name)
      else SplitAtThreshold(ctx, s, minGain, rows, attrs, best.name, best.threshold.value)
  }

  /** A categorical split on `a`: the attribute leaves the list the
      children get, and each value present has one child, built from the
      rows holding that value and stored under the value's key. */
  function SplitByValue(ctx: Ctx, s: Strategy, minGain: real, rows: seq<Row>, attrs: seq<string>, a: string): Node
    requires minGain > -1.0
    requires RowsFit(ctx, rows, attrs)
    requires a in attrs
    decreases |attrs|, |rows|, 0
  {
    var rest := RemoveFirst(attrs, a);
    GroupsFit(ctx, rows, attrs, a);
    Node(
      attribute := Some(a),
      children := map k | k in ValueKeys(Column(rows, a)) :: Build(ctx, s, minGain, Where(rows, a, ValueOf(k)), rest),
      mostCommon := Mode(Labels(ctx, rows)))
  }

  /** A continuous split of `a` at `t`: two children, the rows at most `t`
      and the rows above it, both with the list unchanged. */
  function SplitAtThreshold(ctx: Ctx, s: Strategy, minGain: real, rows: seq<Row>, attrs: seq<string>, a: string, t: real): Node
    requires minGain > -1.0
    requires RowsFit(ctx, rows, attrs)
    requires a in attrs && a in ctx.numeric
    requires ProperSplit(rows, a, t)
    decreases |attrs|, |rows|, 0
  {
    ProperSplitShrinks(rows, a, t);
    Node(
      attribute := Some(a),
      children := map[
        AtMostKey(t) := Build(ctx, s, minGain, AtMost(rows, a, t), attrs),
        AboveKey(t) := Build(ctx, s, minGain, Above(rows, a, t), attrs)],
      mostCommon := Mode(Labels(ctx, rows)),
      threshold := Some(t))
  }
}

=== FILE: entropy.dfy ===
/** Shannon entropy of a column of labels, in the four spellings the
    repository has: mi_arbol_decision/entropia.py (`Entropy`), the inline copy
    in mi_arbol_decision/algoritmo.py (`EntropyInline`), and
    arbol_decision/entropia.py's `calcular_entropia2` (`EntropySeries`) and
    `calcular_entropia` (`EntropyBincount`).  The logarithm is a parameter:
    nothing about numpy's `log2` is assumed except where a lemma says so. */
module Shannon {
  import opened Seqs

  /** The share count/total of label `x` (a `value_counts()` entry divided by
      `len(s)`).  An empty series has no labels, so no share of it is ever
      summed; 0 is returned there only to keep the function total. */
  function Share<T(==,!new)>(labels: seq<T>, x: T): real {
    if |labels| == 0 then 0.0 else Count(labels, x) as real / |labels| as real
  }

  /** One summand p·log2(p); a share of 0 is skipped (`if p > 0`). */
  function PLogP(log2: real -> real, p: real): real {
    if p > 0.0 then p * log2(p) else 0.0
  }

  function Term<T(==,!new)>(log2: real -> real, labels: seq<T>, x: T): real {
    PLogP(log2, Share(labels, x))
  }

  /** The summand as a function of the label. */
  function TermOf<T(==,!new)>(log2: real -> real, labels: seq<T>): T -> real {
    x => Term(log2, labels, x)
  }

  /** Σ p·log2(p) over the distinct labels. */
  function PLogPSum<T(==,!new)>(log2: real -> real, labels: seq<T>): real {
    Sum(Distinct(labels), TermOf(log2, labels))
  }

  /** `calcular_entropia` of mi_arbol_decision/entropia.py: 0 for an empty
      series, otherwise -Σ p·log2(p) over the distinct labels, the sign being
      flipped only when the sum is non-zero. */
  function Entropy<T(==,!new)>(log2: real -> real, labels: seq<T>): (h: real)
    ensures |labels| == 0 ==> h == 0.0
  {
    if |labels| == 0 then 0.0
    else
      var s := PLogPSum(log2, labels);
      if s != 0.0 then -s else s
  }

  /** The copy inside mi_arbol_decision/algoritmo.py: no empty check, sign
      flipped only when the sum is non-zero. */
  function EntropyInline<T(==,!new)>(log2: real -> real, labels: seq<T>): real {
    var s := PLogPSum(log2, labels);
    if s != 0.0 then -s else s
  }

  /** `calcular_entropia2` of arbol_decision/entropia.py: `value_counts()`
      shares, the sum always negated. */
  function EntropySeries<T(==,!new)>(log2: real -> real, labels: seq<T>): real {
    -PLogPSum(log2, labels)
  }

  function MaxOf(y: seq<nat>): (m: nat)
    requires |y| > 0
    ensures forall i :: 0 <= i < |y| ==> y[i] <= m
    decreases |y|
  {
    if |y| == 1 then y[0]
    else
      var m := MaxOf(y[1..]);
      assert forall i :: 1 <= i < |y| ==> y[i] == y[1..][i - 1];
      if y[0] > m then y[0] else m
  }

  /** The bins of `np.bincount(y)`: 0, 1, ..., max(y); none for empty `y`. */
  function Bins(y: seq<nat>): (b: seq<nat>)
    ensures forall k: nat :: k in b <==> |y| > 0 && k <= MaxOf(y)
    ensures NoDup(b)
  {
    if |y| == 0 then []
    else
      var b := seq(MaxOf(y) + 1, k requires 0 <= k <= MaxOf(y) => k);
      forall k: nat
        ensures k in b <==> k <= MaxOf(y)
      {
        if k <= MaxOf(y) { assert b[k] == k; }
        if k in b { var i :| 0 <= i < |b| && b[i] == k; }
      }
      b
  }

  /** `calcular_entropia` of arbol_decision/entropia.py: a share for every
      bin of `np.bincount(y)`, including the empty bins of integers absent
      from `y`, which the `p > 0` test skips; the sum always negated. */
  function EntropyBincount(log2: real -> real, y: seq<nat>): real {
    -Sum(Bins(y), TermOf(log2, y))
  }

  // ---------------------------------------------------------------------
  // Properties

  /** The two mi_arbol_decision spellings and `calcular_entropia2` compute the
      same value on every series, the empty one included. */
  lemma VariantsAgree<T(!new)>(log2: real -> real, labels: seq<T>)
    ensures EntropyInline(log2, labels) == Entropy(log2, labels)
    ensures EntropySeries(log2, labels) == Entropy(log2, labels)
  {
  }

  /** Counting with `np.bincount` gives the same entropy as counting the
      distinct labels: the extra bins hold absent integers, whose share is 0. */
  lemma BincountAgrees(log2: real -> real, y: seq<nat>)
    ensures EntropyBincount(log2, y) == Entropy(log2, y)
  {
    var f := TermOf(log2, y);
    forall k | f(k) != 0.0
      ensures k in Bins(y) <==> k in Distinct(y)
    {
      assert Count(y, k) > 0;
      assert k in y;
      var i :| 0 <= i < |y| && y[i] == k;
    }
    SumSameSupport(Bins(y), Distinct(y), f);
  }

  /** Entropy depends only on how often each label occurs, not on the order
      of the rows. */
  lemma DependsOnlyOnCounts<T(!new)>(log2: real -> real, a: seq<T>, b: seq<T>)
    requires multiset(a) == multiset(b)
    ensures Entropy(log2, a) == Entropy(log2, b)
  {
    assert |a| == |multiset(a)| == |b|;
    var fa := TermOf(log2, a);
    var fb := TermOf(log2, b);
    assert forall x :: x in a <==> x in b by {
      forall x
        ensures x in a <==> x in b
      {
        assert x in a <==> x in multiset(a);
        assert x in b <==> x in multiset(b);
      }
    }
    assert forall x :: fa(x) == fb(x);
    SumCongruent(Distinct(a), fa, fb);
    SumSameSupport(Distinct(a), Distinct(b), fb);
  }

  /** A series holding one label only has entropy 0, given log2(1) = 0. */
  lemma OneLabelHasZeroEntropy<T(!new)>(log2: real -> real, labels: seq<T>)
    requires log2(1.0) == 0.0
    requires |labels| > 0
    requires forall i :: 0 <= i < |labels| ==> labels[i] == labels[0]
    ensures Entropy(log2, labels) == 0.0
  {
    var c := labels[0];
    ConstantHasOneDistinct(labels, c);
    assert multiset(labels)[c] == |labels| by {
      assert labels == seq(|labels|, i => c);
      MultisetOfConstant(|labels|, c);
    }
    WholeShare(labels, c);
    assert Term(log2, labels, c) == 0.0;
    SumSingleton(c, TermOf(log2, labels));
  }

  /** A series has entropy 0 exactly when it holds one label only, given
      that log2 is negative on (0, 1) and 0 at 1. */
  lemma ZeroEntropyIffOneLabel<T(!new)>(log2: real -> real, labels: seq<T>)
    requires log2(1.0) == 0.0
    requires forall p :: 0.0 < p < 1.0 ==> log2(p) < 0.0
    requires |labels| > 0
    ensures Entropy(log2, labels) == 0.0 <==> forall i :: 0 <= i < |labels| ==> labels[i] == labels[0]
  {
    if forall i :: 0 <= i < |labels| ==> labels[i] == labels[0] {
      OneLabelHasZeroEntropy(log2, labels);
    } else {
      var i :| 0 <= i < |labels| && labels[i] != labels[0];
      TwoLabelsPositive(log2, labels, i);
    }
  }

  /** A second label leaves the first a share below 1, whose term is
      negative, so the entropy is positive. */
  lemma TwoLabelsPositive<T(!new)>(log2: real -> real, labels: seq<T>, i: nat)
    requires log2(1.0) == 0.0
    requires forall p :: 0.0 < p < 1.0 ==> log2(p) < 0.0
    requires 0 < i < |labels| && labels[i] != labels[0]
    ensures Entropy(log2, labels) > 0.0
  {
    var f := TermOf(log2, labels);
    forall z | z in Distinct(labels) ensures f(z) <= 0.0 {
      TermNonPositive(log2, labels, z);
    }
    MinorityTermNegative(log2, labels, i);
    SumNegative(Distinct(labels), f, labels[0]);
  }

  /** The term of a label that occurs is at most 0. */
  lemma TermNonPositive<T(!new)>(log2: real -> real, labels: seq<T>, z: T)
    requires log2(1.0) == 0.0
    requires forall p :: 0.0 < p < 1.0 ==> log2(p) < 0.0
    requires z in labels
    ensures Term(log2, labels, z) <= 0.0
  {
    ShareInUnit(labels, z);
    var q := Share(labels, z);
    if q < 1.0 {
      ProductNonPositive(q, log2(q));
    }
  }

  /** With a second label present, the first label's term is negative. */
  lemma MinorityTermNegative<T(!new)>(log2: real -> real, labels: seq<T>, i: nat)
    requires forall p :: 0.0 < p < 1.0 ==> log2(p) < 0.0
    requires 0 < i < |labels| && labels[i] != labels[0]
    ensures Term(log2, labels, labels[0]) < 0.0
  {
    var x := labels[0];
    NotWhole(labels, i);
    ShareInUnit(labels, x);
    RatioBelowOne(Count(labels, x) as real, |labels| as real);
    var p := Share(labels, x);
    assert log2(p) < 0.0;
  }

  /** A label other than the one at position `i` occurs fewer times than
      the series is long. */
  lemma NotWhole<T(!new)>(labels: seq<T>, i: nat)
    requires 0 < i < |labels| && labels[i] != labels[0]
    ensures Count(labels, labels[0]) < |labels|
  {
    var rest := labels[..i] + labels[i + 1..];
    assert labels == labels[..i] + [labels[i]] + labels[i + 1..];
    assert multiset(labels) == multiset(rest) + multiset{labels[i]};
    CountBounds(rest, labels[0]);
  }

  lemma RatioBelowOne(m: real, n: real)
    requires 0.0 < m < n
    ensures m / n < 1.0
  {
    var q := m / n;
    var d := (n - m) / n;
    assert d > 0.0;
    assert q + d == n / n == 1.0;
  }

  /** A label making up the whole series has share 1. */
  lemma WholeShare<T(!new)>(labels: seq<T>, c: T)
    requires |labels| > 0 && Count(labels, c) == |labels|
    ensures Share(labels, c) == 1.0
  {
    var n := |labels| as real;
    assert Share(labels, c) == n / n;
  }

  lemma {:induction false} MultisetOfConstant<T(!new)>(n: nat, c: T)
    ensures multiset(seq(n, i => c))[c] == n
    decreases n
  {
    if n > 0 {
      assert seq(n, i => c) == seq(n - 1, i => c) + [c];
      MultisetOfConstant(n - 1, c);
    }
  }

  /** Entropy is never negative when log2 is non-positive on (0, 1]. */
  lemma NonNegative<T(!new)>(log2: real -> real, labels: seq<T>)
    requires forall p :: 0.0 < p <= 1.0 ==> log2(p) <= 0.0
    ensures Entropy(log2, labels) >= 0.0
  {
    if |labels| > 0 {
      var f := TermOf(log2, labels);
      forall x | x in Distinct(labels)
        ensures f(x) <= 0.0
      {
        ShareInUnit(labels, x);
        var p := Share(labels, x);
        ProductNonPositive(p, log2(p));
      }
      SumNonPositive(Distinct(labels), f);
    }
  }

  /** A label that occurs has a share in (0, 1]. */
  lemma ShareInUnit<T(!new)>(labels: seq<T>, x: T)
    requires x in labels
    ensures 0.0 < Share(labels, x) <= 1.0
  {
    CountBounds(labels, x);
    RatioInUnit(Count(labels, x) as real, |labels| as real);
  }

  lemma RatioInUnit(m: real, n: real)
    requires 0.0 < m <= n
    ensures 0.0 < m / n <= 1.0
  {
    var q := m / n;
    assert q * n == m;
    assert (1.0 - q) * n == n - m;
  }

  lemma ProductNonPositive(p: real, l: real)
    requires p >= 0.0 && l <= 0.0
    ensures p * l <= 0.0
  {
  }

  /** k shares of 1/k sum to log2(1/k). */
  lemma ScaleBack(log2: real -> real, k: real)
    requires k > 0.0
    ensures 1.0 / k > 0.0
    ensures k * PLogP(log2, 1.0 / k) == log2(1.0 / k)
  {
    var q := 1.0 / k;
    assert k * q == 1.0;
    assert k * (q * log2(q)) == (k * q) * log2(q);
  }

  /** k equally frequent distinct labels (each with share 1/k) have entropy
      log2(k), given log2(1/k) = -log2(k). */
  lemma UniformIsLogOfK<T(!new)>(log2: real -> real, labels: seq<T>)
    requires |labels| > 0
    requires forall x :: x in labels ==> Share(labels, x) == 1.0 / |Distinct(labels)| as real
    requires log2(1.0 / |Distinct(labels)| as real) == -log2(|Distinct(labels)| as real)
    ensures Entropy(log2, labels) == log2(|Distinct(labels)| as real)
  {
    UniformSum(log2, labels);
  }

  /** With k equally frequent distinct labels, Σ p·log2(p) is log2(1/k). */
  lemma UniformSum<T(!new)>(log2: real -> real, labels: seq<T>)
    requires |labels| > 0
    requires forall x :: x in labels ==> Share(labels, x) == 1.0 / |Distinct(labels)| as real
    ensures PLogPSum(log2, labels) == log2(1.0 / |Distinct(labels)| as real)
  {
    assert labels[0] in Distinct(labels);
    var k := |Distinct(labels)| as real;
    var c := PLogP(log2, 1.0 / k);
    assert PLogPSum(log2, labels) == k * c by {
      UniformTerms(log2, labels, k);
      ConstantTerms(Distinct(labels), TermOf(log2, labels), c, k);
    }
    assert k * c == log2(1.0 / k) by {
      ScaleBack(log2, k);
    }
  }

  /** Every distinct label of share 1/k contributes PLogP(1/k). */
  lemma UniformTerms<T(!new)>(log2: real -> real, labels: seq<T>, k: real)
    requires k > 0.0
    requires forall x :: x in labels ==> Share(labels, x) == 1.0 / k
    ensures forall x :: x in Distinct(labels) ==> TermOf(log2, labels)(x) == PLogP(log2, 1.0 / k)
  {
    forall x | x in Distinct(labels) ensures TermOf(log2, labels)(x) == PLogP(log2, 1.0 / k) {
      assert x in labels;
    }
  }

  /** Equal summands sum to their number times the summand. */
  lemma ConstantTerms<T(!new)>(d: seq<T>, f: T -> real, c: real, k: real)
    requires k == |d| as real
    requires forall x :: x in d ==> f(x) == c
    ensures Sum(d, f) == k * c
  {
    SumConstant(d, f, c);
  }
}

=== FILE: gain_ratio.dfy ===
/** The gain-ratio strategy of mi_arbol_decision
    (`TasaGananciaDeInformacion`): score each attribute as the
    information-gain strategy does, divide the gain by the entropy of the
    attribute's own column, and pick the attribute of best ratio. */
module GainRatio {
  import opened Base
  import opened Seqs
  import opened Table
  import opened Shannon
  import opened Attributes
  import opened InfoGain

  /** The split information of `a`: the entropy of the attribute's own
      column, raw values and all, also for a numeric column. */
  function SplitInfo(ctx: Ctx, rows: seq<Row>, a: string): real
    requires Fits(ctx, rows, a)
  {
    Entropy(ctx.log2, Column(rows, a))
  }

  /** `x / e`, or 0 when `e` is 0. */
  function Quotient(x: real, e: real): real {
    if e != 0.0 then x / e else 0.0
  }

  /** Dividing by a non-zero number and multiplying back gives the number. */
  lemma QuotientScalesBack(x: real, e: real)
    requires e != 0.0
    ensures Quotient(x, e) * e == x
  {
  }

  /** The gain ratio of the scored attribute `d`; an attribute of zero split
      information gets ratio 0 instead of a division by zero. */
  function Ratio(ctx: Ctx, rows: seq<Row>, d: Attribute): (q: real)
    requires Fits(ctx, rows, d.name)
    ensures SplitInfo(ctx, rows, d.name) == 0.0 ==> q == 0.0
  {
    Quotient(d.gain, SplitInfo(ctx, rows, d.name))
  }

  /** The ratio times the split information gives the gain back. */
  lemma RatioScalesBack(ctx: Ctx, rows: seq<Row>, d: Attribute)
    requires Fits(ctx, rows, d.name)
    requires SplitInfo(ctx, rows, d.name) != 0.0
    ensures Ratio(ctx, rows, d) * SplitInfo(ctx, rows, d.name) == d.gain
  {
    QuotientScalesBack(d.gain, SplitInfo(ctx, rows, d.name));
  }

  /** A column holding a single value carries no split information, so its
      ratio is 0 whatever its gain. */
  lemma ConstantColumnHasZeroRatio(ctx: Ctx, rows: seq<Row>, a: string, v: Value)
    requires Fits(ctx, rows, a)
    requires ctx.log2(1.0) == 0.0
    requires |rows| > 0
    requires forall r :: r in rows ==> r[a] == v
    ensures forall d: Attribute :: d.name == a ==> Ratio(ctx, rows, d) == 0.0
  {
    var c := Column(rows, a);
    forall i | 0 <= i < |c|
      ensures c[i] == c[0]
    {
      assert rows[i] in rows && rows[0] in rows;
    }
    OneLabelHasZeroEntropy(ctx.log2, c);
  }

  /** The ratios of the available attributes, in order. */
  function Ratios(ctx: Ctx, rows: seq<Row>, attrs: seq<string>): (q: seq<real>)
    requires RowsFit(ctx, rows, attrs)
    ensures |q| == |attrs|
  {
    seq(|attrs|, i requires 0 <= i < |attrs| => assert attrs[i] in attrs; Ratio(ctx, rows, Score(ctx, rows, attrs[i])))
  }

  /** `encontrar_mejor_atributo`: scan the attributes in order from the
      sentinel with best ratio -1 and keep one only when its ratio strictly
      beats the best so far. The winner is the first attribute of maximal
      ratio, returned with its gain and threshold; when no ratio exceeds -1
      the sentinel comes back. */
  function BestAttribute(ctx: Ctx, rows: seq<Row>, attrs: seq<string>): (d: Attribute)
    requires RowsFit(ctx, rows, attrs)
    ensures var q := Ratios(ctx, rows, attrs);
      && ((forall i :: 0 <= i < |attrs| ==> q[i] <= -1.0) ==> d == Sentinel)
      && (!(forall i :: 0 <= i < |attrs| ==> q[i] <= -1.0) ==>
            exists k :: (0 <= k < |attrs| && d == Score(ctx, rows, attrs[k])
              && q[k] > -1.0
              && (forall i :: 0 <= i < |attrs| ==> q[i] <= q[k])
              && (forall i :: 0 <= i < k ==> q[i] < q[k])))
    ensures d == Sentinel || d.name in attrs
    ensures d.threshold.Some? ==> d.name in attrs && d.name in ctx.numeric && ProperSplit(rows, d.name, d.threshold.value)
  {
    var q := Ratios(ctx, rows, attrs);
    var p := Best(q, -1.0);
    if p.index.None? then Sentinel
    else
      var k := p.index.value;
      assert attrs[k] in attrs;
      Score(ctx, rows, attrs[k])
  }
}

=== FILE: info_gain.dfy ===
/** The information-gain strategy of mi_arbol_decision
    (`GananciaDeInformacion`): score every available attribute by how much
    splitting on it lowers the entropy of the class labels, searching the
    best binary threshold for numeric columns, and pick the best. */
module InfoGain {
  import opened Base
  import opened Seqs
  import opened Table
  import opened Shannon
  import opened Attributes

  /** The share `part / whole` of the rows that go to one side; the source
      never reaches a zero `whole`, where 0 keeps the function total. */
  function Weight(part: nat, whole: nat): real {
    if whole == 0 then 0.0 else part as real / whole as real
  }

  /** All of the rows make up the whole. */
  lemma WeightOfWhole(n: nat)
    requires n > 0
    ensures Weight(n, n) == 1.0
  {
  }

  /** The shares of two disjoint parts add up. */
  lemma WeightsAdd(p: nat, q: nat, n: nat)
    requires n > 0
    ensures Weight(p, n) + Weight(q, n) == Weight(p + q, n)
  {
    var x := n as real;
    assert p as real / x + q as real / x == (p as real + q as real) / x;
  }

  /** The entropy of the whole set: the labels' entropy. */
  function SetEntropy(ctx: Ctx, rows: seq<Row>): real
    requires forall r :: r in rows ==> ctx.target in r
  {
    Entropy(ctx.log2, Labels(ctx, rows))
  }

  // ---------------------------------------------------------------------
  // Categorical attributes

  /** The weighted entropy left after splitting by every value of `a`: the
      sum over the distinct values `v` of the share of rows with `v` times
      the entropy of their labels. */
  function ChildEntropy(ctx: Ctx, rows: seq<Row>, a: string): real
    requires Fits(ctx, rows, a)
  {
    Sum(Distinct(Column(rows, a)), (v: Value) =>
      Weight(|Where(rows, a, v)|, |rows|) * Entropy(ctx.log2, Labels(ctx, Where(rows, a, v))))
  }

  /** `_calcular_ganancia_atributo_categorico`: entropy of the set minus the
      weighted entropy of the value groups. */
  function CategoricalGain(ctx: Ctx, rows: seq<Row>, a: string, h: real): real
    requires Fits(ctx, rows, a)
  {
    h - ChildEntropy(ctx, rows, a)
  }

  /** Splitting on an attribute that takes a single value leaves the labels
      as they were, so it gains nothing. */
  lemma ConstantAttributeGainsNothing(ctx: Ctx, rows: seq<Row>, a: string, v: Value)
    requires Fits(ctx, rows, a)
    requires |rows| > 0
    requires forall r :: r in rows ==> r[a] == v
    ensures CategoricalGain(ctx, rows, a, SetEntropy(ctx, rows)) == 0.0
  {
    var c := Column(rows, a);
    assert forall i :: 0 <= i < |c| ==> c[i] == v by {
      forall i | 0 <= i < |c| ensures c[i] == v {
        assert rows[i] in rows;
      }
    }
    ConstantHasOneDistinct(c, v);
    FilterAll(rows, (r: Row) => a in r && r[a] == v);
    assert Where(rows, a, v) == rows;
    var f := (w: Value) =>
      Weight(|Where(rows, a, w)|, |rows|) * Entropy(ctx.log2, Labels(ctx, Where(rows, a, w)));
    assert Sum([v], f) == f(v) + Sum([], f);
    WeightOfWhole(|rows|);
    assert f(v) == 1.0 * SetEntropy(ctx, rows);
  }

  // ---------------------------------------------------------------------
  // Continuous attributes

  /** The weighted entropy of the two sides of the split at `t`. */
  function SplitEntropy(ctx: Ctx, rows: seq<Row>, a: string, t: real): real
    requires forall r :: r in rows ==> ctx.target in r
  {
    var lo := AtMost(rows, a, t);
    var hi := Above(rows, a, t);
    Weight(|lo|, |rows|) * Entropy(ctx.log2, Labels(ctx, lo))
      + Weight(|hi|, |rows|) * Entropy(ctx.log2, Labels(ctx, hi))
  }

  /** The gain of the binary split at `t`. */
  function SplitGain(ctx: Ctx, rows: seq<Row>, a: string, t: real, h: real): real
    requires forall r :: r in rows ==> ctx.target in r
  {
    h - SplitEntropy(ctx, rows, a, t)
  }

  /** The two sides' weights of a split of a non-empty set add up to one. */
  lemma SplitWeightsSumToOne(rows: seq<Row>, a: string, t: real)
    requires forall r :: r in rows ==> HasNum(r, a)
    requires |rows| > 0
    ensures Weight(|AtMost(rows, a, t)|, |rows|) + Weight(|Above(rows, a, t)|, |rows|) == 1.0
  {
    SplitPartition(rows, a, t);
    WeightsAdd(|AtMost(rows, a, t)|, |Above(rows, a, t)|, |rows|);
    WeightOfWhole(|rows|);
  }

  /** The points halfway between neighbours of a sorted sequence. */
  function Midpoints(u: seq<real>): (c: seq<real>)
    ensures |c| == if |u| == 0 then 0 else |u| - 1
  {
    if |u| < 2 then []
    else seq(|u| - 1, i requires 0 <= i < |u| - 1 => (u[i] + u[i + 1]) / 2.0)
  }

  /** The sorted distinct values of a numeric column (`sorted(unique())`). */
  function SortedValues(rows: seq<Row>, a: string): seq<real>
    requires forall r :: r in rows ==> HasNum(r, a)
  {
    SortDistinct(Distinct(NumColumn(rows, a)))
  }

  /** The candidate thresholds of a numeric column (`puntos_corte`). */
  function Candidates(rows: seq<Row>, a: string): seq<real>
    requires forall r :: r in rows ==> HasNum(r, a)
  {
    Midpoints(SortedValues(rows, a))
  }

  /** With k distinct values in the column there are k - 1 candidates, the
      i-th strictly between the i-th and (i+1)-th smallest value. */
  lemma CandidatesBetweenNeighbours(rows: seq<Row>, a: string)
    requires forall r :: r in rows ==> HasNum(r, a)
    ensures var u := SortedValues(rows, a);
      && StrictlyIncreasing(u)
      && |u| == |Distinct(NumColumn(rows, a))|
      && (forall x :: x in u <==> x in NumColumn(rows, a))
    ensures var u := SortedValues(rows, a);
      var c := Candidates(rows, a);
      && |c| == (if |u| == 0 then 0 else |u| - 1)
      && (forall i :: 0 <= i < |c| ==> u[i] < c[i] < u[i + 1])
  {
  }

  /** Every candidate leaves rows on both sides, so each side is strictly
      smaller than the set. */
  lemma CandidateSplitsProperly(rows: seq<Row>, a: string, t: real)
    requires forall r :: r in rows ==> HasNum(r, a)
    requires t in Candidates(rows, a)
    ensures ProperSplit(rows, a, t)
    ensures |AtMost(rows, a, t)| < |rows| && |Above(rows, a, t)| < |rows|
  {
    var u := SortedValues(rows, a);
    var c := Candidates(rows, a);
    CandidatesBetweenNeighbours(rows, a);
    var i :| 0 <= i < |c| && c[i] == t;
    SplitBetween(rows, a, u[i], u[i + 1], t);
  }

  /** The gains of the candidate thresholds, in order: the i-th is the
      gain of the split at the i-th candidate. */
  function CandidateGains(ctx: Ctx, rows: seq<Row>, a: string, h: real): (g: seq<real>)
    requires Fits(ctx, rows, a) && a in ctx.numeric
    ensures var c := Candidates(rows, a);
      |g| == |c| && forall i :: 0 <= i < |c| ==> g[i] == SplitGain(ctx, rows, a, c[i], h)
  {
    var c := Candidates(rows, a);
    seq(|c|, i requires 0 <= i < |c| => SplitGain(ctx, rows, a, c[i], h))
  }

  /** The first of the thresholds `c` whose gain in `g` is maximal and above
      -1, with its gain; gain -1 and no threshold when there is none. */
  function PickThreshold(c: seq<real>, g: seq<real>): (r: (real, Option<real>))
    requires |g| == |c|
    ensures r.1.None? <==> forall i :: 0 <= i < |c| ==> g[i] <= -1.0
    ensures r.1.None? ==> r.0 == -1.0
    ensures r.1.Some? ==> r.0 > -1.0 && r.1.value in c
    ensures r.1.Some? ==>
      exists k :: (0 <= k < |c| && c[k] == r.1.value && r.0 == g[k]
        && (forall i :: 0 <= i < |c| ==> g[i] <= r.0)
        && (forall i :: 0 <= i < k ==> g[i] < r.0))
  {
    var p := Best(g, -1.0);
    if p.index.None? then (-1.0, None)
    else
      var k := p.index.value;
      assert c[k] in c;
      (p.score, Some(c[k]))
  }

  /** `_encontrar_mejor_umbral_continuo`: the best gain and the threshold
      achieving it, scanning the candidates from the smallest and keeping a
      threshold only when it strictly beats the best so far, starting from
      gain -1 and no threshold. */
  function BestThreshold(ctx: Ctx, rows: seq<Row>, a: string, h: real): (r: (real, Option<real>))
    requires Fits(ctx, rows, a) && a in ctx.numeric
    ensures var c := Candidates(rows, a);
      var g := CandidateGains(ctx, rows, a, h);
      && (r.1.None? <==> forall i :: 0 <= i < |c| ==> g[i] <= -1.0)
      && (r.1.None? ==> r.0 == -1.0)
      && (r.1.Some? ==>
            exists k :: (0 <= k < |c| && c[k] == r.1.value && r.0 == g[k]
              && (forall i :: 0 <= i < |c| ==> g[i] <= r.0)
              && (forall i :: 0 <= i < k ==> g[i] < r.0)))
    ensures r.1.Some? ==> r.0 > -1.0 && ProperSplit(rows, a, r.1.value)
    ensures |Distinct(NumColumn(rows, a))| < 2 ==> r == (-1.0, None)
  {
    var c := Candidates(rows, a);
    var r := PickThreshold(c, CandidateGains(ctx, rows, a, h));
    if r.1.Some? then CandidateSplitsProperly(rows, a, r.1.value); r else r
  }

  // ---------------------------------------------------------------------
  // Scoring and choosing

  /** `calcular_ganancia_atributo`: a numeric column is scored by its best
      threshold, any other column by its categorical gain; both measure the
      drop from the entropy of the set's labels. */
  function Score(ctx: Ctx, rows: seq<Row>, a: string): (d: Attribute)
    requires Fits(ctx, rows, a)
    ensures d.name == a
    ensures a !in ctx.numeric ==>
      d.threshold.None? && d.gain == CategoricalGain(ctx, rows, a, SetEntropy(ctx, rows))
    ensures a in ctx.numeric ==> (d.gain, d.threshold) == BestThreshold(ctx, rows, a, SetEntropy(ctx, rows))
    ensures d.threshold.Some? ==> a in ctx.numeric && d.gain > -1.0 && ProperSplit(rows, a, d.threshold.value)
  {
    var h := SetEntropy(ctx, rows);
    if a in ctx.numeric then
      var (gain, threshold) := BestThreshold(ctx, rows, a, h);
      Attribute(a, gain, threshold)
    else
      Attribute(a, CategoricalGain(ctx, rows, a, h), None)
  }

  /** The gains of the available attributes, in order. */
  function Gains(ctx: Ctx, rows: seq<Row>, attrs: seq<string>): (g: seq<real>)
    requires RowsFit(ctx, rows, attrs)
    ensures |g| == |attrs|
  {
    seq(|attrs|, i requires 0 <= i < |attrs| => assert attrs[i] in attrs; Score(ctx, rows, attrs[i]).gain)
  }

  /** `encontrar_mejor_atributo`: scan the attributes in order from the
      sentinel and keep one only when its gain strictly beats the best so
      far. The winner is the first attribute of maximal gain; the sentinel
      comes back exactly when no gain exceeds -1. */
  function BestAttribute(ctx: Ctx, rows: seq<Row>, attrs: seq<string>): (d: Attribute)
    requires RowsFit(ctx, rows, attrs)
    ensures d.gain >= -1.0
    ensures forall i :: 0 <= i < |attrs| ==> Gains(ctx, rows, attrs)[i] <= d.gain
    ensures d == Sentinel <==> forall i :: 0 <= i < |attrs| ==> Gains(ctx, rows, attrs)[i] <= -1.0
    ensures d != Sentinel ==>
      exists k :: (0 <= k < |attrs| && d == Score(ctx, rows, attrs[k])
        && forall i :: 0 <= i < k ==> Gains(ctx, rows, attrs)[i] < d.gain)
    ensures d == Sentinel || d.name in attrs
    ensures d.threshold.Some? ==> d.name in attrs && d.name in ctx.numeric && ProperSplit(rows, d.name, d.threshold.value)
  {
    var g := Gains(ctx, rows, attrs);
    var p := Best(g, -1.0);
    if p.index.None? then Sentinel
    else
      var k := p.index.value;
      assert attrs[k] in attrs;
      Score(ctx, rows, attrs[k])
  }

  /** The winner gains something exactly when some attribute does. */
  lemma BestGainPositive(ctx: Ctx, rows: seq<Row>, attrs: seq<string>)
    requires RowsFit(ctx, rows, attrs)
    ensures BestAttribute(ctx, rows, attrs).gain > 0.0 <==>
      exists i :: 0 <= i < |attrs| && Gains(ctx, rows, attrs)[i] > 0.0
  {
    var d := BestAttribute(ctx, rows, attrs);
    var g := Gains(ctx, rows, attrs);
    assert d.gain > 0.0 ==> exists i :: 0 <= i < |attrs| && g[i] > 0.0 by {
      if d.gain > 0.0 {
        var k :| 0 <= k < |attrs| && d == Score(ctx, rows, attrs[k]);
        assert g[k] > 0.0;
      }
    }
  }

  /** A winner that is not the sentinel is the first attribute of greatest
      gain. */
  lemma BestIsFirstMax(ctx: Ctx, rows: seq<Row>, attrs: seq<string>)
    requires RowsFit(ctx, rows, attrs)
    requires BestAttribute(ctx, rows, attrs) != Sentinel
    ensures exists k :: (FirstMax(Gains(ctx, rows, attrs), k)
      && Gains(ctx, rows, attrs)[k] == BestAttribute(ctx, rows, attrs).gain
      && BestAttribute(ctx, rows, attrs).name == attrs[k])
  {
    var g := Gains(ctx, rows, attrs);
    var d := BestAttribute(ctx, rows, attrs);
    var k :| 0 <= k < |attrs| && d == Score(ctx, rows, attrs[k])
      && forall i :: 0 <= i < k ==> g[i] < d.gain;
    assert g[k] == d.gain;
    assert FirstMax(g, k);
  }
}

=== FILE: inline_tree.dfy ===
/** The earlier builder of mi_arbol_decision/algoritmo2.py, which computes
    information gain inline instead of through a strategy. Its threshold
    search and categorical child entropy are the same code as the
    information-gain strategy's (`InfoGain.BestThreshold`,
    `InfoGain.ChildEntropy`); its attribute scan is written out here and
    shown to pick what the strategy picks, and the whole builder is shown
    to build the tree of mi_arbol_decision/algoritmo3.py with information
    gain. */
module InlineTree {
  import opened Base
  import opened Seqs
  import opened Table
  import opened Attributes
  import opened Nodes
  import opened DecisionTree
  import InfoGain

  /** The state of the scan: best name, best gain, best threshold. */
  datatype Choice = Choice(name: string, gain: real, threshold: Option<real>)

  /** What the scan weighs for one attribute: the best threshold and its
      gain for a numeric column (`_encontrar_mejor_umbral_continuo`), the
      categorical gain and no threshold otherwise. */
  function Weigh(ctx: Ctx, rows: seq<Row>, a: string, h: real): (c: Choice)
    requires Fits(ctx, rows, a)
    ensures c.name == a
    ensures c.threshold.Some? ==> a in ctx.numeric && c.gain > -1.0 && ProperSplit(rows, a, c.threshold.value)
  {
    if a in ctx.numeric then
      var (g, t) := InfoGain.BestThreshold(ctx, rows, a, h);
      Choice(a, g, t)
    else
      Choice(a, h - InfoGain.ChildEntropy(ctx, rows, a), None)
  }

  /** Weighing an attribute inline gives the strategy's score for it. */
  lemma WeighIsScore(ctx: Ctx, rows: seq<Row>, a: string)
    requires Fits(ctx, rows, a)
    ensures var d := InfoGain.Score(ctx, rows, a);
      Weigh(ctx, rows, a, InfoGain.SetEntropy(ctx, rows)) == Choice(d.name, d.gain, d.threshold)
  {
  }

  /** `_encontrar_mejor_atributo`: start from `('', -1, None)` and, attribute
      by attribute, take the weighed attribute whenever its gain strictly
      beats the best so far. The winner is an available attribute with a
      gain above -1, with a threshold only for a numeric column and then one
      splitting properly. */
  function Scan(ctx: Ctx, rows: seq<Row>, attrs: seq<string>, h: real): (b: Choice)
    requires RowsFit(ctx, rows, attrs)
    ensures b.gain >= -1.0
    ensures b == Choice("", -1.0, None) || (b.name in attrs && b.gain > -1.0)
    ensures b.threshold.Some? ==>
      b.name in attrs && b.name in ctx.numeric && ProperSplit(rows, b.name, b.threshold.value)
    decreases |attrs|
  {
    if |attrs| == 0 then Choice("", -1.0, None)
    else
      var last := |attrs| - 1;
      assert attrs[last] in attrs;
      assert RowsFit(ctx, rows, attrs[..last]) by {
        assert forall x :: x in attrs[..last] ==> x in attrs;
      }
      var prev := Scan(ctx, rows, attrs[..last], h);
      var c := Weigh(ctx, rows, attrs[last], h);
      if c.gain > prev.gain then c else prev
  }

  /** The scan's state read off a `Best` over the gains. */
  function Reading(ctx: Ctx, rows: seq<Row>, attrs: seq<string>, p: Pick): Choice
    requires RowsFit(ctx, rows, attrs)
  {
    if p.index.None? || p.index.value >= |attrs| then Choice("", -1.0, None)
    else
      assert attrs[p.index.value] in attrs;
      var d := InfoGain.Score(ctx, rows, attrs[p.index.value]);
      Choice(d.name, d.gain, d.threshold)
  }

  lemma {:induction false} ScanFollowsBest(ctx: Ctx, rows: seq<Row>, attrs: seq<string>)
    requires RowsFit(ctx, rows, attrs)
    ensures Scan(ctx, rows, attrs, InfoGain.SetEntropy(ctx, rows))
      == Reading(ctx, rows, attrs, Best(InfoGain.Gains(ctx, rows, attrs), -1.0))
    decreases |attrs|
  {
    if |attrs| > 0 {
      var init := attrs[..|attrs| - 1];
      InitFits(ctx, rows, attrs);
      ScanFollowsBest(ctx, rows, init);
      ScanStep(ctx, rows, attrs);
    }
  }

  /** All but the last attribute still fit, and their gains are a prefix. */
  lemma InitFits(ctx: Ctx, rows: seq<Row>, attrs: seq<string>)
    requires RowsFit(ctx, rows, attrs)
    requires |attrs| > 0
    ensures RowsFit(ctx, rows, attrs[..|attrs| - 1])
    ensures InfoGain.Gains(ctx, rows, attrs[..|attrs| - 1]) == InfoGain.Gains(ctx, rows, attrs)[..|attrs| - 1]
  {
    var init := attrs[..|attrs| - 1];
    assert forall x :: x in init ==> x in attrs;
  }

  /** The reading of a prefix scan is the same over the whole list, and its
      gain is the scan's best score. */
  lemma ReadingOfPrefix(ctx: Ctx, rows: seq<Row>, attrs: seq<string>)
    requires RowsFit(ctx, rows, attrs)
    requires |attrs| > 0
    ensures var last := |attrs| - 1;
      var p := Best(InfoGain.Gains(ctx, rows, attrs)[..last], -1.0);
      && RowsFit(ctx, rows, attrs[..last])
      && Reading(ctx, rows, attrs[..last], p) == Reading(ctx, rows, attrs, p)
      && Reading(ctx, rows, attrs, p).gain == p.score
  {
    var last := |attrs| - 1;
    var g := InfoGain.Gains(ctx, rows, attrs);
    InitFits(ctx, rows, attrs);
    var p := Best(g[..last], -1.0);
    if p.index.Some? {
      var k := p.index.value;
      assert attrs[..last][k] == attrs[k];
      assert attrs[k] in attrs;
      assert g[..last][k] == InfoGain.Score(ctx, rows, attrs[k]).gain;
    }
  }

  /** One step of the scan is one step of `Best`. */
  lemma ScanStep(ctx: Ctx, rows: seq<Row>, attrs: seq<string>)
    requires RowsFit(ctx, rows, attrs)
    requires |attrs| > 0
    requires RowsFit(ctx, rows, attrs[..|attrs| - 1])
    requires Scan(ctx, rows, attrs[..|attrs| - 1], InfoGain.SetEntropy(ctx, rows))
      == Reading(ctx, rows, attrs[..|attrs| - 1], Best(InfoGain.Gains(ctx, rows, attrs[..|attrs| - 1]), -1.0))
    ensures Scan(ctx, rows, attrs, InfoGain.SetEntropy(ctx, rows))
      == Reading(ctx, rows, attrs, Best(InfoGain.Gains(ctx, rows, attrs), -1.0))
  {
    var h := InfoGain.SetEntropy(ctx, rows);
    var g := InfoGain.Gains(ctx, rows, attrs);
    var last := |attrs| - 1;
    InitFits(ctx, rows, attrs);
    ReadingOfPrefix(ctx, rows, attrs);
    var p := Best(g[..last], -1.0);
    var prev := Reading(ctx, rows, attrs, p);
    var a := attrs[last];
    assert a in attrs;
    WeighIsScore(ctx, rows, a);
    var c := Weigh(ctx, rows, a, h);
    assert g[last] == c.gain;
    assert Scan(ctx, rows, attrs, h) == if c.gain > prev.gain then c else prev;
    BestLast(g, -1.0);
  }

  /** The inline scan picks what the information-gain strategy picks: the
      same name, gain and threshold, or the initial triple where the strategy
      returns its sentinel. */
  lemma ScanAgrees(ctx: Ctx, rows: seq<Row>, attrs: seq<string>)
    requires RowsFit(ctx, rows, attrs)
    ensures var d := InfoGain.BestAttribute(ctx, rows, attrs);
      Scan(ctx, rows, attrs, InfoGain.SetEntropy(ctx, rows)) == Choice(d.name, d.gain, d.threshold)
  {
    ScanFollowsBest(ctx, rows, attrs);
  }

  /** `_construir_arbol` of algoritmo2.py. */
  function Build2(ctx: Ctx, minGain: real, rows: seq<Row>, attrs: seq<string>): (n: Node)
    requires minGain > -1.0
    requires RowsFit(ctx, rows, attrs)
    ensures n.mostCommon == Mode(Labels(ctx, rows))
    decreases |attrs|, |rows|, 1
  {
    var labels := Labels(ctx, rows);
    var mc := Mode(labels);
    if |Distinct(labels)| == 1 || |attrs| == 0 then Leaf(mc)
    else
      var b := Scan(ctx, rows, attrs, InfoGain.SetEntropy(ctx, rows));
      if b.gain < minGain then Leaf(mc)
      else if b.threshold.None? then ByValue2(ctx, minGain, rows, attrs, b.name)
      else AtThreshold2(ctx, minGain, rows, attrs, b.name, b.threshold.value)
  }

  function ByValue2(ctx: Ctx, minGain: real, rows: seq<Row>, attrs: seq<string>, a: string): Node
    requires minGain > -1.0
    requires RowsFit(ctx, rows, attrs)
    requires a in attrs
    decreases |attrs|, |rows|, 0
  {
    var rest := RemoveFirst(attrs, a);
    GroupsFit(ctx, rows, attrs, a);
    Node(
      attribute := Some(a),
      children := map k | k in ValueKeys(Column(rows, a)) :: Build2(ctx, minGain, Where(rows, a, ValueOf(k)), rest),
      mostCommon := Mode(Labels(ctx, rows)))
  }

  function AtThreshold2(ctx: Ctx, minGain: real, rows: seq<Row>, attrs: seq<string>, a: string, t: real): Node
    requires minGain > -1.0
    requires RowsFit(ctx, rows, attrs)
    requires a in attrs && a in ctx.numeric
    requires ProperSplit(rows, a, t)
    decreases |attrs|, |rows|, 0
  {
    ProperSplitShrinks(rows, a, t);
    Node(
      attribute := Some(a),
      children := map[
        AtMostKey(t) := Build2(ctx, minGain, AtMost(rows, a, t), attrs),
        AboveKey(t) := Build2(ctx, minGain, Above(rows, a, t), attrs)],
      mostCommon := Mode(Labels(ctx, rows)),
      threshold := Some(t))
  }

  /** algoritmo2.py builds exactly the tree algoritmo3.py builds with the
      information-gain strategy. */
  lemma {:induction false} SameTreeAsInformationGain(ctx: Ctx, minGain: real, rows: seq<Row>, attrs: seq<string>)
    requires minGain > -1.0
    requires RowsFit(ctx, rows, attrs)
    ensures Build2(ctx, minGain, rows, attrs) == Build(ctx, InformationGain, minGain, rows, attrs)
    decreases |attrs|, |rows|, 1
  {
    var labels := Labels(ctx, rows);
    if |Distinct(labels)| != 1 && |attrs| != 0 {
      ScanAgrees(ctx, rows, attrs);
      var d := Choose(ctx, InformationGain, rows, attrs);
      if d.gain >= minGain {
        if d.IsCategorical() {
          SameByValue(ctx, minGain, rows, attrs, d.name);
        } else {
          SameAtThreshold(ctx, minGain, rows, attrs, d.name, d.threshold.value);
        }
      }
    }
  }

  lemma {:induction false} SameByValue(ctx: Ctx, minGain: real, rows: seq<Row>, attrs: seq<string>, a: string)
    requires minGain > -1.0
    requires RowsFit(ctx, rows, attrs)
    requires a in attrs
    ensures ByValue2(ctx, minGain, rows, attrs, a) == SplitByValue(ctx, InformationGain, minGain, rows, attrs, a)
    decreases |attrs|, |rows|, 0
  {
    var rest := RemoveFirst(attrs, a);
    GroupsFit(ctx, rows, attrs, a);
    forall k | k in ValueKeys(Column(rows, a))
      ensures Build2(ctx, minGain, Where(rows, a, ValueOf(k)), rest)
        == Build(ctx, InformationGain, minGain, Where(rows, a, ValueOf(k)), rest)
    {
      SameTreeAsInformationGain(ctx, minGain, Where(rows, a, ValueOf(k)), rest);
    }
    SameChildren(ctx, minGain, rows, attrs, a);
  }

  /** Categorical splits agree once their children do. */
  lemma SameChildren(ctx: Ctx, minGain: real, rows: seq<Row>, attrs: seq<string>, a: string)
    requires minGain > -1.0
    requires RowsFit(ctx, rows, attrs)
    requires a in attrs
    requires forall k :: k in ValueKeys(Column(rows, a)) ==>
      RowsFit(ctx, Where(rows, a, ValueOf(k)), RemoveFirst(attrs, a)) &&
      Build2(ctx, minGain, Where(rows, a, ValueOf(k)), RemoveFirst(attrs, a))
        == Build(ctx, InformationGain, minGain, Where(rows, a, ValueOf(k)), RemoveFirst(attrs, a))
    ensures ByValue2(ctx, minGain, rows, attrs, a) == SplitByValue(ctx, InformationGain, minGain, rows, attrs, a)
  {
    var rest := RemoveFirst(attrs, a);
    var keys := ValueKeys(Column(rows, a));
    var m2 := map k | k in keys :: Build2(ctx, minGain, Where(rows, a, ValueOf(k)), rest);
    var m := map k | k in keys :: Build(ctx, InformationGain, minGain, Where(rows, a, ValueOf(k)), rest);
    assert m2 == m by {
      assert m2.Keys == m.Keys by {
        forall k ensures k in m2.Keys <==> k in m.Keys { }
      }
      forall k | k in m2 ensures m2[k] == m[k] { }
    }
  }

  lemma {:induction false} SameAtThreshold(ctx: Ctx, minGain: real, rows: seq<Row>, attrs: seq<string>, a: string, t: real)
    requires minGain > -1.0
    requires RowsFit(ctx, rows, attrs)
    requires a in attrs && a in ctx.numeric
    requires ProperSplit(rows, a, t)
    ensures AtThreshold2(ctx, minGain, rows, attrs, a, t) == SplitAtThreshold(ctx, InformationGain, minGain, rows, attrs, a, t)
    decreases |attrs|, |rows|, 0
  {
    ProperSplitShrinks(rows, a, t);
    SameTreeAsInformationGain(ctx, minGain, AtMost(rows, a, t), attrs);
    SameTreeAsInformationGain(ctx, minGain, Above(rows, a, t), attrs);
  }

  /** `entrenar` of algoritmo2.py: the tree over every column but the target;
      dropping a target that is not a column fails. */
  function Train2(ctx: Ctx, minGain: real, columns: seq<string>, rows: seq<Row>): (r: Option<Node>)
    requires minGain > -1.0
    requires forall r :: r in rows ==> forall c :: c in columns ==> c in r
    requires forall a :: a in columns && a in ctx.numeric ==> forall r :: r in rows ==> HasNum(r, a)
    ensures r.None? <==> ctx.target !in columns
    ensures r.Some? ==> r.value == Build(ctx, InformationGain, minGain, rows, Without(columns, ctx.target))
  {
    if ctx.target !in columns then None
    else
      var attrs := Without(columns, ctx.target);
      SameTreeAsInformationGain(ctx, minGain, rows, attrs);
      Some(Build2(ctx, minGain, rows, attrs))
  }
}

=== FILE: multiway_c45.dfy ===
/** The multi-way C4.5 learner of arbol_decision/algoritmo2.py: it works on
    a table holding the label column, splits on the column of greatest
    information gain (only when that gain is positive) into one child per
    value present, drops the column from every child, and predicts with a
    fallback to the most common class of the node where a value was never
    seen. Every column is read as categorical. */
module MultiwayC45 {
  import opened Base
  import opened Seqs
  import opened Table
  import opened Nodes
  import opened DecisionTree
  import InfoGain
  import opened Attributes

  /** The stopping parameters (`min_samples_split`, `max_depth`). */
  datatype Config = Config(minSamplesSplit: int := 2, maxDepth: int := 100)

  /** Every row carries every listed column, the label column among them. */
  predicate Covers(target: string, columns: seq<string>, rows: seq<Row>) {
    && target in columns
    && forall r :: r in rows ==> forall c :: c in columns ==> c in r
  }

  /** The context of a build: no column is numeric. */
  function ContextOf(target: string, log2: real -> real): (ctx: Ctx)
    ensures ctx.target == target && ctx.numeric == {} && ctx.log2 == log2
  {
    Ctx(target, {}, log2)
  }

  lemma CoversFits(target: string, log2: real -> real, columns: seq<string>, rows: seq<Row>, attrs: seq<string>)
    requires Covers(target, columns, rows)
    requires forall a :: a in attrs ==> a in columns
    ensures RowsFit(ContextOf(target, log2), rows, attrs)
  {
  }

  /** The rows without column `a` (`drop(a, axis=1)`). */
  function Drop(rows: seq<Row>, a: string): (d: seq<Row>)
    ensures |d| == |rows|
    ensures forall i :: 0 <= i < |rows| ==> d[i] == rows[i] - {a}
  {
    seq(|rows|, i requires 0 <= i < |rows| => rows[i] - {a})
  }

  /** A group without its column still carries the remaining columns. */
  lemma DropCovers(target: string, columns: seq<string>, rows: seq<Row>, a: string, v: Value)
    requires Covers(target, columns, rows)
    requires a in columns && a != target
    ensures Covers(target, Without(columns, a), Drop(Where(rows, a, v), a))
    ensures |Without(columns, a)| < |columns|
  {
    var sub := Where(rows, a, v);
    var d := Drop(sub, a);
    forall r | r in d ensures forall c :: c in Without(columns, a) ==> c in r {
      var i :| 0 <= i < |d| && d[i] == r;
      assert sub[i] in sub;
    }
  }

  /** `_encontrar_mejor_atributo`: the first non-label column of strictly
      greatest information gain, kept only when that gain is positive. */
  function BestFeature(target: string, log2: real -> real, columns: seq<string>, rows: seq<Row>): (r: Option<string>)
    requires Covers(target, columns, rows)
    ensures r.Some? ==> r.value in columns && r.value != target
  {
    var features := Without(columns, target);
    CoversFits(target, log2, columns, rows, features);
    var d := InfoGain.BestAttribute(ContextOf(target, log2), rows, features);
    if d.gain > 0.0 then Some(d.name) else None
  }

  /** The information gain of every non-label column, in column order. */
  function FeatureGains(target: string, log2: real -> real, columns: seq<string>, rows: seq<Row>): (g: seq<real>)
    requires Covers(target, columns, rows)
    ensures |g| == |Without(columns, target)|
  {
    CoversFits(target, log2, columns, rows, Without(columns, target));
    InfoGain.Gains(ContextOf(target, log2), rows, Without(columns, target))
  }

  /** No column is chosen exactly when no column gains anything. */
  lemma BestFeatureNoneIffNoGain(target: string, log2: real -> real, columns: seq<string>, rows: seq<Row>)
    requires Covers(target, columns, rows)
    ensures BestFeature(target, log2, columns, rows).None? <==>
      forall i :: 0 <= i < |Without(columns, target)| ==> FeatureGains(target, log2, columns, rows)[i] <= 0.0
  {
    var features := Without(columns, target);
    var ctx := ContextOf(target, log2);
    CoversFits(target, log2, columns, rows, features);
    FeatureChoice(target, log2, columns, rows);
    InfoGain.BestGainPositive(ctx, rows, features);
  }

  lemma FeatureChoice(target: string, log2: real -> real, columns: seq<string>, rows: seq<Row>)
    requires Covers(target, columns, rows)
    requires RowsFit(ContextOf(target, log2), rows, Without(columns, target))
    ensures BestFeature(target, log2, columns, rows).None? <==>
      !(InfoGain.BestAttribute(ContextOf(target, log2), rows, Without(columns, target)).gain > 0.0)
    ensures BestFeature(target, log2, columns, rows).Some? ==>
      BestFeature(target, log2, columns, rows).value == InfoGain.BestAttribute(ContextOf(target, log2), rows, Without(columns, target)).name
    ensures FeatureGains(target, log2, columns, rows) == InfoGain.Gains(ContextOf(target, log2), rows, Without(columns, target))
  {
  }

  /** The chosen column is the first one of strictly greatest gain, and that
      gain is positive. */
  lemma BestFeatureIsFirstPositiveMaximum(target: string, log2: real -> real, columns: seq<string>, rows: seq<Row>)
    requires Covers(target, columns, rows)
    requires BestFeature(target, log2, columns, rows).Some?
    ensures exists k :: (FirstMax(FeatureGains(target, log2, columns, rows), k)
      && FeatureGains(target, log2, columns, rows)[k] > 0.0
      && BestFeature(target, log2, columns, rows).value == Without(columns, target)[k])
  {
    var features := Without(columns, target);
    var ctx := ContextOf(target, log2);
    CoversFits(target, log2, columns, rows, features);
    FeatureChoice(target, log2, columns, rows);
    InfoGain.BestIsFirstMax(ctx, rows, features);
  }

  /** `_construir_arbol`: a leaf holding the mode when the depth limit is
      reached, the labels are pure, the rows are too few, or no column gains;
      otherwise one child per value of the best column, built from the rows
      with that value and without that column. */
  function Build(cfg: Config, target: string, log2: real -> real, columns: seq<string>, rows: seq<Row>, depth: int): (n: Node)
    requires Covers(target, columns, rows)
    ensures n.mostCommon == Mode(Labels(ContextOf(target, log2), rows))
    ensures n.mostCommon.Some? ==> IsMode(Labels(ContextOf(target, log2), rows), n.mostCommon.value)
    decreases |columns|, 1
  {
    var ctx := ContextOf(target, log2);
    var mc := Mode(Labels(ctx, rows));
    if depth >= cfg.maxDepth || |Distinct(Labels(ctx, rows))| == 1 || |rows| < cfg.minSamplesSplit then Leaf(mc)
    else
      match BestFeature(target, log2, columns, rows)
      case None => Leaf(mc)
      case Some(a) => Branch(cfg, target, log2, columns, rows, depth, a)
  }

  /** The decision on column `a`. */
  function Branch(cfg: Config, target: string, log2: real -> real, columns: seq<string>, rows: seq<Row>, depth: int, a: string): Node
    requires Covers(target, columns, rows)
    requires a in columns && a != target
    decreases |columns|, 0
  {
    var ctx := ContextOf(target, log2);
    var rest := Without(columns, a);
    Node(
      attribute := Some(a),
      children := map k | k in ValueKeys(Column(rows, a)) ::
        var sub := Drop(Where(rows, a, ValueOf(k)), a);
        DropCovers(target, columns, rows, a, ValueOf(k));
        Build(cfg, target, log2, rest, sub, depth + 1),
      mostCommon := Mode(Labels(ctx, rows)))
  }

  /** `fit`: the table is the samples with the label added under the label
      series' name, every sample column and then the label column. */
  function Fit(cfg: Config, log2: real -> real, columns: seq<string>, X: seq<Row>, target: string, y: seq<Value>): (root: Node)
    requires |X| == |y|
    requires target !in columns
    requires forall r :: r in X ==> forall c :: c in columns ==> c in r
    ensures root.mostCommon == Mode(y)
    ensures Covers(target, columns + [target], Joined(X, target, y))
    ensures root == Build(cfg, target, log2, columns + [target], Joined(X, target, y), 0)
  {
    var rows := Joined(X, target, y);
    forall r | r in rows ensures forall c :: c in columns + [target] ==> c in r {
      var i :| 0 <= i < |rows| && rows[i] == r;
      assert X[i] in X;
    }
    assert Labels(ContextOf(target, log2), rows) == y;
    Build(cfg, target, log2, columns + [target], rows, 0)
  }

  /** The samples with their labels (`pd.concat([X, y], axis=1)`). */
  function Joined(X: seq<Row>, target: string, y: seq<Value>): (rows: seq<Row>)
    requires |X| == |y|
    ensures |rows| == |X|
    ensures forall i :: 0 <= i < |X| ==> rows[i] == X[i][target := y[i]]
  {
    seq(|X|, i requires 0 <= i < |X| => X[i][target := y[i]])
  }

  /** `_atravesar_arbol`: a leaf's value; otherwise the child under the
      sample's value of the node's column, or the node's most common class
      when there is no such child (an unseen value, or a missing column). */
  function Traverse(x: Row, n: Node): (r: Option<Value>)
    ensures n.IsLeaf() ==> r == n.value
    ensures !n.IsLeaf() && (n.attribute.None? || n.attribute.value !in x || KeyOf(x[n.attribute.value]) !in n.children) ==>
      r == n.mostCommon
    ensures !n.IsLeaf() && n.attribute.Some? && n.attribute.value in x && KeyOf(x[n.attribute.value]) in n.children ==>
      r == Traverse(x, n.children[KeyOf(x[n.attribute.value])])
    decreases n
  {
    if n.IsLeaf() then n.value
    else if n.attribute.Some? && n.attribute.value in x && KeyOf(x[n.attribute.value]) in n.children then
      Traverse(x, n.children[KeyOf(x[n.attribute.value])])
    else n.mostCommon
  }

  /** `predict`: every sample's prediction; nothing without a tree, except
      for an empty frame, where `apply` gives an empty result whether or
      not the tree is present. */
  function Predict(root: Option<Node>, xs: seq<Row>): (r: Option<seq<Option<Value>>>)
    ensures r.Some? <==> root.Some? || |xs| == 0
    ensures r.Some? ==> |r.value| == |xs|
    ensures r.Some? && root.Some? ==> forall i :: 0 <= i < |xs| ==> r.value[i] == Traverse(xs[i], root.value)
  {
    if |xs| == 0 then Some([])
    else if root.None? then None
    else Some(seq(|xs|, i requires 0 <= i < |xs| => Traverse(xs[i], root.value)))
  }

  // ---------------------------------------------------------------------
  // Properties of the built tree

  /** A decision node on `a`: one child per value of `a` present, each built
      one level deeper from exactly the rows with that value, every one of
      them without column `a`. */
  lemma BranchShape(cfg: Config, target: string, log2: real -> real, columns: seq<string>, rows: seq<Row>, depth: int, a: string)
    requires Covers(target, columns, rows)
    requires a in columns && a != target
    ensures Branch(cfg, target, log2, columns, rows, depth, a).attribute == Some(a)
    ensures !Branch(cfg, target, log2, columns, rows, depth, a).IsLeaf()
    ensures Branch(cfg, target, log2, columns, rows, depth, a).children.Keys == ValueKeys(Column(rows, a))
    ensures forall v :: v in Column(rows, a) ==> Covers(target, Without(columns, a), Drop(Where(rows, a, v), a))
    ensures forall v :: v in Column(rows, a) ==>
      Branch(cfg, target, log2, columns, rows, depth, a).children[KeyOf(v)]
        == Build(cfg, target, log2, Without(columns, a), Drop(Where(rows, a, v), a), depth + 1)
  {
    var n := Branch(cfg, target, log2, columns, rows, depth, a);
    var keys := ValueKeys(Column(rows, a));
    assert n.children.Keys == keys by {
      forall k ensures k in n.children.Keys <==> k in keys { }
    }
    forall v | v in Column(rows, a)
      ensures Covers(target, Without(columns, a), Drop(Where(rows, a, v), a))
    {
      DropCovers(target, columns, rows, a, v);
    }
    forall v | v in Column(rows, a)
      ensures n.children[KeyOf(v)] == Build(cfg, target, log2, Without(columns, a), Drop(Where(rows, a, v), a), depth + 1)
    {
      assert ValueOf(KeyOf(v)) == v;
    }
  }

  /** The rows of a dropped group are the rows with that value, each without
      the column. */
  lemma GroupMembers(rows: seq<Row>, a: string, v: Value)
    requires forall r :: r in rows ==> a in r
    ensures forall r0 :: r0 in rows && r0[a] == v ==> r0 - {a} in Drop(Where(rows, a, v), a)
    ensures forall r :: r in Drop(Where(rows, a, v), a) ==> exists r0 :: r0 in rows && r0[a] == v && r == r0 - {a}
  {
    var sub := Where(rows, a, v);
    var d := Drop(sub, a);
    forall r0 | r0 in rows && r0[a] == v ensures r0 - {a} in d {
      assert r0 in sub;
      var i :| 0 <= i < |sub| && sub[i] == r0;
      assert d[i] == r0 - {a};
    }
    forall r | r in d ensures exists r0 :: r0 in rows && r0[a] == v && r == r0 - {a} {
      var i :| 0 <= i < |d| && d[i] == r;
      assert sub[i] in sub;
    }
  }

  /** Pure labels give a single leaf with that label. */
  lemma PureLabelsGiveLeaf(cfg: Config, target: string, log2: real -> real, columns: seq<string>, rows: seq<Row>, depth: int, c: Value)
    requires Covers(target, columns, rows)
    requires |rows| > 0 && forall r :: r in rows ==> r[target] == c
    ensures Build(cfg, target, log2, columns, rows, depth) == Leaf(Some(c))
  {
    var labels := Labels(ContextOf(target, log2), rows);
    assert forall i :: 0 <= i < |labels| ==> labels[i] == c by {
      forall i | 0 <= i < |labels| ensures labels[i] == c {
        assert rows[i] in rows;
      }
    }
    ConstantHasOneDistinct(labels, c);
    assert Mode(labels) == Some(c) by {
      assert labels[0] == c;
    }
  }

  /** The builder gives a leaf with the mode when the depth limit is
      reached, the labels are pure, the rows are too few or no column gains;
      otherwise it decides on the column `BestFeature` chose. */
  lemma StoppingRules(cfg: Config, target: string, log2: real -> real, columns: seq<string>, rows: seq<Row>, depth: int)
    requires Covers(target, columns, rows)
    ensures (depth >= cfg.maxDepth || |Distinct(Labels(ContextOf(target, log2), rows))| == 1
        || |rows| < cfg.minSamplesSplit || BestFeature(target, log2, columns, rows).None?)
      ==> Build(cfg, target, log2, columns, rows, depth) == Leaf(Mode(Labels(ContextOf(target, log2), rows)))
    ensures !(depth >= cfg.maxDepth || |Distinct(Labels(ContextOf(target, log2), rows))| == 1
        || |rows| < cfg.minSamplesSplit || BestFeature(target, log2, columns, rows).None?)
      ==> (Build(cfg, target, log2, columns, rows, depth)
           == Branch(cfg, target, log2, columns, rows, depth, BestFeature(target, log2, columns, rows).value))
  {
  }

  /** A sample agrees with a row on the listed columns. */
  predicate Agrees(x: Row, r: Row, columns: seq<string>) {
    forall c :: c in columns ==> c in x && c in r && x[c] == r[c]
  }

  /** Agreement on the columns but the label covers a non-label column `a`,
      and agreement without `a` on the rest. */
  lemma AgreesWithout(x: Row, r: Row, columns: seq<string>, target: string, a: string)
    requires Agrees(x, r, Without(columns, target))
    requires a in columns && a != target
    ensures a in x && a in r && x[a] == r[a]
    ensures Agrees(x, r - {a}, Without(Without(columns, a), target))
  {
    assert a in Without(columns, target);
  }

  /** A sample agreeing with one of the training rows on every column but
      the label, the row itself for one, gets a prediction, and it is a
      training label. The sample need not carry the label column. */
  lemma {:induction false} TrainingRowGetsALabel(cfg: Config, target: string, log2: real -> real, columns: seq<string>, rows: seq<Row>, depth: int, x: Row, r: Row)
    requires Covers(target, columns, rows)
    requires r in rows && Agrees(x, r, Without(columns, target))
    ensures var p := Traverse(x, Build(cfg, target, log2, columns, rows, depth));
      p.Some? && p.value in Labels(ContextOf(target, log2), rows)
    decreases |columns|, 1
  {
    var ctx := ContextOf(target, log2);
    var labels := Labels(ctx, rows);
    assert |labels| > 0;
    if depth >= cfg.maxDepth || |Distinct(labels)| == 1 || |rows| < cfg.minSamplesSplit {
    } else {
      match BestFeature(target, log2, columns, rows)
      case None =>
      case Some(a) =>
        BranchRowGetsALabel(cfg, target, log2, columns, rows, depth, a, x, r);
    }
  }

  lemma {:induction false} BranchRowGetsALabel(cfg: Config, target: string, log2: real -> real, columns: seq<string>, rows: seq<Row>, depth: int, a: string, x: Row, r: Row)
    requires Covers(target, columns, rows)
    requires a in columns && a != target
    requires r in rows && Agrees(x, r, Without(columns, target))
    ensures var p := Traverse(x, Branch(cfg, target, log2, columns, rows, depth, a));
      p.Some? && p.value in Labels(ContextOf(target, log2), rows)
    decreases |columns|, 0
  {
    var n := Branch(cfg, target, log2, columns, rows, depth, a);
    BranchShape(cfg, target, log2, columns, rows, depth, a);
    AgreesWithout(x, r, columns, target, a);
    var v := r[a];
    InColumn(rows, a, v);
    var rest := Without(columns, a);
    var sub := Drop(Where(rows, a, v), a);
    assert x[a] == v;
    assert Traverse(x, n) == Traverse(x, n.children[KeyOf(v)]);
    GroupMembers(rows, a, v);
    assert r - {a} in sub;
    AgreesWithout(x, r, columns, target, a);
    TrainingRowGetsALabel(cfg, target, log2, rest, sub, depth + 1, x, r - {a});
    SubLabels(target, log2, rows, a, v);
  }

  /** The labels of a dropped group are labels of the whole. */
  lemma SubLabels(target: string, log2: real -> real, rows: seq<Row>, a: string, v: Value)
    requires forall r :: r in rows ==> a in r && target in r
    requires a != target
    ensures forall r :: r in Drop(Where(rows, a, v), a) ==> target in r
    ensures forall l :: l in Labels(ContextOf(target, log2), Drop(Where(rows, a, v), a)) ==> l in Labels(ContextOf(target, log2), rows)
  {
    var ctx := ContextOf(target, log2);
    var sub := Drop(Where(rows, a, v), a);
    GroupMembers(rows, a, v);
    forall l | l in Labels(ctx, sub) ensures l in Labels(ctx, rows) {
      InColumn(sub, target, l);
      var r :| r in sub && r[target] == l;
      var r0 :| r0 in rows && r0[a] == v && r == r0 - {a};
      InColumn(rows, target, l);
    }
  }

  /** A sample whose value of the split column never occurred at the node
      gets the node's most common class. */
  lemma UnseenValueFallsBack(cfg: Config, target: string, log2: real -> real, columns: seq<string>, rows: seq<Row>, depth: int, a: string, x: Row)
    requires Covers(target, columns, rows)
    requires a in columns && a != target
    requires a !in x || x[a] !in Column(rows, a)
    ensures Traverse(x, Branch(cfg, target, log2, columns, rows, depth, a)) == Mode(Labels(ContextOf(target, log2), rows))
  {
    BranchShape(cfg, target, log2, columns, rows, depth, a);
  }
}

=== FILE: nodes.dfy ===
/** The tree node of mi_arbol_decision (`Nodo`). */
module Nodes {
  import opened Base
  import opened Table

  /** A key of the children dictionary. The builder keys a categorical child
      by `str(value)` and a threshold child by `"<= t"` or `"> t"`; the model
      keeps which of these a key came from instead of the rendered text, so
      two different keys here are two different strings there. */
  datatype Key = Text(text: string) | NumText(x: real) | AtMostKey(t: real) | AboveKey(t: real)

  /** The key `str(v)` a categorical child for cell `v` is stored under. */
  function KeyOf(v: Value): (k: Key)
    ensures k.Text? || k.NumText?
  {
    match v
    case Cat(s) => Text(s)
    case Num(x) => NumText(x)
  }

  /** The cell a value key was made from. */
  function ValueOf(k: Key): (v: Value)
    requires k.Text? || k.NumText?
    ensures KeyOf(v) == k
  {
    match k
    case Text(s) => Cat(s)
    case NumText(x) => Num(x)
  }

  /** The key a cell `v` itself hits when used directly as a dictionary key:
      a text cell equals the key of its own text, while a number never equals
      a string key. */
  function RawKey(v: Value): Option<Key> {
    match v
    case Cat(s) => Some(Text(s))
    case Num(_) => None
  }

  /** A raw lookup finds the child stored for the same cell exactly when the
      cell is text. */
  lemma RawKeyFindsOwnKey(v: Value)
    ensures RawKey(v) == Some(KeyOf(v)) <==> v.Cat?
  {
  }

  /** A node: a decision on `attribute` with its children, or a leaf whose
      `value` is the predicted class. `mostCommon` is the majority class of
      the rows that reached the node, and `threshold` is set on decisions on a
      continuous attribute. */
  datatype Node = Node(
    attribute: Option<string> := None,
    children: map<Key, Node> := map[],
    value: Option<Value> := None,
    mostCommon: Option<Value> := None,
    threshold: Option<real> := None)
  {
    /** `es_nodo_hoja`: a node is a leaf exactly when it holds a value. */
    predicate IsLeaf() {
      value.Some?
    }
  }
}

=== FILE: prediction.dfy ===
/** Training and prediction of mi_arbol_decision/algoritmo3.py
    (`entrenar`, `_obtener_lista_atributos`, `predecir`): the learner keeps
    the training table and the target, builds the tree over every other
    column, and classifies an instance by walking the tree after checking
    that the instance names exactly the training attributes. */
module Prediction {
  import opened Base
  import opened Seqs
  import opened Table
  import opened Nodes
  import opened DecisionTree
  import opened TreeFacts

  /** A training table: its column names, in order, and its rows. */
  datatype Frame = Frame(columns: seq<string>, rows: seq<Row>)

  /** Column names do not repeat, every row has exactly the table's columns,
      and the numeric columns hold numbers. */
  predicate WellFormed(f: Frame, numeric: set<string>) {
    && NoDup(f.columns)
    && forall r :: r in f.rows ==>
         && r.Keys == (set c | c in f.columns)
         && (forall c :: c in f.columns && c in numeric ==> HasNum(r, c))
  }

  /** `ArbolDecision`: the gain threshold, the strategy name, and after
      training the table, the target column and the root. */
  datatype Learner = Learner(
    minGain: real,
    strategyName: string,
    frame: Option<Frame>,
    target: string,
    root: Option<Node>)

  /** The learner before training (`umbral_ganancia=0.001`,
      `funcion_impureza=''`). */
  function NewLearner(minGain: real := 0.001, strategyName: string := ""): (l: Learner)
    ensures l.root.None? && l.frame.None?
    ensures l.minGain == minGain && l.strategyName == strategyName && l.target == ""
  {
    Learner(minGain, strategyName, None, "", None)
  }

  /** What can go wrong: `UnknownColumn` is pandas' KeyError for a target
      that is not a column; `Untrained`, `CountMismatch` and
      `InvalidAttribute` are the RuntimeErrors of the instance checks;
      `MissingKey` is a KeyError and `Incomparable` the TypeError of
      comparing text with a threshold while walking. */
  datatype LearnError =
    | UnknownColumn(name: string)
    | Untrained
    | CountMismatch
    | InvalidAttribute(name: string)
    | MissingKey
    | Incomparable

  /** An ASCII character `str.strip` removes. */
  predicate IsSpace(c: char) {
    c == ' ' || ('\t' <= c <= '\r') || ('\U{1c}' <= c <= '\U{1f}')
  }

  /** `s.strip() == ''`. */
  predicate Blank(s: string) {
    forall i :: 0 <= i < |s| ==> IsSpace(s[i])
  }

  /** `_obtener_lista_atributos`: no attributes before training or for a
      blank target; otherwise the columns other than the target, in order,
      where dropping a target that is not a column fails. */
  function AttributeList(l: Learner): (r: Result<seq<string>, LearnError>)
    ensures (l.frame.None? || Blank(l.target)) ==> r == Ok([])
    ensures r.Err? <==> l.frame.Some? && !Blank(l.target) && l.target !in l.frame.value.columns
    ensures r.Ok? && l.frame.Some? && !Blank(l.target) ==>
      forall x :: x in r.value <==> x in l.frame.value.columns && x != l.target
    ensures r.Ok? && l.frame.Some? && NoDup(l.frame.value.columns) ==> NoDup(r.value)
  {
    if l.frame.None? || Blank(l.target) then Ok([])
    else if l.target !in l.frame.value.columns then Err(UnknownColumn(l.target))
    else Ok(Without(l.frame.value.columns, l.target))
  }

  /** The context a build over `f` with target `target` works in. */
  function ContextOf(target: string, numeric: set<string>, log2: real -> real): Ctx {
    Ctx(target, numeric, log2)
  }

  /** `entrenar`: keep the table and the target and build the tree over the
      attribute list with the learner's strategy; a target that is not a
      column fails (in `drop`, or when the builder reads the labels). */
  function Train(l: Learner, f: Frame, numeric: set<string>, log2: real -> real, target: string): (r: Result<Learner, LearnError>)
    requires l.minGain > -1.0
    requires WellFormed(f, numeric)
    ensures r.Err? <==> target !in f.columns
    ensures r.Ok? ==>
      && r.value.frame == Some(f) && r.value.target == target
      && r.value.minGain == l.minGain && r.value.strategyName == l.strategyName
      && AttributeList(r.value).Ok?
      && r.value.root == Some(Build(ContextOf(target, numeric, log2), StrategyFor(l.strategyName), l.minGain, f.rows, AttributeList(r.value).value))
  {
    var l1 := l.(frame := Some(f), target := target);
    match AttributeList(l1)
    case Err(e) => Err(e)
    case Ok(attrs) =>
      if target !in f.columns then Err(UnknownColumn(target))
      else
        var ctx := ContextOf(target, numeric, log2);
        assert RowsFit(ctx, f.rows, attrs);
        Ok(l1.(root := Some(Build(ctx, StrategyFor(l.strategyName), l.minGain, f.rows, attrs))))
  }

  /** The keys of an instance, in order. */
  function InstanceKeys(inst: seq<(string, Value)>): (ks: seq<string>)
    ensures |ks| == |inst|
    ensures forall i :: 0 <= i < |inst| ==> ks[i] == inst[i].0
  {
    seq(|inst|, i requires 0 <= i < |inst| => inst[i].0)
  }

  /** The instance as a dictionary. */
  function AsMap(inst: seq<(string, Value)>): (m: map<string, Value>)
    ensures forall k :: k in m <==> k in InstanceKeys(inst)
    ensures NoDup(InstanceKeys(inst)) ==> forall i :: 0 <= i < |inst| ==> m[inst[i].0] == inst[i].1
    decreases |inst|
  {
    if |inst| == 0 then map[]
    else
      InstanceKeysTail(inst);
      AsMap(inst[1..])[inst[0].0 := inst[0].1]
  }

  /** The keys of an instance are its first key followed by the keys of the
      rest. */
  lemma InstanceKeysTail(inst: seq<(string, Value)>)
    requires |inst| > 0
    ensures InstanceKeys(inst) == [inst[0].0] + InstanceKeys(inst[1..])
    ensures NoDup(InstanceKeys(inst)) ==>
      NoDup(InstanceKeys(inst[1..])) && forall i :: 1 <= i < |inst| ==> inst[i].0 != inst[0].0
  {
    var ks := InstanceKeys(inst);
    var rest := InstanceKeys(inst[1..]);
    assert ks == [inst[0].0] + rest by {
      forall i | 0 <= i < |rest| ensures rest[i] == ks[i + 1] {
        assert inst[1..][i] == inst[i + 1];
      }
    }
    if NoDup(ks) {
      forall i, j | 0 <= i < j < |rest| ensures rest[i] != rest[j] {
        assert rest[i] == ks[i + 1] && rest[j] == ks[j + 1];
      }
      forall i | 1 <= i < |inst| ensures inst[i].0 != inst[0].0 {
        assert ks[i] != ks[0];
      }
    }
  }

  /** The first key that is not in `attrs`. */
  function FirstUnknown(keys: seq<string>, attrs: seq<string>): (k: Option<nat>)
    ensures k.None? <==> forall x :: x in keys ==> x in attrs
    ensures k.Some? ==>
      k.value < |keys| && keys[k.value] !in attrs && forall i :: 0 <= i < k.value ==> keys[i] in attrs
    decreases |keys|
  {
    if |keys| == 0 then None
    else if keys[0] !in attrs then Some(0)
    else
      var k := FirstUnknown(keys[1..], attrs);
      assert forall x :: x in keys ==> x == keys[0] || x in keys[1..];
      if k.None? then None else Some(k.value + 1)
  }

  /** The walk from `n` down to a leaf. At a categorical node the instance's
      value is looked up as it is: it descends when that value is a child
      key and otherwise answers the node's most common class. At a
      continuous node it descends to `<= t` when the value is at most the
      threshold and to `> t` otherwise. */
  function Walk(n: Node, inst: map<string, Value>): (r: Result<Option<Value>, LearnError>)
    ensures r.Err? ==> r.error == MissingKey || r.error == Incomparable
    decreases n
  {
    if n.IsLeaf() then Ok(n.value)
    else if n.attribute.None? || n.attribute.value !in inst then Err(MissingKey)
    else
      var v := inst[n.attribute.value];
      match n.threshold
      case None =>
        var k := RawKey(v);
        if k.Some? && k.value in n.children then Walk(n.children[k.value], inst) else Ok(n.mostCommon)
      case Some(t) =>
        if v.Cat? then Err(Incomparable)
        else
          var k := if v.x <= t then AtMostKey(t) else AboveKey(t);
          if k in n.children then Walk(n.children[k], inst) else Err(MissingKey)
  }

  /** `predecir`. The checks come first and in this order: the list of
      attributes, a trained tree, as many keys as attributes, and every key
      an attribute; an instance that passes them names exactly the training
      attributes. */
  function Predict(l: Learner, inst: seq<(string, Value)>): (r: Result<Option<Value>, LearnError>)
    requires NoDup(InstanceKeys(inst))
    ensures AttributeList(l).Err? ==> r == Err(AttributeList(l).error)
    ensures AttributeList(l).Ok? && l.root.None? ==> r == Err(Untrained)
    ensures AttributeList(l).Ok? && l.root.Some? && |inst| != |AttributeList(l).value| ==> r == Err(CountMismatch)
    ensures (r.Ok? || r == Err(MissingKey) || r == Err(Incomparable)) ==>
      && l.root.Some? && AttributeList(l).Ok?
      && (forall x :: x in InstanceKeys(inst) ==> x in AttributeList(l).value)
      && r == Walk(l.root.value, AsMap(inst))
    ensures r.Err? && r.error.InvalidAttribute? ==>
      exists i :: 0 <= i < |inst| && r.error.name == inst[i].0 && inst[i].0 !in AttributeList(l).value
        && forall j :: 0 <= j < i ==> inst[j].0 in AttributeList(l).value
    ensures AttributeList(l).Ok? && l.root.Some? && |inst| == |AttributeList(l).value| ==>
      (FirstUnknown(InstanceKeys(inst), AttributeList(l).value).Some? ==>
        r == Err(InvalidAttribute(InstanceKeys(inst)[FirstUnknown(InstanceKeys(inst), AttributeList(l).value).value])))
    ensures AttributeList(l).Ok? && l.root.Some? && |inst| == |AttributeList(l).value| ==>
      (FirstUnknown(InstanceKeys(inst), AttributeList(l).value).None? ==> r == Walk(l.root.value, AsMap(inst)))
  {
    match AttributeList(l)
    case Err(e) => Err(e)
    case Ok(attrs) =>
      if l.root.None? then Err(Untrained)
      else if |inst| != |attrs| then Err(CountMismatch)
      else
        var bad := FirstUnknown(InstanceKeys(inst), attrs);
        if bad.Some? then Err(InvalidAttribute(inst[bad.value].0))
        else Walk(l.root.value, AsMap(inst))
  }

  /** An instance that passes the checks of a learner whose table has no
      repeated column names has exactly the training attributes as keys. */
  lemma ValidatedKeysAreTheAttributes(l: Learner, inst: seq<(string, Value)>)
    requires NoDup(InstanceKeys(inst))
    requires l.frame.Some? ==> NoDup(l.frame.value.columns)
    requires var r := Predict(l, inst); r.Ok? || r == Err(MissingKey) || r == Err(Incomparable)
    ensures AttributeList(l).Ok?
    ensures forall x :: x in InstanceKeys(inst) <==> x in AttributeList(l).value
  {
    var attrs := AttributeList(l).value;
    SameLengthCovers(InstanceKeys(inst), attrs);
  }
}

=== FILE: prediction_facts.dfy ===
/** What prediction of mi_arbol_decision/algoritmo3.py does on the trees
    the builder returns. */
module PredictionFacts {
  import opened Base
  import opened Seqs
  import opened Table
  import opened Nodes
  import opened DecisionTree
  import opened TreeFacts
  import opened Prediction

  /** A tree every walk can finish in: each decision is on an attribute of
      `universe`, carries a most common class, and a continuous one is on a
      numeric attribute and has both threshold children. */
  predicate Routable(ctx: Ctx, n: Node, universe: set<string>)
    decreases n
  {
    || n.IsLeaf()
    || (&& n.attribute.Some? && n.attribute.value in universe && n.mostCommon.Some?
        && (n.threshold.Some? ==>
              && n.attribute.value in ctx.numeric
              && AtMostKey(n.threshold.value) in n.children
              && AboveKey(n.threshold.value) in n.children)
        && forall k :: k in n.children ==> Routable(ctx, n.children[k], universe))
  }

  /** Every tree built from a non-empty row set can be walked to the end. */
  lemma {:induction false} BuildRoutable(ctx: Ctx, s: Strategy, minGain: real, rows: seq<Row>, attrs: seq<string>, universe: set<string>)
    requires minGain > -1.0
    requires RowsFit(ctx, rows, attrs)
    requires |rows| > 0
    requires forall x :: x in attrs ==> x in universe
    ensures Routable(ctx, Build(ctx, s, minGain, rows, attrs), universe)
    decreases |attrs|, |rows|, 1
  {
    if Stops(ctx, s, minGain, rows, attrs) {
      LeafIffStops(ctx, s, minGain, rows, attrs);
    } else if Choose(ctx, s, rows, attrs).IsCategorical() {
      CategoricalSplitShape(ctx, s, minGain, rows, attrs);
      ByValueRoutable(ctx, s, minGain, rows, attrs, Choose(ctx, s, rows, attrs).name, universe);
    } else {
      ContinuousSplitShape(ctx, s, minGain, rows, attrs);
      var d := Choose(ctx, s, rows, attrs);
      AtThresholdRoutable(ctx, s, minGain, rows, attrs, d.name, d.threshold.value, universe);
    }
  }

  lemma {:induction false} ByValueRoutable(ctx: Ctx, s: Strategy, minGain: real, rows: seq<Row>, attrs: seq<string>, a: string, universe: set<string>)
    requires minGain > -1.0
    requires RowsFit(ctx, rows, attrs)
    requires |rows| > 0
    requires a in attrs
    requires forall x :: x in attrs ==> x in universe
    ensures Routable(ctx, SplitByValue(ctx, s, minGain, rows, attrs, a), universe)
    decreases |attrs|, |rows|, 0
  {
    var n := SplitByValue(ctx, s, minGain, rows, attrs, a);
    var rest := RemoveFirst(attrs, a);
    ByValueShape(ctx, s, minGain, rows, attrs, a);
    RestIsSublist(attrs, a);
    forall k | k in n.children
      ensures Routable(ctx, n.children[k], universe)
    {
      var v := ValueOf(k);
      assert v in Column(rows, a);
      BuildRoutable(ctx, s, minGain, Where(rows, a, v), rest, universe);
    }
  }

  lemma {:induction false} AtThresholdRoutable(ctx: Ctx, s: Strategy, minGain: real, rows: seq<Row>, attrs: seq<string>, a: string, t: real, universe: set<string>)
    requires minGain > -1.0
    requires RowsFit(ctx, rows, attrs)
    requires a in attrs && a in ctx.numeric
    requires ProperSplit(rows, a, t)
    requires forall x :: x in attrs ==> x in universe
    ensures Routable(ctx, SplitAtThreshold(ctx, s, minGain, rows, attrs, a, t), universe)
    decreases |attrs|, |rows|, 0
  {
    AtThresholdShape(ctx, s, minGain, rows, attrs, a, t);
    ProperSplitShrinks(rows, a, t);
    BuildRoutable(ctx, s, minGain, AtMost(rows, a, t), attrs, universe);
    BuildRoutable(ctx, s, minGain, Above(rows, a, t), attrs, universe);
  }

  /** On a routable tree, an instance that has every attribute of the tree,
      with a number for every numeric one, always gets a class. */
  lemma {:induction false} WalkTotal(ctx: Ctx, n: Node, universe: set<string>, inst: map<string, Value>)
    requires Routable(ctx, n, universe)
    requires forall a :: a in universe ==> a in inst
    requires forall a :: a in universe && a in ctx.numeric ==> inst[a].Num?
    ensures Walk(n, inst).Ok? && Walk(n, inst).value.Some?
    decreases n
  {
    if !n.IsLeaf() {
      var v := inst[n.attribute.value];
      match n.threshold
      case None =>
        var k := RawKey(v);
        if k.Some? && k.value in n.children {
          WalkTotal(ctx, n.children[k.value], universe, inst);
        }
      case Some(t) =>
        var k := if v.x <= t then AtMostKey(t) else AboveKey(t);
        WalkTotal(ctx, n.children[k], universe, inst);
    }
  }

  /** After training on a non-empty table, every instance that names exactly
      the training attributes and gives numbers for the numeric ones gets a
      class. */
  lemma PredictAfterTraining(l: Learner, f: Frame, numeric: set<string>, log2: real -> real, target: string, inst: seq<(string, Value)>)
    requires l.minGain > -1.0
    requires WellFormed(f, numeric)
    requires target in f.columns
    requires |f.rows| > 0
    requires NoDup(InstanceKeys(inst))
    ensures Train(l, f, numeric, log2, target).Ok?
    ensures var l2 := Train(l, f, numeric, log2, target).value;
      var attrs := AttributeList(l2).value;
      (&& |inst| == |attrs|
       && (forall x :: x in InstanceKeys(inst) <==> x in attrs)
       && (forall i :: 0 <= i < |inst| && inst[i].0 in numeric ==> inst[i].1.Num?))
      ==> Predict(l2, inst).Ok? && Predict(l2, inst).value.Some?
  {
    var l2 := Train(l, f, numeric, log2, target).value;
    var attrs := AttributeList(l2).value;
    var ctx := ContextOf(target, numeric, log2);
    var universe := set x | x in attrs;
    BuildRoutable(ctx, StrategyFor(l.strategyName), l.minGain, f.rows, attrs, universe);
    if && |inst| == |attrs|
       && (forall x :: x in InstanceKeys(inst) <==> x in attrs)
       && (forall i :: 0 <= i < |inst| && inst[i].0 in numeric ==> inst[i].1.Num?)
    {
      PredictOnRoutable(ctx, l2, attrs, inst);
    }
  }

  /** A trained learner whose tree can be walked to the end answers every
      instance naming exactly its attributes, numbers for the numeric ones. */
  lemma PredictOnRoutable(ctx: Ctx, l2: Learner, attrs: seq<string>, inst: seq<(string, Value)>)
    requires l2.root.Some? && AttributeList(l2) == Ok(attrs)
    requires Routable(ctx, l2.root.value, set x | x in attrs)
    requires NoDup(InstanceKeys(inst))
    requires |inst| == |attrs|
    requires forall x :: x in InstanceKeys(inst) <==> x in attrs
    requires forall i :: 0 <= i < |inst| && inst[i].0 in ctx.numeric ==> inst[i].1.Num?
    ensures Predict(l2, inst).Ok? && Predict(l2, inst).value.Some?
  {
    var universe := set x | x in attrs;
    var m := AsMap(inst);
    forall a | a in universe && a in ctx.numeric
      ensures m[a].Num?
    {
      var i :| 0 <= i < |inst| && InstanceKeys(inst)[i] == a;
    }
    WalkTotal(ctx, l2.root.value, universe, m);
  }

  /** One step of a walk through a categorical node whose child key the
      instance's value hits. */
  lemma WalkStepByValue(n: Node, inst: map<string, Value>, k: Key)
    requires !n.IsLeaf() && n.attribute.Some? && n.attribute.value in inst && n.threshold.None?
    requires RawKey(inst[n.attribute.value]) == Some(k) && k in n.children
    ensures Walk(n, inst) == Walk(n.children[k], inst)
  {
  }

  /** One step of a walk through a continuous node. */
  lemma WalkStepAtThreshold(n: Node, inst: map<string, Value>, t: real, k: Key)
    requires !n.IsLeaf() && n.attribute.Some? && n.attribute.value in inst && n.threshold == Some(t)
    requires inst[n.attribute.value].Num?
    requires k == if inst[n.attribute.value].x <= t then AtMostKey(t) else AboveKey(t)
    requires k in n.children
    ensures Walk(n, inst) == Walk(n.children[k], inst)
  {
  }

  /** The training rows that reach the same leaf as the training row `r`:
      the build's rows, narrowed at each decision on r's path to the group
      holding r's value or to the side of the threshold r falls on. They
      include `r` and are drawn from `rows` without adding repeats. */
  function LeafRows(ctx: Ctx, s: Strategy, minGain: real, rows: seq<Row>, attrs: seq<string>, r: Row): (g: seq<Row>)
    requires minGain > -1.0
    requires RowsFit(ctx, rows, attrs)
    requires r in rows
    ensures r in g
    ensures multiset(g) <= multiset(rows)
    ensures forall x :: x in g ==> x in rows
    decreases |attrs|, |rows|
  {
    if Stops(ctx, s, minGain, rows, attrs) then rows
    else
      var d := Choose(ctx, s, rows, attrs);
      var a := d.name;
      if d.IsCategorical() then
        CategoricalSplitShape(ctx, s, minGain, rows, attrs);
        GroupsFit(ctx, rows, attrs, a);
        NarrowingKeepsRows(rows, a, r[a], 0.0);
        LeafRows(ctx, s, minGain, Where(rows, a, r[a]), RemoveFirst(attrs, a), r)
      else
        ContinuousSplitShape(ctx, s, minGain, rows, attrs);
        var t := d.threshold.value;
        AtThresholdShape(ctx, s, minGain, rows, attrs, a, t);
        ProperSplitShrinks(rows, a, t);
        NarrowingKeepsRows(rows, a, r[a], t);
        var side := if r[a].x <= t then AtMost(rows, a, t) else Above(rows, a, t);
        LeafRows(ctx, s, minGain, side, attrs, r)
  }

  /** A training row whose text attributes hold text is walked to the leaf
      of its own group of training rows, `LeafRows`, and is answered with the
      most common class of that group. */
  lemma {:induction false} TrainingRowFollowsItsGroup(ctx: Ctx, s: Strategy, minGain: real, rows: seq<Row>, attrs: seq<string>, r: Row)
    requires minGain > -1.0
    requires RowsFit(ctx, rows, attrs)
    requires r in rows
    requires forall a :: a in attrs && a !in ctx.numeric ==> r[a].Cat?
    ensures Walk(Build(ctx, s, minGain, rows, attrs), r)
      == Ok(Mode(Labels(ctx, LeafRows(ctx, s, minGain, rows, attrs, r))))
    decreases |attrs|, |rows|
  {
    if Stops(ctx, s, minGain, rows, attrs) {
      assert Walk(Build(ctx, s, minGain, rows, attrs), r) == Ok(Mode(Labels(ctx, rows)));
    } else if Choose(ctx, s, rows, attrs).IsCategorical() {
      var a := Choose(ctx, s, rows, attrs).name;
      CategoricalSplitShape(ctx, s, minGain, rows, attrs);
      var n := SplitByValue(ctx, s, minGain, rows, attrs, a);
      var rest := RemoveFirst(attrs, a);
      ByValueShape(ctx, s, minGain, rows, attrs, a);
      RestIsSublist(attrs, a);
      var v := r[a];
      InColumn(rows, a, v);
      assert RawKey(v) == Some(KeyOf(v));
      var group := Where(rows, a, v);
      assert r in group;
      TrainingRowFollowsItsGroup(ctx, s, minGain, group, rest, r);
      WalkStepByValue(n, r, KeyOf(v));
    } else {
      var d := Choose(ctx, s, rows, attrs);
      var a := d.name;
      var t := d.threshold.value;
      ContinuousSplitShape(ctx, s, minGain, rows, attrs);
      var n := SplitAtThreshold(ctx, s, minGain, rows, attrs, a, t);
      AtThresholdShape(ctx, s, minGain, rows, attrs, a, t);
      ProperSplitShrinks(rows, a, t);
      var side := if r[a].x <= t then AtMost(rows, a, t) else Above(rows, a, t);
      var k := if r[a].x <= t then AtMostKey(t) else AboveKey(t);
      assert r in side;
      TrainingRowFollowsItsGroup(ctx, s, minGain, side, attrs, r);
      assert n.children[k] == Build(ctx, s, minGain, side, attrs);
      WalkStepAtThreshold(n, r, t, k);
    }
  }

  /** At a categorical decision of a built tree, an instance whose value was
      not seen among the training rows there, or is a number, is answered
      with the most common class of those rows. */
  lemma UnseenValueFallsBack(ctx: Ctx, s: Strategy, minGain: real, rows: seq<Row>, attrs: seq<string>, inst: map<string, Value>)
    requires minGain > -1.0
    requires RowsFit(ctx, rows, attrs)
    requires !Stops(ctx, s, minGain, rows, attrs)
    requires Choose(ctx, s, rows, attrs).IsCategorical()
    requires var a := Choose(ctx, s, rows, attrs).name;
      a in inst && (inst[a].Num? || inst[a] !in Column(rows, a))
    ensures Walk(Build(ctx, s, minGain, rows, attrs), inst) == Ok(Mode(Labels(ctx, rows)))
  {
    var a := Choose(ctx, s, rows, attrs).name;
    CategoricalSplitShape(ctx, s, minGain, rows, attrs);
    ByValueShape(ctx, s, minGain, rows, attrs, a);
  }

  /** At a categorical decision of a built tree, an instance whose text value
      was seen among the training rows there continues in the child built
      from the rows holding that value. */
  lemma SeenValueDescends(ctx: Ctx, s: Strategy, minGain: real, rows: seq<Row>, attrs: seq<string>, inst: map<string, Value>)
    requires minGain > -1.0
    requires RowsFit(ctx, rows, attrs)
    requires !Stops(ctx, s, minGain, rows, attrs)
    requires Choose(ctx, s, rows, attrs).IsCategorical()
    requires var a := Choose(ctx, s, rows, attrs).name;
      a in inst && inst[a].Cat? && inst[a] in Column(rows, a)
    ensures var a := Choose(ctx, s, rows, attrs).name;
      RowsFit(ctx, Where(rows, a, inst[a]), RemoveFirst(attrs, a))
      && Walk(Build(ctx, s, minGain, rows, attrs), inst)
         == Walk(Build(ctx, s, minGain, Where(rows, a, inst[a]), RemoveFirst(attrs, a)), inst)
  {
    var a := Choose(ctx, s, rows, attrs).name;
    CategoricalSplitShape(ctx, s, minGain, rows, attrs);
    ByValueShape(ctx, s, minGain, rows, attrs, a);
    var n := SplitByValue(ctx, s, minGain, rows, attrs, a);
    WalkStepByValue(n, inst, KeyOf(inst[a]));
  }

  /** At a continuous decision of a built tree on `a` at `t`, an instance
      with number `x` for `a` continues in the child built from the rows at
      most `t` when `x <= t` and from the rows above `t` otherwise; text
      cannot be compared with the threshold. */
  lemma ThresholdRouting(ctx: Ctx, s: Strategy, minGain: real, rows: seq<Row>, attrs: seq<string>, inst: map<string, Value>)
    requires minGain > -1.0
    requires RowsFit(ctx, rows, attrs)
    requires !Stops(ctx, s, minGain, rows, attrs)
    requires !Choose(ctx, s, rows, attrs).IsCategorical()
    requires Choose(ctx, s, rows, attrs).name in inst
    ensures var d := Choose(ctx, s, rows, attrs);
      var a := d.name;
      var t := d.threshold.value;
      var w := Walk(Build(ctx, s, minGain, rows, attrs), inst);
      && RowsFit(ctx, AtMost(rows, a, t), attrs) && RowsFit(ctx, Above(rows, a, t), attrs)
      && (inst[a].Cat? ==> w == Err(Incomparable))
      && (inst[a].Num? && inst[a].x <= t ==> w == Walk(Build(ctx, s, minGain, AtMost(rows, a, t), attrs), inst))
      && (inst[a].Num? && inst[a].x > t ==> w == Walk(Build(ctx, s, minGain, Above(rows, a, t), attrs), inst))
  {
    var d := Choose(ctx, s, rows, attrs);
    ContinuousSplitShape(ctx, s, minGain, rows, attrs);
    RoutingAtThreshold(ctx, s, minGain, rows, attrs, d.name, d.threshold.value, inst);
  }

  /** The routing of one continuous decision on `a` at `t`. */
  lemma RoutingAtThreshold(ctx: Ctx, s: Strategy, minGain: real, rows: seq<Row>, attrs: seq<string>, a: string, t: real, inst: map<string, Value>)
    requires minGain > -1.0
    requires RowsFit(ctx, rows, attrs)
    requires a in attrs && a in ctx.numeric
    requires ProperSplit(rows, a, t)
    requires a in inst
    ensures RowsFit(ctx, AtMost(rows, a, t), attrs) && RowsFit(ctx, Above(rows, a, t), attrs)
    ensures inst[a].Cat? ==> Walk(SplitAtThreshold(ctx, s, minGain, rows, attrs, a, t), inst) == Err(Incomparable)
    ensures inst[a].Num? && inst[a].x <= t ==>
      Walk(SplitAtThreshold(ctx, s, minGain, rows, attrs, a, t), inst) == Walk(Build(ctx, s, minGain, AtMost(rows, a, t), attrs), inst)
    ensures inst[a].Num? && inst[a].x > t ==>
      Walk(SplitAtThreshold(ctx, s, minGain, rows, attrs, a, t), inst) == Walk(Build(ctx, s, minGain, Above(rows, a, t), attrs), inst)
  {
    AtThresholdShape(ctx, s, minGain, rows, attrs, a, t);
    var n := SplitAtThreshold(ctx, s, minGain, rows, attrs, a, t);
    if inst[a].Num? {
      WalkStepAtThreshold(n, inst, t, if inst[a].x <= t then AtMostKey(t) else AboveKey(t));
    }
  }
}

=== FILE: seqs.dfy ===
/** Sequence utilities shared by every variant of the learner: distinct
    elements in order of first occurrence (pandas `unique()`), sums of real
    terms, filters (boolean-mask selection of rows), removal of the first
    occurrence (`list.remove`), the "first strictly greater wins" scan that
    every selection loop of the source uses, and the most common element. */
module Seqs {
  import opened Base

  /** No element occurs twice. */
  predicate NoDup<T(==,!new)>(s: seq<T>) {
    forall i, j :: 0 <= i < j < |s| ==> s[i] != s[j]
  }

  /** The distinct elements of `s`, each once, in order of first occurrence. */
  function Distinct<T(==,!new)>(s: seq<T>): (d: seq<T>)
    ensures NoDup(d)
    ensures forall x :: x in d <==> x in s
    ensures |d| <= |s|
    ensures |s| > 0 ==> |d| > 0 && d[0] == s[0]
    decreases |s|
  {
    if |s| == 0 then []
    else
      var init := s[..|s| - 1];
      assert s == init + [s[|s| - 1]];
      var d0 := Distinct(init);
      assert |init| > 0 ==> init[0] == s[0];
      if s[|s| - 1] in d0 then d0 else d0 + [s[|s| - 1]]
  }

  /** A sequence with a single distinct element is one value repeated. */
  lemma {:induction false} DistinctSingleton<T(!new)>(s: seq<T>)
    requires |Distinct(s)| == 1
    ensures forall i :: 0 <= i < |s| ==> s[i] == s[0]
  {
    var d := Distinct(s);
    forall i | 0 <= i < |s|
      ensures s[i] == s[0]
    {
      assert s[i] in d && s[0] in d;
    }
  }

  /** A non-empty sequence of one repeated value has one distinct element. */
  lemma ConstantHasOneDistinct<T(!new)>(s: seq<T>, c: T)
    requires |s| > 0
    requires forall i :: 0 <= i < |s| ==> s[i] == c
    ensures Distinct(s) == [c]
  {
    var d := Distinct(s);
    assert forall i :: 0 <= i < |d| ==> d[i] == c by {
      forall i | 0 <= i < |d|
        ensures d[i] == c
      {
        assert d[i] in s;
      }
    }
  }

  // ---------------------------------------------------------------------
  // Sums of real terms

  /** The sum of `f` over the elements of `s`. */
  function Sum<T(==,!new)>(s: seq<T>, f: T -> real): real
    decreases |s|
  {
    if |s| == 0 then 0.0 else f(s[0]) + Sum(s[1..], f)
  }

  lemma SumSingleton<T(!new)>(x: T, f: T -> real)
    ensures Sum([x], f) == f(x)
  {
    assert [x][1..] == [];
  }

  lemma {:induction false} SumConcat<T(!new)>(a: seq<T>, b: seq<T>, f: T -> real)
    ensures Sum(a + b, f) == Sum(a, f) + Sum(b, f)
    decreases |a|
  {
    if |a| == 0 {
      assert a + b == b;
    } else {
      assert (a + b)[1..] == a[1..] + b;
      SumConcat(a[1..], b, f);
    }
  }

  /** Taking one element out of a sum. */
  lemma SumRemoveAt<T(!new)>(s: seq<T>, i: nat, f: T -> real)
    requires i < |s|
    ensures Sum(s, f) == f(s[i]) + Sum(s[..i] + s[i + 1..], f)
  {
    assert s == s[..i] + ([s[i]] + s[i + 1..]);
    SumConcat(s[..i], [s[i]] + s[i + 1..], f);
    SumConcat(s[..i], s[i + 1..], f);
    assert ([s[i]] + s[i + 1..])[1..] == s[i + 1..];
  }

  lemma {:induction false} SumOfZeros<T(!new)>(s: seq<T>, f: T -> real)
    requires forall x :: x in s ==> f(x) == 0.0
    ensures Sum(s, f) == 0.0
    decreases |s|
  {
    if |s| > 0 {
      assert forall x :: x in s[1..] ==> x in s;
      SumOfZeros(s[1..], f);
    }
  }

  /** A sum of non-positive terms is non-positive. */
  lemma {:induction false} SumNonPositive<T(!new)>(s: seq<T>, f: T -> real)
    requires forall x :: x in s ==> f(x) <= 0.0
    ensures Sum(s, f) <= 0.0
    decreases |s|
  {
    if |s| > 0 {
      assert forall x :: x in s[1..] ==> x in s;
      SumNonPositive(s[1..], f);
    }
  }

  /** A sum of non-positive terms, one of them negative, is negative. */
  lemma SumNegative<T(!new)>(s: seq<T>, f: T -> real, y: T)
    requires forall x :: x in s ==> f(x) <= 0.0
    requires y in s && f(y) < 0.0
    ensures Sum(s, f) < 0.0
  {
    var i :| 0 <= i < |s| && s[i] == y;
    SumRemoveAt(s, i, f);
    var rest := s[..i] + s[i + 1..];
    assert forall x :: x in rest ==> x in s;
    SumNonPositive(rest, f);
  }

  /** Two functions that agree on the elements have the same sum. */
  lemma {:induction false} SumCongruent<T(!new)>(s: seq<T>, f: T -> real, g: T -> real)
    requires forall x :: x in s ==> f(x) == g(x)
    ensures Sum(s, f) == Sum(s, g)
    decreases |s|
  {
    if |s| > 0 {
      assert forall x :: x in s[1..] ==> x in s;
      SumCongruent(s[1..], f, g);
    }
  }

  /** The sum of a constant term. */
  lemma {:induction false} SumConstant<T(!new)>(s: seq<T>, f: T -> real, c: real)
    requires forall x :: x in s ==> f(x) == c
    ensures Sum(s, f) == |s| as real * c
    decreases |s|
  {
    if |s| > 0 {
      assert forall x :: x in s[1..] ==> x in s;
      SumConstant(s[1..], f, c);
    }
  }

  /** The sum over a duplicate-free sequence depends only on which elements
      with a non-zero term it contains: neither the order nor elements whose
      term is zero matter. */
  lemma {:induction false} SumSameSupport<T(!new)>(a: seq<T>, b: seq<T>, f: T -> real)
    requires NoDup(a) && NoDup(b)
    requires forall x :: f(x) != 0.0 ==> (x in a <==> x in b)
    ensures Sum(a, f) == Sum(b, f)
    decreases |a|
  {
    if |a| == 0 {
      SumOfZeros(b, f);
    } else {
      var x := a[0];
      var a' := a[1..];
      assert forall y :: y in a' ==> y in a && y != x;
      if x in b {
        var i :| 0 <= i < |b| && b[i] == x;
        var b' := b[..i] + b[i + 1..];
        SumRemoveAt(b, i, f);
        RemoveAtKeepsOthers(b, i);
        SumSameSupport(a', b', f);
      } else {
        assert f(x) == 0.0;
        SumSameSupport(a', b, f);
      }
    }
  }

  /** Removing the element at `i` from a duplicate-free sequence leaves a
      duplicate-free sequence of exactly the other elements. */
  lemma RemoveAtKeepsOthers<T(!new)>(b: seq<T>, i: int)
    requires NoDup(b) && 0 <= i < |b|
    ensures forall y :: y in b[..i] + b[i + 1..] <==> y in b && y != b[i]
    ensures NoDup(b[..i] + b[i + 1..])
  {
    var b' := b[..i] + b[i + 1..];
    forall y
      ensures y in b' <==> y in b && y != b[i]
    {
      if y in b' {
        var j :| 0 <= j < |b'| && b'[j] == y;
        if j < i { assert b[j] == y; } else { assert b[j + 1] == y; }
      }
      if y in b && y != b[i] {
        var j :| 0 <= j < |b| && b[j] == y;
        if j < i { assert b'[j] == y; } else { assert j != i; assert b'[j - 1] == y; }
      }
    }
    forall p, q | 0 <= p < q < |b'|
      ensures b'[p] != b'[q]
    {
      var p' := if p < i then p else p + 1;
      var q' := if q < i then q else q + 1;
      assert b'[p] == b[p'] && b'[q] == b[q'];
    }
  }

  // ---------------------------------------------------------------------
  // Filters, counts, removal

  /** The elements of `s` satisfying `p`, in their original order. */
  function Filter<T(==,!new)>(s: seq<T>, p: T -> bool): (r: seq<T>)
    ensures |r| <= |s|
    ensures forall x :: x in r <==> x in s && p(x)
    decreases |s|
  {
    if |s| == 0 then []
    else if p(s[0]) then [s[0]] + Filter(s[1..], p)
    else Filter(s[1..], p)
  }

  /** Two predicates that agree on the elements select the same elements. */
  lemma {:induction false} FilterCongruent<T(!new)>(s: seq<T>, p: T -> bool, q: T -> bool)
    requires forall x :: x in s ==> p(x) == q(x)
    ensures Filter(s, p) == Filter(s, q)
    decreases |s|
  {
    if |s| > 0 {
      assert forall x :: x in s[1..] ==> x in s;
      FilterCongruent(s[1..], p, q);
    }
  }

  /** A filter every element passes keeps the whole sequence. */
  lemma {:induction false} FilterAll<T(!new)>(s: seq<T>, p: T -> bool)
    requires forall x :: x in s ==> p(x)
    ensures Filter(s, p) == s
    decreases |s|
  {
    if |s| > 0 {
      assert forall x :: x in s[1..] ==> x in s;
      FilterAll(s[1..], p);
      assert s == [s[0]] + s[1..];
    }
  }

  /** Two complementary filters split `s` into parts that together hold each
      element exactly as often as `s` does. */
  lemma {:induction false} FilterPartition<T(!new)>(s: seq<T>, p: T -> bool, q: T -> bool)
    requires forall x :: x in s ==> p(x) != q(x)
    ensures multiset(Filter(s, p)) + multiset(Filter(s, q)) == multiset(s)
    ensures |Filter(s, p)| + |Filter(s, q)| == |s|
    decreases |s|
  {
    if |s| > 0 {
      assert forall x :: x in s[1..] ==> x in s;
      FilterPartition(s[1..], p, q);
      assert s == [s[0]] + s[1..];
    }
  }

  /** A filter keeps each element at most as often as `s` holds it. */
  lemma FilterSubMultiset<T(!new)>(s: seq<T>, p: T -> bool)
    ensures multiset(Filter(s, p)) <= multiset(s)
  {
    FilterPartition(s, p, x => !p(x));
  }

  /** How often `x` occurs in `s`. */
  function Count<T(==,!new)>(s: seq<T>, x: T): nat {
    multiset(s)[x]
  }

  lemma {:induction false} CountBounds<T(!new)>(s: seq<T>, x: T)
    ensures Count(s, x) <= |s|
    ensures x in s ==> Count(s, x) >= 1
    decreases |s|
  {
    if |s| > 0 {
      assert s == [s[0]] + s[1..];
      CountBounds(s[1..], x);
    }
  }

  /** `s` without the first occurrence of `x` (Python's `list.remove`). */
  function RemoveFirst<T(==,!new)>(s: seq<T>, x: T): (r: seq<T>)
    requires x in s
    ensures |r| == |s| - 1
    ensures multiset(r) == multiset(s) - multiset{x}
    decreases |s|
  {
    if s[0] == x then
      assert s == [s[0]] + s[1..];
      s[1..]
    else
      assert s == [s[0]] + s[1..];
      [s[0]] + RemoveFirst(s[1..], x)
  }

  /** The elements of `s` other than `x`, in order (dropping a column by name). */
  function Without<T(==,!new)>(s: seq<T>, x: T): (r: seq<T>)
    ensures forall y :: y in r <==> y in s && y != x
    ensures |r| <= |s|
    ensures x in s ==> |r| < |s|
    ensures x !in s ==> r == s
    ensures NoDup(s) ==> NoDup(r)
    ensures NoDup(s) && x in s ==> |r| == |s| - 1
    decreases |s|
  {
    if |s| == 0 then []
    else if s[0] == x then
      assert NoDup(s) ==> x !in s[1..];
      Without(s[1..], x)
    else
      var rest := Without(s[1..], x);
      assert forall y :: y in s[1..] ==> y in s;
      assert NoDup(s) ==> NoDup(s[1..]) && s[0] !in rest by {
        if NoDup(s) {
          assert forall i, j :: 0 <= i < j < |s[1..]| ==> s[1..][i] == s[i + 1] && s[1..][j] == s[j + 1];
        }
      }
      [s[0]] + rest
  }

  /** Two repeat-free sequences of the same length, the first inside the
      second, hold the same elements. */
  lemma {:induction false} SameLengthCovers<T(!new)>(a: seq<T>, b: seq<T>)
    requires NoDup(a) && NoDup(b) && |a| == |b|
    requires forall x :: x in a ==> x in b
    ensures forall y :: y in b ==> y in a
    decreases |a|
  {
    if |a| > 0 {
      var a' := a[1..];
      var b' := Without(b, a[0]);
      assert NoDup(a') by {
        assert forall i, j :: 0 <= i < j < |a'| ==> a'[i] == a[i + 1] && a'[j] == a[j + 1];
      }
      assert a[0] !in a';
      forall x | x in a' ensures x in b' {
        assert x in a;
      }
      SameLengthCovers(a', b');
      forall y | y in b ensures y in a {
        if y != a[0] {
          assert y in b';
        }
      }
    }
  }

  // ---------------------------------------------------------------------
  // The selection scan

  /** State of the scan after some prefix: the index of the current best
      candidate (`None` while the initial sentinel is unbeaten) and its score. */
  datatype Pick = Pick(index: Option<nat>, score: real)

  /** The left-to-right scan of the source's selection loops: start from the
      sentinel score `floor`, and replace the best candidate only when a
      score is strictly greater.  So the winner is the FIRST candidate of
      maximal score, and nothing wins if no score exceeds `floor`. */
  function Best(scores: seq<real>, floor: real): (p: Pick)
    ensures p.index.None? <==> forall i :: 0 <= i < |scores| ==> scores[i] <= floor
    ensures p.index.None? ==> p.score == floor
    ensures p.index.Some? ==>
      && p.index.value < |scores|
      && p.score == scores[p.index.value]
      && p.score > floor
      && (forall i :: 0 <= i < |scores| ==> scores[i] <= p.score)
      && (forall i :: 0 <= i < p.index.value ==> scores[i] < p.score)
    decreases |scores|
  {
    if |scores| == 0 then Pick(None, floor)
    else
      var last := |scores| - 1;
      var p := Best(scores[..last], floor);
      if scores[last] > p.score then Pick(Some(last), scores[last]) else p
  }

  /** Scanning a prefix gives the state the full scan passes through. */
  lemma BestStep(scores: seq<real>, floor: real, k: nat)
    requires k < |scores|
    ensures Best(scores[..k + 1], floor) ==
      (var p := Best(scores[..k], floor);
       if scores[k] > p.score then Pick(Some(k), scores[k]) else p)
  {
    assert scores[..k + 1][..k] == scores[..k];
  }

  /** Position `k` holds the first maximal score. */
  predicate FirstMax(scores: seq<real>, k: int) {
    && 0 <= k < |scores|
    && (forall i :: 0 <= i < |scores| ==> scores[i] <= scores[k])
    && (forall i :: 0 <= i < k ==> scores[i] < scores[k])
  }

  /** The full scan is the scan of all but the last score, then one step. */
  lemma BestLast(scores: seq<real>, floor: real)
    requires |scores| > 0
    ensures Best(scores, floor) ==
      (var p := Best(scores[..|scores| - 1], floor);
       if scores[|scores| - 1] > p.score then Pick(Some(|scores| - 1), scores[|scores| - 1]) else p)
  {
  }

  /** The most common element of a non-empty sequence: the first, in order of
      first occurrence, of maximal count (`Counter.most_common(1)`). */
  function MostCommon<T(==,!new)>(s: seq<T>): (m: T)
    requires |s| > 0
    ensures m in s
    ensures forall x :: x in s ==> Count(s, x) <= Count(s, m)
  {
    var d := Distinct(s);
    var counts := seq(|d|, i requires 0 <= i < |d| => Count(s, d[i]) as real);
    CountBounds(s, d[0]);
    var p := Best(counts, 0.0);
    assert counts[0] > 0.0;
    var m := d[p.index.value];
    assert forall x :: x in s ==> Count(s, x) <= Count(s, m) by {
      forall x | x in s
        ensures Count(s, x) <= Count(s, m)
      {
        var i :| 0 <= i < |d| && d[i] == x;
        assert counts[i] <= counts[p.index.value];
      }
    }
    m
  }

  /** `m` has maximal count in `s`. */
  predicate IsMode<T(==,!new)>(s: seq<T>, m: T) {
    m in s && forall x :: x in s ==> Count(s, x) <= Count(s, m)
  }

  /** The mode as pandas yields it for a possibly empty column
      (`mode()[0] if not empty else None`). */
  function Mode<T(==,!new)>(s: seq<T>): (m: Option<T>)
    ensures m.None? <==> |s| == 0
    ensures m.Some? ==> IsMode(s, m.value)
  {
    if |s| == 0 then None else Some(MostCommon(s))
  }

  // ---------------------------------------------------------------------
  // Sorting distinct reals

  predicate StrictlyIncreasing(s: seq<real>) {
    forall i, j :: 0 <= i < j < |s| ==> s[i] < s[j]
  }

  function InsertSorted(x: real, s: seq<real>): (r: seq<real>)
    requires StrictlyIncreasing(s) && x !in s
    ensures StrictlyIncreasing(r)
    ensures |r| == |s| + 1
    ensures forall y :: y in r <==> y == x || y in s
    decreases |s|
  {
    if |s| == 0 then [x]
    else if x < s[0] then [x] + s
    else
      assert forall y :: y in s[1..] ==> y in s && s[0] < y;
      var rest := InsertSorted(x, s[1..]);
      var r := [s[0]] + rest;
      assert forall i :: 0 < i < |r| ==> r[i] == rest[i - 1] && rest[i - 1] in rest;
      r
  }

  /** The distinct reals of `s` in ascending order (`sorted(unique(...))` and
      `np.unique`). */
  function SortDistinct(s: seq<real>): (r: seq<real>)
    requires NoDup(s)
    ensures StrictlyIncreasing(r)
    ensures |r| == |s|
    ensures forall y :: y in r <==> y in s
    decreases |s|
  {
    if |s| == 0 then []
    else
      assert forall y :: y in s[1..] ==> y in s && y != s[0];
      InsertSorted(s[0], SortDistinct(s[1..]))
  }
}

=== FILE: table.dfy ===
/** The data frame the learners of mi_arbol_decision work on: rows are maps
    from column name to cell, the target column holds the class labels, and
    whether a column is numeric (pandas `is_numeric_dtype`) is fixed per
    column for the whole build. */
module Table {
  import opened Base
  import opened Seqs

  /** A cell: text (an object-dtype column) or a number. Class labels are
      cells of the target column. */
  datatype Value = Cat(text: string) | Num(x: real)

  /** One row of the frame, by column name. */
  type Row = map<string, Value>

  /** What stays fixed during one build: the target column, the numeric
      columns, and the base-2 logarithm the entropy uses (numpy's `log2`,
      left uninterpreted). */
  datatype Ctx = Ctx(target: string, numeric: set<string>, log2: real -> real)

  /** The row has a number in column `a`. */
  predicate HasNum(r: Row, a: string) {
    a in r && r[a].Num?
  }

  /** Every row carries the label and attribute `a`, and a number there when
      `a` is a numeric column. */
  predicate Fits(ctx: Ctx, rows: seq<Row>, a: string) {
    forall r :: r in rows ==> ctx.target in r && a in r && (a in ctx.numeric ==> HasNum(r, a))
  }

  /** Every row carries the label and every attribute of `attrs`. */
  predicate RowsFit(ctx: Ctx, rows: seq<Row>, attrs: seq<string>) {
    && (forall r :: r in rows ==> ctx.target in r)
    && (forall a :: a in attrs ==> Fits(ctx, rows, a))
  }

  /** Fitting survives taking fewer rows and fewer attributes. */
  lemma RowsFitSub(ctx: Ctx, rows: seq<Row>, attrs: seq<string>, sub: seq<Row>, fewer: seq<string>)
    requires RowsFit(ctx, rows, attrs)
    requires forall r :: r in sub ==> r in rows
    requires forall a :: a in fewer ==> a in attrs
    ensures RowsFit(ctx, sub, fewer)
  {
  }

  /** Every group of rows sharing a value of `a` fits the list without `a`,
      which is one shorter. */
  lemma GroupsFit(ctx: Ctx, rows: seq<Row>, attrs: seq<string>, a: string)
    requires RowsFit(ctx, rows, attrs)
    requires a in attrs
    ensures |RemoveFirst(attrs, a)| < |attrs|
    ensures forall v :: RowsFit(ctx, Where(rows, a, v), RemoveFirst(attrs, a))
  {
    var rest := RemoveFirst(attrs, a);
    forall x | x in rest ensures x in attrs {
      assert multiset(rest)[x] > 0;
    }
    forall v ensures RowsFit(ctx, Where(rows, a, v), rest) {
      RowsFitSub(ctx, rows, attrs, Where(rows, a, v), rest);
    }
  }

  /** The cells of column `a`, row by row (`df[a]`). */
  function Column(rows: seq<Row>, a: string): (c: seq<Value>)
    requires forall r :: r in rows ==> a in r
    ensures |c| == |rows|
  {
    seq(|rows|, i requires 0 <= i < |rows| => rows[i][a])
  }

  lemma InColumn(rows: seq<Row>, a: string, v: Value)
    requires forall r :: r in rows ==> a in r
    ensures v in Column(rows, a) <==> exists r :: r in rows && r[a] == v
  {
    var c := Column(rows, a);
    if v in c {
      var i :| 0 <= i < |c| && c[i] == v;
      assert rows[i] in rows;
    }
    if exists r :: r in rows && r[a] == v {
      var r :| r in rows && r[a] == v;
      var i :| 0 <= i < |rows| && rows[i] == r;
      assert c[i] == v;
    }
  }

  /** The class labels of the rows (`df[nombre_objetivo]`). */
  function Labels(ctx: Ctx, rows: seq<Row>): seq<Value>
    requires forall r :: r in rows ==> ctx.target in r
  {
    Column(rows, ctx.target)
  }

  /** The numbers of a numeric column. */
  function NumColumn(rows: seq<Row>, a: string): (c: seq<real>)
    requires forall r :: r in rows ==> HasNum(r, a)
    ensures |c| == |rows|
  {
    seq(|rows|, i requires 0 <= i < |rows| => assert rows[i] in rows; assert HasNum(rows[i], a); rows[i][a].x)
  }

  /** The rows whose cell in `a` equals `v` (`df[df[a] == v]`, one group of
      `df.groupby(a)`). */
  function Where(rows: seq<Row>, a: string, v: Value): seq<Row> {
    Filter(rows, (r: Row) => a in r && r[a] == v)
  }

  /** The rows whose number in `a` is at most `t` (`df[df[a] <= t]`). */
  function AtMost(rows: seq<Row>, a: string, t: real): seq<Row> {
    Filter(rows, (r: Row) => HasNum(r, a) && r[a].x <= t)
  }

  /** The rows whose number in `a` exceeds `t` (`df[df[a] > t]`). */
  function Above(rows: seq<Row>, a: string, t: real): seq<Row> {
    Filter(rows, (r: Row) => HasNum(r, a) && r[a].x > t)
  }

  /** A group and both sides of a threshold split hold each row at most as
      often as the rows they are taken from. */
  lemma NarrowingKeepsRows(rows: seq<Row>, a: string, v: Value, t: real)
    ensures multiset(Where(rows, a, v)) <= multiset(rows)
    ensures multiset(AtMost(rows, a, t)) <= multiset(rows)
    ensures multiset(Above(rows, a, t)) <= multiset(rows)
  {
    FilterSubMultiset(rows, (r: Row) => a in r && r[a] == v);
    FilterSubMultiset(rows, (r: Row) => HasNum(r, a) && r[a].x <= t);
    FilterSubMultiset(rows, (r: Row) => HasNum(r, a) && r[a].x > t);
  }

  /** Both sides of the threshold split are non-empty. */
  predicate ProperSplit(rows: seq<Row>, a: string, t: real) {
    |AtMost(rows, a, t)| > 0 && |Above(rows, a, t)| > 0
  }

  /** The two sides of a threshold split are disjoint and together hold every
      row exactly once. */
  lemma SplitPartition(rows: seq<Row>, a: string, t: real)
    requires forall r :: r in rows ==> HasNum(r, a)
    ensures multiset(AtMost(rows, a, t)) + multiset(Above(rows, a, t)) == multiset(rows)
    ensures |AtMost(rows, a, t)| + |Above(rows, a, t)| == |rows|
    ensures forall r :: r in AtMost(rows, a, t) ==> r !in Above(rows, a, t)
  {
    FilterPartition(rows, (r: Row) => HasNum(r, a) && r[a].x <= t, (r: Row) => HasNum(r, a) && r[a].x > t);
  }

  /** A threshold strictly between two values of the column leaves rows on
      both sides, so each side is strictly smaller than the whole. */
  lemma SplitBetween(rows: seq<Row>, a: string, lo: real, hi: real, t: real)
    requires forall r :: r in rows ==> HasNum(r, a)
    requires lo in NumColumn(rows, a) && hi in NumColumn(rows, a)
    requires lo <= t < hi
    ensures ProperSplit(rows, a, t)
    ensures |AtMost(rows, a, t)| < |rows| && |Above(rows, a, t)| < |rows|
  {
    var c := NumColumn(rows, a);
    var i :| 0 <= i < |c| && c[i] == lo;
    var j :| 0 <= j < |c| && c[j] == hi;
    assert rows[i] in AtMost(rows, a, t);
    assert rows[j] in Above(rows, a, t);
    SplitPartition(rows, a, t);
  }

  /** Each side of a proper split is strictly smaller than the whole. */
  lemma ProperSplitShrinks(rows: seq<Row>, a: string, t: real)
    requires forall r :: r in rows ==> HasNum(r, a)
    requires ProperSplit(rows, a, t)
    ensures |AtMost(rows, a, t)| < |rows| && |Above(rows, a, t)| < |rows|
  {
    SplitPartition(rows, a, t);
  }
}

=== FILE: tree_facts.dfy ===
/** What the builder of mi_arbol_decision/algoritmo3.py promises about the
    tree it returns. */
module TreeFacts {
  import opened Base
  import opened Seqs
  import opened Table
  import opened Attributes
  import opened Nodes
  import opened DecisionTree
  import InfoGain

  /** Every node records a class of maximal frequency among the rows that
      reach it, and none only when no row does. */
  lemma BuildRecordsMode(ctx: Ctx, s: Strategy, minGain: real, rows: seq<Row>, attrs: seq<string>)
    requires minGain > -1.0
    requires RowsFit(ctx, rows, attrs)
    ensures var n := Build(ctx, s, minGain, rows, attrs);
      && (n.mostCommon.None? <==> |rows| == 0)
      && (n.mostCommon.Some? ==> IsMode(Labels(ctx, rows), n.mostCommon.value))
  {
  }

  /** Rows of a single class give a leaf predicting that class. */
  lemma SingleClassGivesLeaf(ctx: Ctx, s: Strategy, minGain: real, rows: seq<Row>, attrs: seq<string>, c: Value)
    requires minGain > -1.0
    requires RowsFit(ctx, rows, attrs)
    requires |rows| > 0
    requires forall r :: r in rows ==> r[ctx.target] == c
    ensures Build(ctx, s, minGain, rows, attrs) == Leaf(Some(c))
  {
    var labels := Labels(ctx, rows);
    forall i | 0 <= i < |labels|
      ensures labels[i] == c
    {
      assert rows[i] in rows;
    }
    ConstantHasOneDistinct(labels, c);
    assert Stops(ctx, s, minGain, rows, attrs);
  }

  /** On a non-empty row set the builder returns a leaf exactly when one of
      the stopping rules fires, and the leaf predicts the most common
      class. */
  lemma LeafIffStops(ctx: Ctx, s: Strategy, minGain: real, rows: seq<Row>, attrs: seq<string>)
    requires minGain > -1.0
    requires RowsFit(ctx, rows, attrs)
    requires |rows| > 0
    ensures var n := Build(ctx, s, minGain, rows, attrs);
      && (n.IsLeaf() <==> Stops(ctx, s, minGain, rows, attrs))
      && (n.IsLeaf() ==> n.value == n.mostCommon && IsMode(Labels(ctx, rows), n.value.value))
  {
  }

  /** The list without `a` holds only attributes of the list. */
  lemma RestIsSublist(attrs: seq<string>, a: string)
    requires a in attrs
    ensures forall x :: x in RemoveFirst(attrs, a) ==> x in attrs
  {
    var rest := RemoveFirst(attrs, a);
    forall x | x in rest ensures x in attrs {
      assert multiset(rest)[x] > 0;
    }
  }

  /** The node a categorical split on `a` builds: one child per value
      present, stored under that value's key and built from exactly the
      rows holding that value, with `a` removed from the list. */
  lemma ByValueShape(ctx: Ctx, s: Strategy, minGain: real, rows: seq<Row>, attrs: seq<string>, a: string)
    requires minGain > -1.0
    requires RowsFit(ctx, rows, attrs)
    requires a in attrs
    ensures var n := SplitByValue(ctx, s, minGain, rows, attrs, a);
      && n.attribute == Some(a) && n.threshold.None? && !n.IsLeaf()
      && n.children.Keys == ValueKeys(Column(rows, a))
      && (forall v :: v in Column(rows, a) ==>
            var sub := Where(rows, a, v);
            && |sub| > 0
            && (forall r :: r in sub <==> r in rows && r[a] == v)
            && RowsFit(ctx, sub, RemoveFirst(attrs, a))
            && n.children[KeyOf(v)] == Build(ctx, s, minGain, sub, RemoveFirst(attrs, a)))
      && multiset(RemoveFirst(attrs, a)) == multiset(attrs) - multiset{a}
  {
    var rest := RemoveFirst(attrs, a);
    RestIsSublist(attrs, a);
    forall v | v in Column(rows, a)
      ensures |Where(rows, a, v)| > 0
      ensures RowsFit(ctx, Where(rows, a, v), rest)
    {
      InColumn(rows, a, v);
      var r :| r in rows && r[a] == v;
      assert r in Where(rows, a, v);
      RowsFitSub(ctx, rows, attrs, Where(rows, a, v), rest);
    }
  }

  /** A categorical split on the best attribute `a`: `a` is a text column,
      and the node is the split by value on `a`. */
  lemma CategoricalSplitShape(ctx: Ctx, s: Strategy, minGain: real, rows: seq<Row>, attrs: seq<string>)
    requires minGain > -1.0
    requires RowsFit(ctx, rows, attrs)
    requires !Stops(ctx, s, minGain, rows, attrs)
    requires Choose(ctx, s, rows, attrs).IsCategorical()
    ensures var a := Choose(ctx, s, rows, attrs).name;
      && a in attrs && a !in ctx.numeric
      && Build(ctx, s, minGain, rows, attrs) == SplitByValue(ctx, s, minGain, rows, attrs, a)
  {
    CategoricalSplitIsTextual(ctx, s, minGain, rows, attrs);
  }

  /** The node a continuous split of `a` at `t` builds: the two children
      are stored under the keys for `<= t` and `> t` and built from the rows
      on each side, which are disjoint, non-empty and together hold every row
      once; the list is unchanged. */
  lemma AtThresholdShape(ctx: Ctx, s: Strategy, minGain: real, rows: seq<Row>, attrs: seq<string>, a: string, t: real)
    requires minGain > -1.0
    requires RowsFit(ctx, rows, attrs)
    requires a in attrs && a in ctx.numeric
    requires ProperSplit(rows, a, t)
    ensures SplitAtThreshold(ctx, s, minGain, rows, attrs, a, t).attribute == Some(a)
    ensures SplitAtThreshold(ctx, s, minGain, rows, attrs, a, t).threshold == Some(t)
    ensures !SplitAtThreshold(ctx, s, minGain, rows, attrs, a, t).IsLeaf()
    ensures SplitAtThreshold(ctx, s, minGain, rows, attrs, a, t).children.Keys == {AtMostKey(t), AboveKey(t)}
    ensures RowsFit(ctx, AtMost(rows, a, t), attrs) && RowsFit(ctx, Above(rows, a, t), attrs)
    ensures SplitAtThreshold(ctx, s, minGain, rows, attrs, a, t).children[AtMostKey(t)] == Build(ctx, s, minGain, AtMost(rows, a, t), attrs)
    ensures SplitAtThreshold(ctx, s, minGain, rows, attrs, a, t).children[AboveKey(t)] == Build(ctx, s, minGain, Above(rows, a, t), attrs)
    ensures multiset(AtMost(rows, a, t)) + multiset(Above(rows, a, t)) == multiset(rows)
    ensures |AtMost(rows, a, t)| > 0 && |Above(rows, a, t)| > 0
  {
    SplitPartition(rows, a, t);
    RowsFitSub(ctx, rows, attrs, AtMost(rows, a, t), attrs);
    RowsFitSub(ctx, rows, attrs, Above(rows, a, t), attrs);
    AtThresholdNode(ctx, s, minGain, rows, attrs, a, t);
  }

  lemma AtThresholdNode(ctx: Ctx, s: Strategy, minGain: real, rows: seq<Row>, attrs: seq<string>, a: string, t: real)
    requires minGain > -1.0
    requires RowsFit(ctx, rows, attrs)
    requires a in attrs && a in ctx.numeric
    requires ProperSplit(rows, a, t)
    requires RowsFit(ctx, AtMost(rows, a, t), attrs) && RowsFit(ctx, Above(rows, a, t), attrs)
    requires |AtMost(rows, a, t)| < |rows| && |Above(rows, a, t)| < |rows|
    ensures var n := SplitAtThreshold(ctx, s, minGain, rows, attrs, a, t);
      && n.attribute == Some(a) && n.threshold == Some(t) && !n.IsLeaf()
      && n.children == map[
           AtMostKey(t) := Build(ctx, s, minGain, AtMost(rows, a, t), attrs),
           AboveKey(t) := Build(ctx, s, minGain, Above(rows, a, t), attrs)]
  {
  }

  /** A continuous split of the best attribute `a`: the threshold is one of
      the midpoint candidates of `a`, and the node is the split at it. */
  lemma ContinuousSplitShape(ctx: Ctx, s: Strategy, minGain: real, rows: seq<Row>, attrs: seq<string>)
    requires minGain > -1.0
    requires RowsFit(ctx, rows, attrs)
    requires !Stops(ctx, s, minGain, rows, attrs)
    requires !Choose(ctx, s, rows, attrs).IsCategorical()
    ensures var d := Choose(ctx, s, rows, attrs);
      && d.name in attrs && d.name in ctx.numeric
      && d.threshold.value in InfoGain.Candidates(rows, d.name)
      && ProperSplit(rows, d.name, d.threshold.value)
      && Build(ctx, s, minGain, rows, attrs) == SplitAtThreshold(ctx, s, minGain, rows, attrs, d.name, d.threshold.value)
  {
    var d := Choose(ctx, s, rows, attrs);
    var bt := InfoGain.BestThreshold(ctx, rows, d.name, InfoGain.SetEntropy(ctx, rows));
    assert bt.1 == d.threshold;
  }

  /** Along every path from the root, a categorical decision uses an
      attribute still available there and removes it for the nodes below;
      continuous decisions remove nothing. */
  predicate CategoricalOnce(n: Node, avail: multiset<string>)
    decreases n
  {
    if n.attribute.None? then true
    else if n.threshold.None? then
      && n.attribute.value in avail
      && forall k :: k in n.children ==> CategoricalOnce(n.children[k], avail - multiset{n.attribute.value})
    else
      forall k :: k in n.children ==> CategoricalOnce(n.children[k], avail)
  }

  /** The tree decides on a categorical attribute at most as often on a path
      as the attribute occurs in the list, so once when the list has no
      repeats; a continuous attribute may come back with other
      thresholds. */
  lemma {:induction false} BuildUsesCategoricalOnce(ctx: Ctx, s: Strategy, minGain: real, rows: seq<Row>, attrs: seq<string>)
    requires minGain > -1.0
    requires RowsFit(ctx, rows, attrs)
    ensures CategoricalOnce(Build(ctx, s, minGain, rows, attrs), multiset(attrs))
    decreases |attrs|, |rows|, 1
  {
    if !Stops(ctx, s, minGain, rows, attrs) {
      var best := Choose(ctx, s, rows, attrs);
      if best.IsCategorical() {
        ByValueUsesCategoricalOnce(ctx, s, minGain, rows, attrs, best.name);
      } else {
        AtThresholdUsesCategoricalOnce(ctx, s, minGain, rows, attrs, best.name, best.threshold.value);
      }
    }
  }

  lemma {:induction false} ByValueUsesCategoricalOnce(ctx: Ctx, s: Strategy, minGain: real, rows: seq<Row>, attrs: seq<string>, a: string)
    requires minGain > -1.0
    requires RowsFit(ctx, rows, attrs)
    requires a in attrs
    ensures CategoricalOnce(SplitByValue(ctx, s, minGain, rows, attrs, a), multiset(attrs))
    decreases |attrs|, |rows|, 0
  {
    var rest := RemoveFirst(attrs, a);
    var n := SplitByValue(ctx, s, minGain, rows, attrs, a);
    RestIsSublist(attrs, a);
    forall k | k in n.children
      ensures CategoricalOnce(n.children[k], multiset(attrs) - multiset{a})
    {
      BuildUsesCategoricalOnce(ctx, s, minGain, Where(rows, a, ValueOf(k)), rest);
    }
  }

  lemma {:induction false} AtThresholdUsesCategoricalOnce(ctx: Ctx, s: Strategy, minGain: real, rows: seq<Row>, attrs: seq<string>, a: string, t: real)
    requires minGain > -1.0
    requires RowsFit(ctx, rows, attrs)
    requires a in attrs && a in ctx.numeric
    requires ProperSplit(rows, a, t)
    ensures CategoricalOnce(SplitAtThreshold(ctx, s, minGain, rows, attrs, a, t), multiset(attrs))
    decreases |attrs|, |rows|, 0
  {
    var lo := AtMost(rows, a, t);
    var hi := Above(rows, a, t);
    ProperSplitShrinks(rows, a, t);
    RowsFitSub(ctx, rows, attrs, lo, attrs);
    RowsFitSub(ctx, rows, attrs, hi, attrs);
    AtThresholdNode(ctx, s, minGain, rows, attrs, a, t);
    BuildUsesCategoricalOnce(ctx, s, minGain, lo, attrs);
    BuildUsesCategoricalOnce(ctx, s, minGain, hi, attrs);
    TwoChildrenOnce(SplitAtThreshold(ctx, s, minGain, rows, attrs, a, t), multiset(attrs),
      AtMostKey(t), Build(ctx, s, minGain, lo, attrs), AboveKey(t), Build(ctx, s, minGain, hi, attrs));
  }

  /** A threshold node whose two children keep the property keeps it. */
  lemma TwoChildrenOnce(n: Node, avail: multiset<string>, kx: Key, x: Node, ky: Key, y: Node)
    requires n.attribute.Some? && n.threshold.Some?
    requires n.children == map[kx := x, ky := y]
    requires CategoricalOnce(x, avail) && CategoricalOnce(y, avail)
    ensures CategoricalOnce(n, avail)
  {
  }
}
